=== FILE: README.md ===
# node-smart-queues in Dafny

This project models the core of node-smart-queues, a TypeScript in-process job queue, and proves properties of the model. A queue holds items under string keys. A shift loop makes passes over the keys in priority order. Each pass flushes at most one batch to the key's callback, or to the global callback. Per-key and global rules choose:

- FIFO or LIFO order;
- the batch size;
- a lock interval between batches;
- cloning on push and on flush.

The items live in a storage backend. The backends modelled here are memory, an append-only log file, Redis lists, Redis sorted sets, and a Redis storage that can use either layout.

Layout (one module per file):

- `types.dfy` (`Types`): shared data and JavaScript helpers. Covers `Option`/`Result`, FIFO/LIFO, queue items, stored counts, truthiness of optional numbers, `filter`, `indexOf` and `splice`.
- `text.dfy` (`Text`): the string operations the backends use on keys and records. Covers `indexOf`, `split`/`join`, `startsWith`, decimal rendering and `parseInt`.
- `item_json.dfy` (`ItemJson`): `JSON.stringify`/`JSON.parse` of a queue item. A value is carried as its JSON text.
- `store.dfy` (`Store`): the storage contract of `src/storage/Storage.ts`. It is one abstract store, and every backend proves that it implements it.
- `memory.dfy` (`Memory`), `filesystem.dfy` (`FileSystem`): the memory and file backends.
- `redis_db.dfy` (`RedisDb`): the Redis commands the backends issue, over a pure keyspace.
- `redis_ops.dfy` (`RedisOps`): the routines the Redis backends share. Covers key decoding, list and sorted-set pops, counting loops and TTL cleanup.
- `redis_list.dfy` (`RedisList`), `redis_set.dfy` (`RedisSet`), `redis.dfy` (`RedisStore`): the three Redis backends.
- `rules.dfy` (`Rules`): the rule records and the flush-side clone expansion.
- `queue.dfy` (`QueueEngine`): `src/Queue.ts`, which covers key registration, setters, push, and one pass of the shift loop.
- `pool.dfy` (`Pool`): `src/pool.ts`, the registry of queue names.
- `stateful.dfy` (`Stateful`): `src/index.ts`, the `StatefulQueue` draft.

How effects are modelled:

- Time (`Date.now()`) is a parameter `now`.
- Callbacks and clone conditions are opaque identities. What a condition answers is an input: a boolean for `clonePre`, an oracle `holds` for `clonePost`.
- The pass records callback calls as `Invocation`s instead of running them.
- Redis is a pure keyspace. A `KEYS pattern` reply is a parameter `listed`, the keys the glob matched.
- Each Redis call's failure is a `Result`.

## Model

| member | source | states |
|---|---|---|
| Types.Taken | src/storage/Memory.ts:29-31 | a loop of `count` single pops on `len` items yields `count` items clamped to 0..len |
| Types.SeqIndexOf | src/storage/FileSystem.ts:60 | JavaScript `indexOf`: -1 exactly when absent, otherwise a position holding the element |
| Types.SeqIndexOfFirst | src/storage/FileSystem.ts:60 | the position `indexOf` returns is the first: the element occurs nowhere before it |
| Types.FilterOrder | src/Queue.ts:41 | `filter` keeps the relative order of the kept elements of a repetition-free list |
| Types.FilterDistinct | src/Queue.ts:41 | `filter` of a repetition-free list has no repetitions |
| Text.IndexOf | src/storage/RedisList.ts:61 | the result is an occurrence of the pattern and no earlier position is one; `None` means no occurrence |
| Text.SplitHead | src/storage/RedisList.ts:61 | the first piece of `split` is the whole string exactly when the separator does not occur, and otherwise the text before its first occurrence |
| Text.SplitJoin | src/storage/FileSystem.ts:36-42 | splitting a join gives the parts back when no part contains the separator's marked character |
| Text.ParseDecimal | src/storage/RedisSet.ts:73 | `parseInt` of a rendered number followed by non-digit text gives the number back |
| Text.DecimalInjective | src/storage/RedisSet.ts:24 | different timestamps render to different decimal texts |
| Text.StrLessTotal | src/storage/RedisSet.ts:26 | the byte order Redis uses to break score ties is total on distinct members |
| ItemJson.DecodeEncode | src/storage/RedisList.ts:18-26 | `JSON.parse(JSON.stringify(item))` gives the item back |
| ItemJson.EncodeInjective | src/storage/RedisSet.ts:26 | different items have different JSON texts, so they are different sorted-set members |
| Store.Push | src/storage/Storage.ts:10-11 | the pushed item becomes the newest of its key; other keys unchanged |
| Store.PopRight | src/storage/Storage.ts:13-14 | removes and returns the oldest `Taken(count)` items of the key, oldest first; the rest stay |
| Store.PopLeft | src/storage/Storage.ts:16-17 | removes and returns the newest `Taken(count)` items, newest first; the rest stay |
| Store.StoredCount | src/storage/Storage.ts:19-20 | every known key with its number of pending items |
| Store.Shift | src/Queue.ts:70-72 | the `shiftFIFO`/`shiftLIFO` view: a FIFO batch is `popRight`'s, a LIFO batch the newest items in push order, with the stored counts from before the removal |
| Store.PushAllItems | src/Queue.ts:137-141 | pushing several items appends them in order to their key only |
| Store.FifoOrder | src/storage/Storage.ts:13-14 | items pushed onto an empty key come back from `popRight` in push order, and the key is empty again |
| Store.LifoOrder | src/storage/Storage.ts:16-17 | items pushed onto an empty key come back from `popLeft` in reverse push order |
| Store.PopPartitions | src/storage/Storage.ts:13-17 | a pop neither loses nor invents items: batch and remainder make up what was stored |
| Store.PendingConservation | src/storage/Storage.ts:10-20 | over any history of pushes and pops, a key's pending count is its pushes minus what its pops took |
| Memory.Push | src/storage/Memory.ts:11-14 | creates the key's array if absent and puts the item at its head (`unshift`) |
| Memory.PopResult | src/storage/Memory.ts:24-34 | takes `Taken(count)` items and keeps the rest; the key gets an entry, even when unknown; other keys unchanged |
| Memory.Pop | src/storage/Memory.ts:24-34 | the source's loop of `count` single pops computes `PopResult` |
| Memory.GetStoredCount | src/storage/Memory.ts:36-44 | every key ever touched, with its array length |
| Memory.AbsPush | src/storage/Memory.ts:11-14 | `push` implements the abstract store's push |
| Memory.AbsPopRight | src/storage/Memory.ts:16-18 | `popRight` implements the abstract store's `popRight` (state and batch) |
| Memory.AbsPopLeft | src/storage/Memory.ts:20-22 | `popLeft` implements the abstract store's `popLeft` (state and batch) |
| Memory.AbsStoredCount | src/storage/Memory.ts:36-44 | `getStoredCount` is the abstract store's stored count |
| Memory.PushPopRoundTrip | src/storage/Memory.ts:11-22 | push then `popRight(1)` on an empty key returns the item and leaves a count of 0 |
| Memory.PopUnknownKeyReportsZero | src/storage/Memory.ts:24-25 | popping an unknown key returns nothing and creates an entry reported with count 0 |
| FileSystem.LineDecodes | src/storage/FileSystem.ts:21 | a record's line, split by the separator, gives the record back when its fields are clean |
| FileSystem.DecodeEncode | src/storage/FileSystem.ts:33-46 | reading back the file text of clean records gives the records |
| FileSystem.Push | src/storage/FileSystem.ts:20-22 | `push` appends the queue's record for the item at the end of the log |
| FileSystem.PushAppendsLine | src/storage/FileSystem.ts:20-22 | at text level, `push` appends exactly one line |
| FileSystem.CountRecordsSpec | src/storage/FileSystem.ts:48-53 | `storedCount` has exactly the keys with records of the queue, each with its record count |
| FileSystem.Shift | src/storage/FileSystem.ts:32-86 | the file as written: other queues' and keys' records untouched, stored counts from before the shift, batch as `splice` returns it |
| FileSystem.ShiftBatch | src/storage/FileSystem.ts:70-77 | the FIFO batch is the first `Taken(count)` records of the key; the LIFO batch is `splice(len - count, count)` |
| FileSystem.DistinctRemovesBatch | src/storage/FileSystem.ts:59-68 | when the key's records are pairwise distinct (and LIFO asks for at most their number), the rewrite removes exactly the batch |
| FileSystem.FifoAliasDropsClones | src/storage/FileSystem.ts:58-61 | two identical records: a FIFO shift of one returns one item but deletes both |
| FileSystem.LifoAliasKeepsClones | src/storage/FileSystem.ts:58-62 | two identical records: a LIFO shift of one returns one item but deletes neither |
| FileSystem.LifoOverAskLosesRecords | src/storage/FileSystem.ts:62-73 | LIFO with `len < count < 2 len`: only the newest `count - len` records are returned, yet all are deleted |
| FileSystem.ShiftByPosition | src/storage/FileSystem.ts:32-86 | the shift that removes exactly the records it returns, chosen by position |
| FileSystem.ShiftByPositionRefines | src/storage/FileSystem.ts:24-30 | the positional shift implements the abstract store's `shiftFIFO`/`shiftLIFO` view for every key |
| FileSystem.PushRefines | src/storage/FileSystem.ts:20-22 | `push` implements the abstract store's push for this queue |
| FileSystem.KeyRecordsOfOthers | src/storage/FileSystem.ts:55-56 | a key's records can be read off the records of every other key |
| RedisDb.LPush | src/storage/RedisList.ts:18 | LPUSH puts the value leftmost; fails only on a non-list |
| RedisDb.RPop | src/storage/RedisList.ts:25 | RPOP takes the rightmost element, nil on an empty list |
| RedisDb.LPop | src/storage/RedisList.ts:36 | LPOP takes the leftmost element, nil on an empty list |
| RedisDb.LLen | src/storage/RedisList.ts:50 | LLEN is the list's length; fails only on a non-list |
| RedisDb.ZAdd | src/storage/RedisSet.ts:26 | ZADD leaves the set holding the member once, with the given score; other keys unchanged |
| RedisDb.ZAddValid | src/storage/RedisSet.ts:26 | ZADD keeps the set ordered by score, then member |
| RedisDb.ZRange | src/storage/RedisSet.ts:33 | ZRANGE reads the members of the normalised rank range, reversed for REV |
| RedisDb.ZRemRangeByRank | src/storage/RedisSet.ts:34 | ZREMRANGEBYRANK removes exactly the normalised rank range |
| RedisDb.ZCount | src/storage/RedisSet.ts:54 | ZCOUNT -inf inf is the set's size; fails only on a non-set |
| RedisDb.ZRemRangeByScore | src/storage/RedisSet.ts:87 | ZREMRANGEBYSCORE -inf t keeps exactly the entries scored above t and replies how many went |
| RedisDb.LowRanks | src/storage/RedisSet.ts:32-34 | the range `0 .. count-1` covers `RankTaken(count)` ranks from 0 |
| RedisDb.HighRanks | src/storage/RedisSet.ts:41-42 | the range `-count .. -1` covers the top `RankTaken(count)` ranks |
| RedisOps.ListKeyRoundTrip | src/storage/RedisList.ts:56-62 | a list key decodes back to the item key exactly when the item key does not contain the key head |
| RedisOps.SetKeyRoundTrip | src/storage/RedisSet.ts:64-70 | a set key decodes back to the item key when the item key avoids the marked characters of head and tail |
| RedisOps.ListPopRightSpec | src/storage/RedisList.ts:21-30 | `count` RPOPs on a list built by LPUSHes return the oldest `Taken(count)` items, oldest first, and leave the rest |
| RedisOps.ListPopLeftSpec | src/storage/RedisList.ts:32-41 | `count` LPOPs return the newest `Taken(count)` items, newest first, and leave the rest |
| RedisOps.SetPushSpec | src/storage/RedisSet.ts:26 | ZADD of an item ranked after every pending one appends it to the set |
| RedisOps.SetPushDuplicate | src/storage/RedisSet.ts:26 | ZADD of an item whose text is already a member adds no entry |
| RedisOps.SetPopRightSpec | src/storage/RedisSet.ts:30-36 | the ascending pop returns the lowest `RankTaken(count)` items in order and removes exactly them |
| RedisOps.SetPopLeftSpec | src/storage/RedisSet.ts:39-44 | the descending pop returns the highest `RankTaken(count)` items, highest first, and removes exactly them |
| RedisOps.CountListsSpec | src/storage/RedisList.ts:43-54 | over well-named listed lists, each item key is counted with its list's length |
| RedisOps.CountSets | src/storage/RedisSet.ts:46-62 | the counting loop can fail only when it rethrows |
| RedisOps.CountSetsSpec | src/storage/RedisSet.ts:46-62 | over listed keys, every set is counted under its item key and WRONGTYPE keys are skipped |
| RedisOps.CleanupSetsSpec | src/storage/RedisSet.ts:78-92 | after the cleanup every listed expirable set keeps only the entries scored above the threshold |
| RedisOps.CleanupSetsCount | src/storage/RedisSet.ts:78-92 | the cleanup's reply is the number of entries it removed |
| RedisOps.CleanupRefines | src/storage/RedisSet.ts:78-92 | the cleanup implements dropping every item pushed at or before the threshold |
| RedisOps.PopSkipsEmptyText | src/storage/RedisList.ts:24-27 | an empty-string element is falsy: RPOP and LPOP loops drop it without parsing, returning nothing for it and leaving the list empty |
| RedisOps.ParseTexts | src/storage/RedisList.ts:26 | parsing the texts of items gives the items back |
| RedisList.New | src/storage/RedisList.ts:9-15 | the constructor as written: the key head is the prefix immediately followed by the queue name |
| RedisList.NewIsolated | src/storage/RedisList.ts:13 | the corrected constructor: its key head is the length-prefixed one |
| RedisList.KeyHead | src/storage/RedisList.ts:13 | the corrected key head: prefix, name length, separator, name |
| RedisList.BuildListKey | src/storage/RedisList.ts:56-58 | the list key is the key head followed by the item key |
| RedisList.KeyRoundTrip | src/storage/RedisList.ts:56-62 | `getItemKey` inverts `buildListKey` exactly for item keys that do not contain the key head, for the source's head and for the corrected one |
| RedisList.PushRefines | src/storage/RedisList.ts:17-19 | `push` stores the item as the newest of its key |
| RedisList.PopRightRefines | src/storage/RedisList.ts:21-30 | `popRight` is the abstract store's `popRight` |
| RedisList.PopLeftRefines | src/storage/RedisList.ts:32-41 | `popLeft` is the abstract store's `popLeft` |
| RedisList.StoredCountRefines | src/storage/RedisList.ts:43-54 | `getStoredCount` reports every key with its pending count |
| RedisList.GetFirstTimestamp | src/storage/RedisList.ts:64-66 | always throws: lists keep no timestamps |
| RedisList.CleanupKeys | src/storage/RedisList.ts:68-70 | always throws |
| RedisList.Flush | src/storage/RedisList.ts:72-80 | deletes exactly the listed keys whose item key is named, or all of them when none is named |
| RedisList.FlushRefines | src/storage/RedisList.ts:72-80 | `flush` empties the named keys (all keys when none is named) and keeps the others |
| RedisList.KeyHeadsCollide | src/storage/RedisList.ts:13 | as written, queue "q" key "1k" and queue "q1" key "k" have the same list key |
| RedisList.CrossTalk | src/storage/RedisList.ts:13-19 | as written, a push to queue "q1" key "k" lands in queue "q"'s list for "1k" |
| RedisList.KeyHeadsInjective | src/storage/RedisList.ts:13 | with the corrected head, distinct (queue, key) pairs have distinct list keys |
| RedisList.Isolation | src/storage/RedisList.ts:17-19 | with the corrected head, a push leaves every other queue's and key's list as it was |
| RedisSet.KeyRoundTrip | src/storage/RedisSet.ts:64-70 | `getItemKey` inverts `buildListKey` for item keys without '§' and 'ç' |
| RedisSet.TailOverlap | src/storage/RedisSet.ts:64-70 | the item key "a§$et" contains neither head nor tail, yet decodes to "a" |
| RedisSet.DashedTtlKeyUnderHead | src/storage/RedisSet.ts:18-19 | the TTL list of the queue named "-" + name lies under this queue's key head |
| RedisSet.TtlKeyIsNoSetKey | src/storage/RedisSet.ts:19 | a queue's TTL key is never one of its own set keys |
| RedisSet.Push | src/storage/RedisSet.ts:23-27 | LPUSH of the timestamp onto the TTL list, then ZADD of the item under its set key |
| RedisSet.PushRefines | src/storage/RedisSet.ts:23-27 | `push` of an item ranked after the pending ones stores it as the newest |
| RedisSet.PushedCloneCollapses | src/storage/RedisSet.ts:26 | pushing an item equal to a pending one leaves the set's size unchanged |
| RedisSet.PopRightRefines | src/storage/RedisSet.ts:30-36 | `popRight` is the store's `popRight` of `RankTaken(count)`, equal to `Taken(count)` for a positive count |
| RedisSet.PopLeftRefines | src/storage/RedisSet.ts:39-44 | `popLeft` is the store's `popLeft` of `RankTaken(count)` |
| RedisSet.ZeroCountDrains | src/storage/RedisSet.ts:32-42 | with a count of 0 both pops return and remove the whole set |
| RedisSet.StoredCountRefines | src/storage/RedisSet.ts:46-62 | `getStoredCount` reports every key with its pending count |
| RedisSet.StoredCountSkipsForeignTtlList | src/storage/RedisSet.ts:53-56 | the TTL list of queue "-" + name answers WRONGTYPE and is skipped |
| RedisSet.StoredCountRethrows | src/storage/RedisSet.ts:53-58 | any other error is rethrown |
| RedisSet.PushRecordsTimestamp | src/storage/RedisSet.ts:24 | `push` records the item's timestamp as the newest in the TTL list |
| RedisSet.FirstTimestampIsOldest | src/storage/RedisSet.ts:72-76 | `getFirstTimestamp` returns the oldest recorded timestamp and drops it; undefined when there is none |
| RedisSet.CleanupKeys | src/storage/RedisSet.ts:78-92 | undefined without a truthy TTL; otherwise a count |
| RedisSet.CleanupRefines | src/storage/RedisSet.ts:78-92 | `cleanupKeys(t)` expires every item pushed at or before t and replies how many |
| RedisStore.BuildListKey | src/storage/Redis.ts:104-108 | the set tail is appended exactly in the TTL layout |
| RedisStore.KeyRoundTrip | src/storage/Redis.ts:104-114 | in both layouts `getItemKey` inverts `buildListKey`, for item keys without '§' and 'ç' |
| RedisStore.Push | src/storage/Redis.ts:19-32 | with a TTL the timestamp joins the cache and the item is ZADDed; otherwise LPUSHed |
| RedisStore.PushRefines | src/storage/Redis.ts:19-32 | `push` stores the item as the newest of its key in either layout |
| RedisStore.PopRightRefines | src/storage/Redis.ts:34-57 | `popRight` is the store's `popRight`: of `count` items with lists, of `RankTaken(count)` with sorted sets |
| RedisStore.PopLeftRefines | src/storage/Redis.ts:59-81 | `popLeft` is the store's `popLeft`: of `count` items with lists, of `RankTaken(count)` with sorted sets |
| RedisStore.GetStoredCount | src/storage/Redis.ts:83-102 | with a TTL the count never fails |
| RedisStore.StoredCountRefines | src/storage/Redis.ts:83-102 | `getStoredCount` reports every key with its pending count |
| RedisStore.StoredCountSwallowsErrors | src/storage/Redis.ts:92-97 | with a TTL every failed ZCOUNT is swallowed, not rethrown |
| RedisStore.NeighbourSetBreaksCount | src/storage/Redis.ts:86-98 | without a TTL, the sorted set of a TTL queue whose name extends this one fails the count with WRONGTYPE |
| RedisStore.GetFirstTimestamp | src/storage/Redis.ts:135-137 | shift of the timestamps cache; undefined exactly when it is empty |
| RedisStore.TimestampsFifo | src/storage/Redis.ts:25 | the cache is first-in first-out |
| RedisStore.DrainInPushOrder | src/storage/Redis.ts:135-137 | draining the cache returns every cached timestamp in push order |
| RedisStore.CleanupKeys | src/storage/Redis.ts:139-153 | undefined without a truthy TTL; keys outside the listing are untouched |
| RedisStore.CleanupRefines | src/storage/Redis.ts:139-153 | `cleanupKeys(t)` expires every item pushed at or before t and replies how many |
| Rules.Repeat | src/Queue.ts:138-140 | a loop pushing `n` times yields `max(n, 0)` copies of the item |
| Rules.ExpandAppend | src/Queue.ts:274-284 | the `flatMap` expansion works item by item and keeps the batch's order |
| Rules.ExpandOne | src/Queue.ts:275-283 | one item becomes `n` copies when its condition is absent or holds, and stays single otherwise |
| Rules.ExpandUnconditional | src/Queue.ts:274-284 | without a condition a batch of `m` items expands to `n * m` |
| Rules.ExpandNoneCloned | src/Queue.ts:274-284 | when the condition holds of no value the batch is unchanged |
| Rules.ExpandUnconditionalAt | src/Queue.ts:274-284 | without a condition and with `n > 0`, position `i` of the expansion holds item `i / n`: each item `n` times in a row, in batch order |
| Rules.ExpandNegativeCount | src/Queue.ts:273-284 | a truthy negative count with no condition runs the copy loop zero times, so the batch expands to nothing |
| QueueEngine.New | src/Queue.ts:15-33 | a new queue has no keys, no priorities, empty global rules, an empty storage and shifting disabled |
| QueueEngine.OrderKeysByPriority | src/Queue.ts:39-45 | the priority list, alone when unknown keys are ignored, otherwise followed by exactly the registered keys outside it |
| QueueEngine.OrderKeysDistinct | src/Queue.ts:39-45 | with a repetition-free priority list no key is visited twice in a pass |
| QueueEngine.NotPrioritizedOrder | src/Queue.ts:40-44 | keys outside the priority list follow it, in the order they were registered |
| QueueEngine.ParseKey | src/Queue.ts:231-235 | true exactly for the wildcard; other keys are registered with empty rules if new, and existing rules are kept |
| QueueEngine.GetRule | src/Queue.ts:251-254 | a concrete key reads its own rules, the wildcard the global ones |
| QueueEngine.SetRule | src/Queue.ts:245-249 | the update applies to the key's rules (global for the wildcard) and leaves every other key's rules |
| QueueEngine.KeyShiftKind | src/Queue.ts:238-243 | a key's own kind wins; otherwise the global kind |
| QueueEngine.KindUsed | src/Queue.ts:70-72 | FIFO exactly when the kind is FIFO; unset means LIFO |
| QueueEngine.DefaultKindIsLifo | src/Queue.ts:70-72 | as written, with no kind set for the key or globally a pass pops LIFO |
| QueueEngine.KindIntended | src/Queue.ts:8 | corrected: the documented default, LIFO exactly when LIFO was set and FIFO otherwise |
| QueueEngine.DefaultKindIntended | src/Queue.ts:8 | under the documented default an unset key and global kind pop FIFO, unlike the code |
| QueueEngine.KindIntendedAgrees | src/Queue.ts:70-72 | the documented default and the `== "FIFO"` test agree exactly when a kind is set |
| QueueEngine.KeyKindOverrides | src/Queue.ts:147-161 | a key's own kind wins over the global kind, whichever was set later |
| QueueEngine.GlobalKindApplies | src/Queue.ts:238-243 | the global kind applies to a key without its own |
| QueueEngine.Fifo | src/Queue.ts:149-153 | sets FIFO for the key or globally |
| QueueEngine.Lifo | src/Queue.ts:157-161 | sets LIFO for the key or globally |
| QueueEngine.Priority | src/Queue.ts:166-170 | sets the priority list and the ignore flag; nothing else changes |
| QueueEngine.Exec | src/Queue.ts:175-180 | sets `exec` and clears `execAsync` |
| QueueEngine.ExecAsync | src/Queue.ts:185-190 | sets `execAsync` and clears `exec` |
| QueueEngine.FlushSize | src/Queue.ts:195-199 | sets the shift size |
| QueueEngine.Every | src/Queue.ts:204-208 | sets the lock interval |
| QueueEngine.ClonePre | src/Queue.ts:213-218 | sets the push-side clone count and condition, an absent condition replacing an earlier one |
| QueueEngine.ClonePost | src/Queue.ts:223-228 | sets the flush-side clone count and condition |
| QueueEngine.SettersAreLocal | src/Queue.ts:149-249 | each of the eight per-key setters (`fifo`, `lifo`, `exec`, `execAsync`, `flushSize`, `every`, `clonePre`, `clonePost`), for any value set, leaves the rules read for every other key unchanged |
| QueueEngine.Push | src/Queue.ts:117-145 | throws for "*"; ignored keys are dropped; otherwise the key's own `clonePre` decides between `n` copies and one, only that key's items change, and shifting is enabled |
| QueueEngine.PushStoresOne | src/Queue.ts:131-142 | without a key `clonePre` exactly one item is stored, whatever the global rules say |
| QueueEngine.ParseItemsPost | src/Queue.ts:261-285 | with no truthy `clonePost` anywhere the batch is unchanged |
| QueueEngine.ClonePostPrecedence | src/Queue.ts:265-283 | a key's own `clonePost` makes the global one irrelevant; one item becomes `n` copies or stays single by its condition |
| QueueEngine.ParseItemsPostKeyWins | src/Queue.ts:265-284 | for any batch, a key's truthy `clonePost` makes the global rules irrelevant; with no condition each item comes `n` times in order; a condition that holds of no value leaves the batch unchanged |
| QueueEngine.ParseItemsPostGlobal | src/Queue.ts:265-284 | for any batch, without a truthy key `clonePost` the global rule applies and the key's own condition is ignored; positive count with no condition repeats each item in order, negative drops the batch, a condition holding of nothing keeps it |
| QueueEngine.ParseItemsPostAppend | src/Queue.ts:274-284 | flush-side cloning keeps the batch's order |
| QueueEngine.Handler | src/Queue.ts:81-87 | no callback exactly when neither the key nor the global rules have one; the key's own callback wins |
| QueueEngine.Dispatch | src/Queue.ts:80-88 | one call per item in batch order, with the item's value and the key |
| QueueEngine.KeyCallbackPreferred | src/Queue.ts:81-83 | after `exec`/`execAsync` on a key its batches go to that callback, awaited or not |
| QueueEngine.GlobalCallbackFallback | src/Queue.ts:84-86 | a key without callbacks falls back to the global `exec` |
| QueueEngine.LockKey | src/Queue.ts:104-107 | marks the key locked at `now`; settings and other keys unchanged |
| QueueEngine.UnlockKey | src/Queue.ts:109-112 | clears the key's lock and lock time; settings and other keys unchanged |
| QueueEngine.ShiftSize | src/Queue.ts:69 | the key's own truthy shift size, otherwise 1 |
| QueueEngine.ReleaseLock | src/Queue.ts:62-67 | after release the key is not locked and its settings are unchanged |
| QueueEngine.PopBatch | src/Queue.ts:69-77 | the batch is the oldest (FIFO) or newest (LIFO) `Taken(size)` items, and `shiftEnabled` says whether anything was pending before the pop |
| QueueEngine.Visit | src/Queue.ts:52-98 | a key is served exactly when ready and crashes exactly when unregistered under a global callback; only its items and lock change; a served key is locked when an interval is set |
| QueueEngine.PopAndDispatch | src/Queue.ts:69-90 | past the lock check, a key is served exactly when its shift size takes some pending item; the wildcard without rules crashes exactly when it holds items; an empty pop leaves the key's items as they were |
| QueueEngine.VisitBatch | src/Queue.ts:69-88 | a served key's calls are the dispatched batch, and exactly the batch leaves the store |
| QueueEngine.DispatchBySettings | src/Queue.ts:80-88 | cloning and dispatch depend on the settings alone, not on the lock fields |
| QueueEngine.PassOver | src/Queue.ts:52-98 | every call of a pass is for the one served key, no other key's items change, and a served pass did not crash |
| QueueEngine.Pass | src/Queue.ts:48-100 | a pass does nothing while shifting is disabled |
| QueueEngine.SkipPreserves | src/Queue.ts:55-79 | a skipped visit changes no key's readiness and no key's crash condition |
| QueueEngine.PassOverServesFirstReady | src/Queue.ts:52-97 | the pass serves the first ready key in its order, if no earlier key crashes |
| QueueEngine.PassOverNoneReady | src/Queue.ts:52-99 | with no key ready and none crashing, the pass flushes nothing and keeps every key's items |
| QueueEngine.PassServesFirstReady | src/Queue.ts:48-97 | priority: a pass serves the first ready key of `orderKeysByPriority` |
| QueueEngine.PassSafe | src/Queue.ts:52-98 | a queue whose ordered keys are registered (or with no global callback) never crashes a pass |
| QueueEngine.PassOverSafe | src/Queue.ts:52-98 | a walk over keys none of which would crash does not crash |
| QueueEngine.UnregisteredPriorityCrashes | src/Queue.ts:238-243 | a never-registered priority key crashes the pass when a global callback is set |
| QueueEngine.LockedKeyWaits | src/Queue.ts:62-67 | within the interval after a batch the key is skipped |
| QueueEngine.LockExpires | src/Queue.ts:62-67 | once the interval has elapsed a locked key is exactly as ready as an unlocked one |
| QueueEngine.GlobalFlushSizeIgnored | src/Queue.ts:69 | a global `flushSize` never changes a key's batch size |
| QueueEngine.PushThenFlush | src/Queue.ts:117-145 | on a fresh queue with a key callback, a pushed value is handed to that callback, awaited, by the next pass, and the key is empty again |
| Pool.RegisterNewQueue | src/pool.ts:5-11 | fails with the duplicate message exactly when the entry is present; otherwise appends it |
| Pool.RegisterKeepsDistinct | src/pool.ts:5-11 | registration keeps the registry free of repetitions |
| Pool.ConstructAsWritten | src/Queue.ts:27-33 | the constructor registers the fresh queue object, which always succeeds |
| Pool.DuplicateNameAccepted | src/Queue.ts:31 | two queues with the same name are both created |
| Pool.Construct | src/pool.ts:5-11 | registering by name: refused exactly when the name is taken, and the registry gains the name otherwise |
| Pool.ConstructAll | src/pool.ts:5-11 | after any sequence of constructions the registered names are the old ones plus every attempted name |
| Pool.ConstructAllDistinct | src/pool.ts:5-11 | the registry never holds an entry twice |
| Pool.SecondConstructRefused | src/pool.ts:6-8 | constructing a name twice: the second attempt fails with the duplicate message |
| Stateful.ParseKey | src/index.ts:125-128 | maps to the internal default key exactly for "all" and for the internal key; other keys pass through |
| Stateful.ParseKeyIdempotent | src/index.ts:125-128 | parsing a parsed key changes nothing |
| Stateful.Lookup | src/index.ts:63-84 | the key's rules, or a TypeError exactly when the parsed key has none |
| Stateful.OnlyDefaultKey | src/index.ts:40-42 | on a new queue `Lookup` (reading `this.rules[key]`) succeeds exactly for "all" and the internal key |
| Stateful.PushAsWritten | src/index.ts:55-76 | with `clonePre` set nothing is stored; without it the item is stored once |
| Stateful.Push | src/index.ts:55-76 | the corrected push: `clonePre` copies when the condition is absent or holds, none when it fails, one without `clonePre`; only that key changes |
| Stateful.PushAgreesWithoutClones | src/index.ts:75 | without `clonePre` both pushes store the same |
| Stateful.Shift | src/index.ts:79-91 | undefined for a count of 0; an unforced shift throws a TypeError for a key without rules and is refused while `exec` is set; a forced one never reads the rules and reaches any key; the batch is one value for a count of 1 (a TypeError on an empty batch), a list otherwise, and exactly the batch leaves the store |
| Stateful.ForcedShiftReachesAnyKey | src/index.ts:84-87 | on a new queue an unforced shift of a key without rules throws, while a forced one returns its item and empties it |
| Stateful.PushShiftRoundTrip | src/index.ts:55-91 | on a FIFO storage, push then `shift("all")` returns the value and empties the key |
| Stateful.ClonePreDropsItems | src/index.ts:71 | as written, `clonePre(3)` stores nothing, so the next shift throws; the corrected push stores three copies |
| Stateful.ClonedPushRoundTrip | src/index.ts:63-74 | corrected: for `n > 1`, a push under `clonePre(n)` is shifted back as `n` copies of the value |
| Stateful.Exec | src/index.ts:93-97 | sets `exec` on the key's rules; a TypeError for an unregistered key |
| Stateful.ExecBlocksShift | src/index.ts:84-85 | an `exec` callback blocks manual shifts unless forced |
| Stateful.ShiftSizeAsWritten | src/index.ts:99-103 | writes `every` and leaves the shift size as it was |
| Stateful.ShiftSize | src/index.ts:99-103 | corrected: writes the shift size and leaves `every` |
| Stateful.ShiftSizeClobbersEvery | src/index.ts:99-109 | as written, `shiftSize` is `every` and overwrites a delay set before; the corrected one keeps it |
| Stateful.Every | src/index.ts:105-109 | sets `every`; a TypeError for an unregistered key |
| Stateful.ClonePre | src/index.ts:111-116 | sets the clone count and condition; a TypeError for an unregistered key |
| Stateful.ClonePost | src/index.ts:118-123 | sets the flush-side clone count and condition; a TypeError for an unregistered key |

## Left out

- I/O, timers and the shift loop's pacing are not modelled. This covers the file system calls, the Redis connection, `shiftRate` and the sleeps. `now` is one value for a whole pass: the lock time is taken after the callbacks in the source, and here it is `now`.
- The engine runs over the abstract store's `shiftFIFO`/`shiftLIFO` view. In src/Queue.ts:29 the default storage is `MemoryStorage`, and src/storage/Memory.ts defines only `popRight`/`popLeft`. The view used is the file backend's, taken by position (`FileSystem.ShiftByPosition`).
- Storage switching (`fileSystemStorage`, `inMemoryStorage`, src/Queue.ts:289-300) is not modelled. Nor is `getName`.
- `registerNewStorage` (imported by src/storage/FileSystem.ts:2) and `deleteRedisKeys` (imported by src/storage/RedisSet.ts:3) are not defined in the modelled files and are not part of this model. A call to `registerNewStorage` is modelled as a no-op. For the same reason `RedisSetStorage.flush` is left out.
- Calls to `runTTLCleanup` are modelled as no-ops. The function is defined nowhere in the core, and its definition is commented out at src/storage/Redis.ts:116-133. As written, calling it throws. At src/storage/RedisSet.ts:20 that happens in the constructor. At src/storage/RedisSet.ts:25 and src/storage/Redis.ts:26 it happens after the `LPUSH` or the timestamp-cache push and before `ZADD`. Its pieces, `getFirstTimestamp` and `cleanupKeys`, are modelled.
- The `KEYS` glob is not interpreted. The reply is a parameter, and the code's own `startsWith` re-filter is modelled.
- Values are their JSON text. `JSON.parse` of text that is not an item's is a failure (`BadJson`) rather than an arbitrary object.
- `Object.keys` puts integer-like keys first. Here `keyOrder` is plain registration order.
- Callback and condition bodies, their exceptions, and the unawaited `execAsync` promise are not modelled. A condition's answer is an input. A global `exec` is called without the queue name (src/Queue.ts:85); the name argument is not modelled.
- A failed call is a `Result`. Effects a Redis sequence made before the failing command are not kept. This includes the in-memory timestamps cache: src/storage/Redis.ts:25-27 pushes the timestamp before `ZADD`, so in the source a failed `ZADD` leaves it cached, while the model's failed `RedisStore.Push` returns no new state, so the caller keeps the old cache.
- FileSystem.Shift: modelled over the decoded records, not the file's line text. It is stated only for files whose every line splits into four fields with a timestamp `parseInt` reads, written in canonical digits (not "07"), and whose fields are clean: no line break and no '§'. The source needs only that no field contains the full separator, and it compares and rewrites the raw line text. So a field with a lone '§' (such as the key "all§nqs§default§key" of src/index.ts:27), a non-canonical timestamp, or an undecodable line is outside what the model promises.
- Numbers are unbounded integers. Fractional counts, `NaN` and JavaScript number rounding are not modelled.
- RedisSet.PushRefines, RedisStore.PushRefines: stated only for an item ranked after every pending one (a later timestamp, or an equal one with a larger JSON text). A sorted set re-orders earlier-stamped items by score.
- QueueEngine.Visit: a pass that crashes is reported as crashed, and the model does not say what the rest of the loop would do.

## Findings

| source | as written | input that shows it | evidently intended | confidence | as-written member | corrected member |
|---|---|---|---|---|---|---|
| src/storage/FileSystem.ts:58-62 | the rewrite removes records whose `indexOf` among the key's joined records is in range, so identical records (clones pushed in the same millisecond) share the first copy's index | two identical records; FIFO shift of 1 | remove exactly the records returned | high, not executed | FileSystem.FifoAliasDropsClones | FileSystem.ShiftByPositionRefines |
| src/storage/FileSystem.ts:62,73 | LIFO `splice(length - count, count)` with `count > length` starts at a negative index counted from the end, while the rewrite drops every record | 2 records, LIFO shift of 3 | return all records it drops | high, not executed | FileSystem.LifoOverAskLosesRecords | FileSystem.ShiftByPosition |
| src/storage/RedisList.ts:13 | the key head is "n§çs§çq-lst" + name with no separator between name and item key | queue "q" key "1k" and queue "q1" key "k" | one list per (queue, key) | high, not executed | RedisList.CrossTalk | RedisList.Isolation |
| src/Queue.ts:31, src/pool.ts:5-11 | the constructor registers the queue object, and `includes` compares by identity, so names are never compared | two `new Queue("a")` | the second construction throws | high, not executed | Pool.DuplicateNameAccepted | Pool.SecondConstructRefused |
| src/index.ts:71 | `for (let i; i < n; i++)`: `undefined < n` is false, so the loop never runs | `clonePre("all", 3)` then `push("all", v)` then `shift()` | `n` copies stored | high, not executed | Stateful.ClonePreDropsItems | Stateful.ClonedPushRoundTrip |
| src/index.ts:99-103 | `shiftSize` writes the `every` field | `every("all", 500)` then `shiftSize("all", 5)` | set the shift size and keep `every` | high, not executed | Stateful.ShiftSizeClobbersEvery | Stateful.ShiftSize |
| src/Queue.ts:8, src/Queue.ts:70-72 | the documentation calls FIFO the default, but the pass tests the kind with `== "FIFO"` and an unset kind is `undefined`, so it pops LIFO | a key with no `fifo`/`lifo` call anywhere, holding two items, shift size 1 | an unset kind pops FIFO | high, not executed | QueueEngine.DefaultKindIsLifo | QueueEngine.DefaultKindIntended |

=== FILE: filesystem.dfy ===
/** The file backend (src/storage/FileSystem.ts): one log file shared by all
    queues, one record per line, `name SEP key SEP timestamp SEP json` ended
    by `SEP "\n"`. Push appends a record; shift re-reads the whole file,
    returns a batch of the key's records and rewrites the rest. The file is
    modelled both as text and as its list of records. */
module FileSystem {
  import opened Types
  import opened Text
  import Store

  const SEPARATOR: string := "§çn§çq§çs§çsep§ç"
  const LINE_END: string := SEPARATOR + "\n"

  /** One line of the log: queue name, key, push timestamp and value JSON. */
  datatype Record = Record(queue: string, key: string, ts: nat, json: string)

  // ---- text encoding ----

  function Fields(r: Record): seq<string> {
    [r.queue, r.key, Decimal(r.ts), r.json]
  }

  /** A record's line, without its line end. */
  function EncodeLine(r: Record): string {
    Join(Fields(r), SEPARATOR)
  }

  /** The file text: every record's line followed by `LINE_END`. */
  function EncodeFile(f: seq<Record>): string {
    if |f| == 0 then "" else EncodeLine(f[0]) + LINE_END + EncodeFile(f[1..])
  }

  /** A line split by `SEPARATOR`: four fields, the third read by `parseInt`
      and the fourth taken as the value's JSON. */
  function DecodeLine(line: string): Option<Record> {
    var c := Split(line, SEPARATOR);
    if |c| != 4 then None
    else match ParseInt(c[2])
      case None => None
      case Some(ts) => Some(Record(c[0], c[1], ts, c[3]))
  }

  function DecodeLines(lines: seq<string>): Option<seq<Record>> {
    if |lines| == 0 then Some([])
    else match (DecodeLine(lines[0]), DecodeLines(lines[1..]))
      case (Some(r), Some(rs)) => Some([r] + rs)
      case _ => None
  }

  /** Reading the file: split by `LINE_END`, drop the empty piece after the
      last line end, decode every line. */
  function DecodeFile(text: string): Option<seq<Record>> {
    var pieces := Split(text, LINE_END);
    var lines := if pieces[|pieces| - 1] == "" then pieces[..|pieces| - 1] else pieces;
    DecodeLines(lines)
  }

  /** A field the format can carry: it holds neither the separator's first
      character nor a line break. */
  predicate CleanField(s: string) {
    '§' !in s && '\n' !in s
  }

  predicate CleanRecord(r: Record) {
    CleanField(r.queue) && CleanField(r.key) && CleanField(r.json)
  }

  lemma DigitsAreClean(s: string)
    requires AllDigits(s)
    ensures CleanField(s)
  {
    forall i | 0 <= i < |s| ensures s[i] != '§' && s[i] != '\n' {
      assert IsDigit(s[i]);
    }
  }

  lemma SeparatorFacts()
    ensures Marked(SEPARATOR, 0)
    ensures '\n' !in SEPARATOR
    ensures Marked(LINE_END, 16) && LINE_END[16] == '\n'
  {
    assert LINE_END[..16] == SEPARATOR;
  }

  lemma {:induction false} NoBreakInJoin(parts: seq<string>, sep: string)
    requires '\n' !in sep
    requires forall i :: 0 <= i < |parts| ==> '\n' !in parts[i]
    ensures '\n' !in Join(parts, sep)
    decreases |parts|
  {
    if |parts| > 1 {
      NoBreakInJoin(parts[1..], sep);
    }
  }

  lemma LineDecodes(r: Record)
    requires CleanRecord(r)
    ensures DecodeLine(EncodeLine(r)) == Some(r)
    ensures '\n' !in EncodeLine(r)
  {
    DigitsAreClean(Decimal(r.ts));
    SeparatorFacts();
    SplitJoin(Fields(r), SEPARATOR, 0);
    ParseDecimal(r.ts, "");
    assert Decimal(r.ts) + "" == Decimal(r.ts);
    NoBreakInJoin(Fields(r), SEPARATOR);
  }

  function Lines(f: seq<Record>): (ls: seq<string>)
    ensures |ls| == |f|
    ensures forall i :: 0 <= i < |f| ==> ls[i] == EncodeLine(f[i])
  {
    seq(|f|, i requires 0 <= i < |f| => EncodeLine(f[i]))
  }

  lemma {:induction false} EncodeFileIsJoin(f: seq<Record>)
    ensures EncodeFile(f) == Join(Lines(f) + [""], LINE_END)
    decreases |f|
  {
    if |f| > 0 {
      EncodeFileIsJoin(f[1..]);
      assert Lines(f[1..]) == Lines(f)[1..];
      assert (Lines(f) + [""])[1..] == Lines(f[1..]) + [""];
    }
  }

  lemma {:induction false} DecodeLinesOf(f: seq<Record>)
    requires forall i :: 0 <= i < |f| ==> CleanRecord(f[i])
    ensures DecodeLines(Lines(f)) == Some(f)
    decreases |f|
  {
    if |f| > 0 {
      LineDecodes(f[0]);
      DecodeLinesOf(f[1..]);
      assert Lines(f)[1..] == Lines(f[1..]);
      assert f == [f[0]] + f[1..];
    }
  }

  lemma LinesHaveNoBreak(f: seq<Record>)
    requires forall i :: 0 <= i < |f| ==> CleanRecord(f[i])
    ensures forall i :: 0 <= i < |Lines(f) + [""]| ==> LINE_END[16] !in (Lines(f) + [""])[i]
  {
    var parts := Lines(f) + [""];
    SeparatorFacts();
    forall i | 0 <= i < |parts| ensures LINE_END[16] !in parts[i] {
      if i < |f| {
        LineDecodes(f[i]);
      }
    }
  }

  /** Round trip of the format: reading back the text of clean records
      yields exactly those records, in file order. */
  lemma DecodeEncode(f: seq<Record>)
    requires forall i :: 0 <= i < |f| ==> CleanRecord(f[i])
    ensures DecodeFile(EncodeFile(f)) == Some(f)
  {
    var parts := Lines(f) + [""];
    EncodeFileIsJoin(f);
    LinesHaveNoBreak(f);
    SeparatorFacts();
    SplitJoin(parts, LINE_END, 16);
    assert parts[|parts| - 1] == "";
    assert parts[..|parts| - 1] == Lines(f);
    DecodeLinesOf(f);
  }

  // ---- push ----

  /** `push`: appends the queue's record for the item. */
  function Push(f: seq<Record>, name: string, key: string, item: QueueItem): (r: seq<Record>)
    ensures |r| == |f| + 1 && r[..|f|] == f
    ensures r[|f|] == Record(name, key, item.pushTimestamp, item.value)
  {
    f + [Record(name, key, item.pushTimestamp, item.value)]
  }

  lemma {:induction false} EncodeAppend(f: seq<Record>, r: Record)
    ensures EncodeFile(f + [r]) == EncodeFile(f) + EncodeLine(r) + LINE_END
    decreases |f|
  {
    if |f| == 0 {
      assert [r][1..] == [];
    } else {
      assert (f + [r])[1..] == f[1..] + [r];
      EncodeAppend(f[1..], r);
    }
  }

  /** At text level, push appends exactly one line to the file. */
  lemma PushAppendsLine(f: seq<Record>, name: string, key: string, item: QueueItem)
    ensures EncodeFile(Push(f, name, key, item))
         == EncodeFile(f) + EncodeLine(Record(name, key, item.pushTimestamp, item.value)) + LINE_END
  {
    EncodeAppend(f, Record(name, key, item.pushTimestamp, item.value));
  }

  // ---- the records of a key ----

  predicate IsKey(r: Record, name: string, key: string) {
    r.queue == name && r.key == key
  }

  /** The records of queue `name` and key `key`, in file order. */
  function KeyRecords(f: seq<Record>, name: string, key: string): seq<Record> {
    if |f| == 0 then []
    else (if IsKey(f[0], name, key) then [f[0]] else []) + KeyRecords(f[1..], name, key)
  }

  /** The records of every other queue or key, in file order. */
  function Others(f: seq<Record>, name: string, key: string): seq<Record> {
    if |f| == 0 then []
    else (if IsKey(f[0], name, key) then [] else [f[0]]) + Others(f[1..], name, key)
  }

  /** Keys that have at least one record of queue `name`. */
  function KeysOf(f: seq<Record>, name: string): set<string> {
    if |f| == 0 then {}
    else (if f[0].queue == name then {f[0].key} else {}) + KeysOf(f[1..], name)
  }

  lemma {:induction false} KeysOfHaveRecords(f: seq<Record>, name: string)
    ensures forall k :: k in KeysOf(f, name) <==> KeyRecords(f, name, k) != []
    decreases |f|
  {
    if |f| > 0 {
      KeysOfHaveRecords(f[1..], name);
    }
  }

  lemma KeyRecordsAppend(a: seq<Record>, b: seq<Record>, name: string, key: string)
    ensures KeyRecords(a + b, name, key) == KeyRecords(a, name, key) + KeyRecords(b, name, key)
    ensures Others(a + b, name, key) == Others(a, name, key) + Others(b, name, key)
  {
    KeyRecordsOfAppend(a, b, name, key);
    OthersOfAppend(a, b, name, key);
  }

  lemma {:induction false} KeyRecordsOfAppend(a: seq<Record>, b: seq<Record>, name: string, key: string)
    ensures KeyRecords(a + b, name, key) == KeyRecords(a, name, key) + KeyRecords(b, name, key)
    decreases |a|
  {
    if |a| == 0 {
      assert a + b == b;
    } else {
      assert a + b == [a[0]] + (a[1..] + b);
      assert a == [a[0]] + a[1..];
      KeyRecordsCons(a[0], a[1..] + b, name, key);
      KeyRecordsCons(a[0], a[1..], name, key);
      KeyRecordsOfAppend(a[1..], b, name, key);
    }
  }

  lemma {:induction false} OthersOfAppend(a: seq<Record>, b: seq<Record>, name: string, key: string)
    ensures Others(a + b, name, key) == Others(a, name, key) + Others(b, name, key)
    decreases |a|
  {
    if |a| == 0 {
      assert a + b == b;
    } else {
      assert a + b == [a[0]] + (a[1..] + b);
      assert a == [a[0]] + a[1..];
      KeyRecordsCons(a[0], a[1..] + b, name, key);
      KeyRecordsCons(a[0], a[1..], name, key);
      OthersOfAppend(a[1..], b, name, key);
    }
  }

  /** Unfolding both views on a sequence with a known first record. */
  lemma KeyRecordsCons(x: Record, rest: seq<Record>, name: string, key: string)
    ensures KeyRecords([x] + rest, name, key) == (if IsKey(x, name, key) then [x] else []) + KeyRecords(rest, name, key)
    ensures Others([x] + rest, name, key) == (if IsKey(x, name, key) then [] else [x]) + Others(rest, name, key)
  {
    var s := [x] + rest;
    assert s[0] == x && s[1..] == rest;
  }

  /** Another key's records can be read off the records outside `key`. */
  lemma {:induction false} KeyRecordsOfOthers(f: seq<Record>, name: string, key: string, k: string)
    requires k != key
    ensures KeyRecords(Others(f, name, key), name, k) == KeyRecords(f, name, k)
    decreases |f|
  {
    if |f| > 0 {
      KeyRecordsOfOthers(f[1..], name, key, k);
      var rest := Others(f[1..], name, key);
      assert KeyRecords(f, name, k) == (if IsKey(f[0], name, k) then [f[0]] else []) + KeyRecords(f[1..], name, k);
      if IsKey(f[0], name, key) {
        assert Others(f, name, key) == [] + rest == rest;
        assert !IsKey(f[0], name, k);
        assert KeyRecords(f, name, k) == [] + KeyRecords(f[1..], name, k);
      } else {
        assert Others(f, name, key) == [f[0]] + rest;
        KeyRecordsCons(f[0], rest, name, k);
      }
    }
  }

  /** The `storedCount` map shift computes, one record of this queue at a
      time. */
  function CountRecords(f: seq<Record>, name: string): StoredCount
    decreases |f|
  {
    if |f| == 0 then map[]
    else
      var c := CountRecords(f[1..], name);
      if f[0].queue == name then c[f[0].key := CountOf(c, f[0].key) + 1] else c
  }

  /** `storedCount` has exactly the keys with records of the queue, each
      with its number of records. */
  lemma {:induction false} CountRecordsSpec(f: seq<Record>, name: string)
    ensures forall k :: k in CountRecords(f, name) <==> KeyRecords(f, name, k) != []
    ensures forall k :: CountOf(CountRecords(f, name), k) == |KeyRecords(f, name, k)|
    decreases |f|
  {
    if |f| > 0 {
      CountRecordsSpec(f[1..], name);
    }
  }

  function ToItem(r: Record): QueueItem {
    QueueItem(r.ts, r.json)
  }

  function ToItems(rs: seq<Record>): (items: seq<QueueItem>)
    ensures |items| == |rs|
    ensures forall i :: 0 <= i < |rs| ==> items[i] == ToItem(rs[i])
    decreases |rs|
  {
    if |rs| == 0 then [] else [ToItem(rs[0])] + ToItems(rs[1..])
  }

  lemma ToItemsSlices(rs: seq<Record>, n: nat)
    requires n <= |rs|
    ensures ToItems(rs[..n]) == ToItems(rs)[..n]
    ensures ToItems(rs[n..]) == ToItems(rs)[n..]
  {
    ToItemsTake(rs, n);
    ToItemsDrop(rs, n);
  }

  lemma ToItemsTake(rs: seq<Record>, n: nat)
    requires n <= |rs|
    ensures ToItems(rs[..n]) == ToItems(rs)[..n]
  {
    var a, b := ToItems(rs[..n]), ToItems(rs)[..n];
    forall i | 0 <= i < n ensures a[i] == b[i] {
      assert rs[..n][i] == rs[i];
    }
  }

  lemma ToItemsDrop(rs: seq<Record>, n: nat)
    requires n <= |rs|
    ensures ToItems(rs[n..]) == ToItems(rs)[n..]
  {
    var a, b := ToItems(rs[n..]), ToItems(rs)[n..];
    forall i | 0 <= i < |rs| - n ensures a[i] == b[i] {
      assert rs[n..][i] == rs[n + i];
    }
  }

  lemma ToItemsAppend(a: seq<Record>, b: seq<Record>)
    ensures ToItems(a + b) == ToItems(a) + ToItems(b)
  {
  }

  // ---- shift, as written ----

  /** The rewrite filter: a record of this queue and key goes when its
      `indexOf` among the key's records `ks` is below `count` (FIFO) or at
      least `length - count` (LIFO). */
  predicate DroppedAsWritten(r: Record, ks: seq<Record>, kind: Kind, count: int) {
    if kind == FIFO then SeqIndexOf(ks, r) < count else SeqIndexOf(ks, r) >= |ks| - count
  }

  /** The rewritten file: every record except the key's dropped ones. */
  function Rewrite(f: seq<Record>, name: string, key: string, ks: seq<Record>, kind: Kind, count: int): seq<Record> {
    if |f| == 0 then []
    else
      (if IsKey(f[0], name, key) && DroppedAsWritten(f[0], ks, kind, count) then [] else [f[0]])
      + Rewrite(f[1..], name, key, ks, kind, count)
  }

  /** The key's records the rewrite keeps, in order. */
  function KeptAsWritten(xs: seq<Record>, ks: seq<Record>, kind: Kind, count: int): seq<Record> {
    if |xs| == 0 then []
    else (if DroppedAsWritten(xs[0], ks, kind, count) then [] else [xs[0]]) + KeptAsWritten(xs[1..], ks, kind, count)
  }

  /** The batch shift hands back: `splice(0, count)` (FIFO) or
      `splice(length - count, count)` (LIFO) of the key's records. */
  function BatchAsWritten(ks: seq<Record>, kind: Kind, count: int): seq<Record> {
    if kind == FIFO then SpliceRemoved(ks, 0, count) else SpliceRemoved(ks, |ks| - count, count)
  }

  lemma {:induction false} RewriteEffect(f: seq<Record>, name: string, key: string, ks: seq<Record>, kind: Kind, count: int)
    ensures Others(Rewrite(f, name, key, ks, kind, count), name, key) == Others(f, name, key)
    ensures KeyRecords(Rewrite(f, name, key, ks, kind, count), name, key)
         == KeptAsWritten(KeyRecords(f, name, key), ks, kind, count)
    decreases |f|
  {
    if |f| > 0 {
      var x := f[0];
      var r1 := Rewrite(f[1..], name, key, ks, kind, count);
      var k1 := KeyRecords(f[1..], name, key);
      RewriteEffect(f[1..], name, key, ks, kind, count);
      assert KeyRecords(f, name, key) == (if IsKey(x, name, key) then [x] else []) + k1;
      assert Others(f, name, key) == (if IsKey(x, name, key) then [] else [x]) + Others(f[1..], name, key);
      if IsKey(x, name, key) && DroppedAsWritten(x, ks, kind, count) {
        assert Rewrite(f, name, key, ks, kind, count) == [] + r1 == r1;
      } else {
        assert Rewrite(f, name, key, ks, kind, count) == [x] + r1;
        KeyRecordsCons(x, r1, name, key);
      }
      if IsKey(x, name, key) {
        assert ([x] + k1)[0] == x && ([x] + k1)[1..] == k1;
        assert KeptAsWritten([x] + k1, ks, kind, count)
            == (if DroppedAsWritten(x, ks, kind, count) then [] else [x]) + KeptAsWritten(k1, ks, kind, count);
      } else {
        assert KeyRecords(f, name, key) == k1;
      }
    }
  }

  /** `shift`: the rewritten file and the output (stored counts before the
      removal, and the batch as items). */
  function Shift(f: seq<Record>, name: string, kind: Kind, key: string, count: int): (r: (seq<Record>, ShiftOutput))
    ensures r.1.storedCount == CountRecords(f, name)
    ensures Others(r.0, name, key) == Others(f, name, key)
    ensures var ks := KeyRecords(f, name, key);
      KeyRecords(r.0, name, key) == KeptAsWritten(ks, ks, kind, count)
  {
    var ks := KeyRecords(f, name, key);
    RewriteEffect(f, name, key, ks, kind, count);
    (Rewrite(f, name, key, ks, kind, count),
     ShiftOutput(CountRecords(f, name), ToItems(BatchAsWritten(ks, kind, count))))
  }

  /** The batch is the first `Taken(count, n)` of the key's records (FIFO),
      or, when `count` does not exceed their number, the last `count` in file
      order (LIFO). */
  lemma ShiftBatch(f: seq<Record>, name: string, kind: Kind, key: string, count: int)
    ensures var ks := KeyRecords(f, name, key); var n := Taken(count, |ks|);
      && (kind == FIFO ==> Shift(f, name, kind, key, count).1.items == ToItems(ks[..n]))
      && (kind == LIFO && count <= |ks| ==> Shift(f, name, kind, key, count).1.items == ToItems(ks[|ks| - n..]))
  {
    var ks := KeyRecords(f, name, key);
    ShiftItems(f, name, kind, key, count);
    BatchSlices(ks, kind, count);
  }

  lemma ShiftItems(f: seq<Record>, name: string, kind: Kind, key: string, count: int)
    ensures Shift(f, name, kind, key, count).1.items == ToItems(BatchAsWritten(KeyRecords(f, name, key), kind, count))
  {
  }

  lemma ShiftKept(f: seq<Record>, name: string, kind: Kind, key: string, count: int)
    ensures KeyRecords(Shift(f, name, kind, key, count).0, name, key)
         == KeptAsWritten(KeyRecords(f, name, key), KeyRecords(f, name, key), kind, count)
  {
  }

  /** The `splice` calls of the batch, as slices. */
  lemma BatchSlices(ks: seq<Record>, kind: Kind, count: int)
    ensures var n := Taken(count, |ks|);
      && (kind == FIFO ==> BatchAsWritten(ks, kind, count) == ks[..n])
      && (kind == LIFO && count <= |ks| ==> BatchAsWritten(ks, kind, count) == ks[|ks| - n..])
    ensures var n := Taken(count, |ks|);
      && (kind == FIFO ==> ToItems(BatchAsWritten(ks, kind, count)) == ToItems(ks[..n]))
      && (kind == LIFO && count <= |ks| ==> ToItems(BatchAsWritten(ks, kind, count)) == ToItems(ks[|ks| - n..]))
  {
    if kind == FIFO {
      SpliceFront(ks, count);
    } else if count <= |ks| {
      SpliceBack(ks, count);
    }
  }

  lemma SpliceFront<T>(s: seq<T>, count: int)
    ensures SpliceRemoved(s, 0, count) == s[..Taken(count, |s|)]
  {
    var n := Taken(count, |s|);
    assert SpliceRemoved(s, 0, count) == s[0..n];
  }

  lemma SpliceBack<T>(s: seq<T>, count: int)
    requires count <= |s|
    ensures SpliceRemoved(s, |s| - count, count) == s[|s| - Taken(count, |s|)..]
  {
    var n := Taken(count, |s|);
    assert SpliceRemoved(s, |s| - count, count) == s[|s| - n..|s|];
  }

  function Max(a: int, b: int): int {
    if a < b then b else a
  }

  lemma IndexOfDistinct(ks: seq<Record>, j: nat)
    requires Distinct(ks) && j < |ks|
    ensures SeqIndexOf(ks, ks[j]) == j
  {
    var i := SeqIndexOf(ks, ks[j]);
    assert ks[i] == ks[j];
  }

  /** Over pairwise-distinct records the rewrite filter decides by position:
      FIFO drops the first `count` ... */
  lemma DroppedAtFifo(ks: seq<Record>, j: nat, count: int)
    requires Distinct(ks) && j < |ks|
    ensures DroppedAsWritten(ks[j], ks, FIFO, count) <==> j < Taken(count, |ks|)
  {
    IndexOfDistinct(ks, j);
  }

  /** ... and LIFO, asked for at most their number, the last `count`. */
  lemma DroppedAtLifo(ks: seq<Record>, j: nat, count: int)
    requires Distinct(ks) && j < |ks| && count <= |ks|
    ensures DroppedAsWritten(ks[j], ks, LIFO, count) <==> j >= |ks| - Taken(count, |ks|)
  {
    IndexOfDistinct(ks, j);
  }

  lemma SliceFrom<T>(s: seq<T>, j: nat)
    requires j < |s|
    ensures s[j..] == [s[j]] + s[j + 1..]
  {
  }

  lemma SliceRange<T>(s: seq<T>, j: nat, m: nat)
    requires j < m <= |s|
    ensures s[j..m] == [s[j]] + s[j + 1..m]
  {
  }

  lemma KeptCons(ks: seq<Record>, j: nat, kind: Kind, count: int)
    requires j < |ks|
    ensures KeptAsWritten(ks[j..], ks, kind, count)
         == (if DroppedAsWritten(ks[j], ks, kind, count) then [] else [ks[j]]) + KeptAsWritten(ks[j + 1..], ks, kind, count)
  {
    assert ks[j..][0] == ks[j];
    assert ks[j..][1..] == ks[j + 1..];
  }

  /** Over pairwise-distinct records `indexOf` is the position, so a FIFO
      rewrite keeps the key's records from position `count` on ... */
  lemma {:induction false} KeptOfDistinctFifo(ks: seq<Record>, j: nat, count: int)
    requires Distinct(ks) && j <= |ks|
    ensures KeptAsWritten(ks[j..], ks, FIFO, count) == ks[Max(j, Taken(count, |ks|))..]
    decreases |ks| - j
  {
    if j < |ks| {
      var t := Taken(count, |ks|);
      var rest := KeptAsWritten(ks[j + 1..], ks, FIFO, count);
      KeptOfDistinctFifo(ks, j + 1, count);
      KeptCons(ks, j, FIFO, count);
      DroppedAtFifo(ks, j, count);
      if j < t {
        assert KeptAsWritten(ks[j..], ks, FIFO, count) == [] + rest == rest;
      } else {
        assert Max(j, t) == j && Max(j + 1, t) == j + 1;
        SliceFrom(ks, j);
      }
    }
  }

  /** ... and a LIFO rewrite (of at most their number) keeps those before
      position `length - count`. */
  lemma {:induction false} KeptOfDistinctLifo(ks: seq<Record>, j: nat, count: int)
    requires Distinct(ks) && j <= |ks| && count <= |ks|
    ensures KeptAsWritten(ks[j..], ks, LIFO, count) == ks[j..Max(j, |ks| - Taken(count, |ks|))]
    decreases |ks| - j
  {
    if j < |ks| {
      var m := |ks| - Taken(count, |ks|);
      var rest := KeptAsWritten(ks[j + 1..], ks, LIFO, count);
      KeptOfDistinctLifo(ks, j + 1, count);
      KeptCons(ks, j, LIFO, count);
      DroppedAtLifo(ks, j, count);
      if j < m {
        assert Max(j, m) == m == Max(j + 1, m);
        SliceRange(ks, j, m);
      } else {
        assert KeptAsWritten(ks[j..], ks, LIFO, count) == [] + rest == rest;
        assert Max(j, m) == j && Max(j + 1, m) == j + 1;
      }
    }
  }

  /** For pairwise-distinct records, what a shift removes from the key is
      exactly the batch it returns: FIFO leaves the records after the batch,
      LIFO (with `count` at most the number of records) those before it. */
  lemma DistinctRemovesBatch(f: seq<Record>, name: string, kind: Kind, key: string, count: int)
    requires Distinct(KeyRecords(f, name, key))
    requires kind == LIFO ==> count <= |KeyRecords(f, name, key)|
    ensures var ks := KeyRecords(f, name, key); var n := Taken(count, |ks|);
      && (kind == FIFO ==> KeyRecords(Shift(f, name, kind, key, count).0, name, key) == ks[n..])
      && (kind == LIFO ==> KeyRecords(Shift(f, name, kind, key, count).0, name, key) == ks[..|ks| - n])
  {
    var ks := KeyRecords(f, name, key);
    if kind == FIFO {
      KeptOfDistinctFifo(ks, 0, count);
    } else {
      KeptOfDistinctLifo(ks, 0, count);
    }
    assert ks[0..] == ks;
  }

  /** Identical records (clones pushed in the same millisecond) all share the
      first copy's `indexOf`: a FIFO shift of one deletes both copies. */
  lemma FifoAliasDropsClones(a: Record, name: string, key: string)
    requires IsKey(a, name, key)
    ensures Shift([a, a], name, FIFO, key, 1).1.items == [ToItem(a)]
    ensures Shift([a, a], name, FIFO, key, 1).0 == []
  {
    var f := [a, a];
    KeyRecordsCons(a, [], name, key);
    KeyRecordsCons(a, [a], name, key);
    assert [a] + [] == [a] && [a] + [a] == f;
    assert KeyRecords(f, name, key) == f;
    assert SeqIndexOf(f, a) == 0;
    assert f[1..] == [a] && f[1..][1..] == [];
    assert SpliceRemoved(f, 0, 1) == [a];
    assert SpliceRemoved(f, 1, 1) == [a];
    assert DroppedAsWritten(a, f, FIFO, 1);
    assert Rewrite(f[1..][1..], name, key, f, FIFO, 1) == [];
    assert Rewrite(f[1..], name, key, f, FIFO, 1) == [];
    assert Rewrite(f, name, key, f, FIFO, 1) == [];
  }

  /** ... and a LIFO shift of one returns a copy but deletes none. */
  lemma LifoAliasKeepsClones(a: Record, name: string, key: string)
    requires IsKey(a, name, key)
    ensures Shift([a, a], name, LIFO, key, 1).1.items == [ToItem(a)]
    ensures Shift([a, a], name, LIFO, key, 1).0 == [a, a]
  {
    var f := [a, a];
    KeyRecordsCons(a, [], name, key);
    KeyRecordsCons(a, [a], name, key);
    assert [a] + [] == [a] && [a] + [a] == f;
    assert KeyRecords(f, name, key) == f;
    assert SeqIndexOf(f, a) == 0;
    assert f[1..] == [a] && f[1..][1..] == [];
    assert SpliceRemoved(f, 0, 1) == [a];
    assert SpliceRemoved(f, 1, 1) == [a];
    assert !DroppedAsWritten(a, f, LIFO, 1);
    assert Rewrite(f[1..][1..], name, key, f, LIFO, 1) == [];
    assert Rewrite(f[1..], name, key, f, LIFO, 1) == [a];
    assert Rewrite(f, name, key, f, LIFO, 1) == [a, a];
  }

  lemma {:induction false} KeptNoneWhenAllDropped(xs: seq<Record>, ks: seq<Record>, count: int)
    requires count > |ks|
    requires forall i :: 0 <= i < |xs| ==> xs[i] in ks
    ensures KeptAsWritten(xs, ks, LIFO, count) == []
    decreases |xs|
  {
    if |xs| > 0 {
      KeptNoneWhenAllDropped(xs[1..], ks, count);
    }
  }

  /** A LIFO shift asking for more records than the key holds: `splice`
      with the negative start `length - count` returns only the newest
      `count - length` of them (when that is below `length`), yet the
      rewrite deletes all of them. */
  lemma LifoOverAskLosesRecords(f: seq<Record>, name: string, key: string, count: int)
    requires |KeyRecords(f, name, key)| < count < 2 * |KeyRecords(f, name, key)|
    ensures Shift(f, name, LIFO, key, count).1.items
         == ToItems(KeyRecords(f, name, key)[2 * |KeyRecords(f, name, key)| - count..])
    ensures KeyRecords(Shift(f, name, LIFO, key, count).0, name, key) == []
  {
    OverAskShiftBatch(f, name, key, count);
    OverAskShiftKeeps(f, name, key, count);
  }

  lemma {:induction false} OverAskShiftBatch(f: seq<Record>, name: string, key: string, count: int)
    requires |KeyRecords(f, name, key)| < count < 2 * |KeyRecords(f, name, key)|
    ensures Shift(f, name, LIFO, key, count).1.items
         == ToItems(KeyRecords(f, name, key)[2 * |KeyRecords(f, name, key)| - count..])
  {
    ShiftItems(f, name, LIFO, key, count);
    OverAskBatch(KeyRecords(f, name, key), count);
  }

  lemma OverAskShiftKeeps(f: seq<Record>, name: string, key: string, count: int)
    requires |KeyRecords(f, name, key)| < count
    ensures KeyRecords(Shift(f, name, LIFO, key, count).0, name, key) == []
  {
    ShiftKept(f, name, LIFO, key, count);
    LifoOverAskKeepsNone(KeyRecords(f, name, key), count);
  }

  lemma OverAskBatch(ks: seq<Record>, count: int)
    requires |ks| < count < 2 * |ks|
    ensures ToItems(BatchAsWritten(ks, LIFO, count)) == ToItems(ks[2 * |ks| - count..])
  {
    SpliceOverAsk(ks, count);
  }

  /** `splice` with a start of `-(count - length)` takes the last
      `count - length` elements. */
  lemma SpliceOverAsk<T>(s: seq<T>, count: int)
    requires |s| < count < 2 * |s|
    ensures SpliceRemoved(s, |s| - count, count) == s[2 * |s| - count..]
  {
    assert SpliceRemoved(s, |s| - count, count) == s[2 * |s| - count..|s|];
  }

  lemma LifoOverAskKeepsNone(ks: seq<Record>, count: int)
    requires count > |ks|
    ensures KeptAsWritten(ks, ks, LIFO, count) == []
  {
    assert forall i :: 0 <= i < |ks| ==> ks[i] in ks;
    KeptNoneWhenAllDropped(ks, ks, count);
  }

  // ---- shift by position (intended behaviour) ----

  /** `f` without the first `n` records of the key. */
  function DropFirst(f: seq<Record>, name: string, key: string, n: nat): seq<Record> {
    if |f| == 0 then []
    else if IsKey(f[0], name, key) && n > 0 then DropFirst(f[1..], name, key, n - 1)
    else [f[0]] + DropFirst(f[1..], name, key, n)
  }

  /** `f` keeping only the first `m` records of the key. */
  function KeepFirst(f: seq<Record>, name: string, key: string, m: nat): seq<Record> {
    if |f| == 0 then []
    else if IsKey(f[0], name, key) then
      (if m > 0 then [f[0]] + KeepFirst(f[1..], name, key, m - 1) else KeepFirst(f[1..], name, key, 0))
    else [f[0]] + KeepFirst(f[1..], name, key, m)
  }

  lemma DropFirstEffect(f: seq<Record>, name: string, key: string, n: nat)
    requires n <= |KeyRecords(f, name, key)|
    ensures KeyRecords(DropFirst(f, name, key, n), name, key) == KeyRecords(f, name, key)[n..]
    ensures Others(DropFirst(f, name, key, n), name, key) == Others(f, name, key)
  {
    DropFirstKeys(f, name, key, n);
    DropFirstOthers(f, name, key, n);
  }

  lemma {:induction false} DropFirstKeys(f: seq<Record>, name: string, key: string, n: nat)
    requires n <= |KeyRecords(f, name, key)|
    ensures KeyRecords(DropFirst(f, name, key, n), name, key) == KeyRecords(f, name, key)[n..]
    decreases |f|
  {
    if |f| > 0 {
      var ks := KeyRecords(f[1..], name, key);
      if IsKey(f[0], name, key) && n > 0 {
        DropFirstKeys(f[1..], name, key, n - 1);
        assert ([f[0]] + ks)[n..] == ks[n - 1..];
      } else {
        DropFirstKeys(f[1..], name, key, n);
        KeyRecordsCons(f[0], DropFirst(f[1..], name, key, n), name, key);
        if IsKey(f[0], name, key) {
          assert ([f[0]] + ks)[0..] == [f[0]] + ks[0..];
        }
      }
    }
  }

  lemma {:induction false} DropFirstOthers(f: seq<Record>, name: string, key: string, n: nat)
    ensures Others(DropFirst(f, name, key, n), name, key) == Others(f, name, key)
    decreases |f|
  {
    if |f| > 0 {
      if IsKey(f[0], name, key) && n > 0 {
        DropFirstOthers(f[1..], name, key, n - 1);
      } else {
        DropFirstOthers(f[1..], name, key, n);
        KeyRecordsCons(f[0], DropFirst(f[1..], name, key, n), name, key);
      }
    }
  }

  lemma KeepFirstEffect(f: seq<Record>, name: string, key: string, m: nat)
    requires m <= |KeyRecords(f, name, key)|
    ensures KeyRecords(KeepFirst(f, name, key, m), name, key) == KeyRecords(f, name, key)[..m]
    ensures Others(KeepFirst(f, name, key, m), name, key) == Others(f, name, key)
  {
    KeepFirstKeys(f, name, key, m);
    KeepFirstOthers(f, name, key, m);
  }

  lemma {:induction false} KeepFirstKeys(f: seq<Record>, name: string, key: string, m: nat)
    requires m <= |KeyRecords(f, name, key)|
    ensures KeyRecords(KeepFirst(f, name, key, m), name, key) == KeyRecords(f, name, key)[..m]
    decreases |f|
  {
    if |f| > 0 {
      var ks := KeyRecords(f[1..], name, key);
      if IsKey(f[0], name, key) {
        if m > 0 {
          KeepFirstKeys(f[1..], name, key, m - 1);
          KeyRecordsCons(f[0], KeepFirst(f[1..], name, key, m - 1), name, key);
          assert ([f[0]] + ks)[..m] == [f[0]] + ks[..m - 1];
        } else {
          KeepFirstKeys(f[1..], name, key, 0);
        }
      } else {
        KeepFirstKeys(f[1..], name, key, m);
        KeyRecordsCons(f[0], KeepFirst(f[1..], name, key, m), name, key);
      }
    }
  }

  lemma {:induction false} KeepFirstOthers(f: seq<Record>, name: string, key: string, m: nat)
    ensures Others(KeepFirst(f, name, key, m), name, key) == Others(f, name, key)
    decreases |f|
  {
    if |f| > 0 {
      if IsKey(f[0], name, key) {
        if m > 0 {
          KeepFirstOthers(f[1..], name, key, m - 1);
          KeyRecordsCons(f[0], KeepFirst(f[1..], name, key, m - 1), name, key);
        } else {
          KeepFirstOthers(f[1..], name, key, 0);
        }
      } else {
        KeepFirstOthers(f[1..], name, key, m);
        KeyRecordsCons(f[0], KeepFirst(f[1..], name, key, m), name, key);
      }
    }
  }

  /** Shift that removes exactly the records it returns, chosen by position:
      the first `Taken(count, n)` of the key (FIFO) or the last (LIFO). */
  function ShiftByPosition(f: seq<Record>, name: string, kind: Kind, key: string, count: int): (r: (seq<Record>, ShiftOutput))
    ensures var ks := KeyRecords(f, name, key); var n := Taken(count, |ks|);
      && r.1.storedCount == CountRecords(f, name)
      && (kind == FIFO ==> r.1.items == ToItems(ks[..n]) && KeyRecords(r.0, name, key) == ks[n..])
      && (kind == LIFO ==> r.1.items == ToItems(ks[|ks| - n..]) && KeyRecords(r.0, name, key) == ks[..|ks| - n])
      && Others(r.0, name, key) == Others(f, name, key)
  {
    var ks := KeyRecords(f, name, key);
    var n := Taken(count, |ks|);
    if kind == FIFO then
      DropFirstEffect(f, name, key, n);
      (DropFirst(f, name, key, n), ShiftOutput(CountRecords(f, name), ToItems(ks[..n])))
    else
      KeepFirstEffect(f, name, key, |ks| - n);
      (KeepFirst(f, name, key, |ks| - n), ShiftOutput(CountRecords(f, name), ToItems(ks[|ks| - n..])))
  }

  // ---- the backend implements the abstract store ----

  /** The abstract store a file holds for queue `name`. */
  function Abs(f: seq<Record>, name: string): Store.Store {
    Store.Store(name, map k | k in KeysOf(f, name) :: ToItems(KeyRecords(f, name, k)))
  }

  lemma AbsItems(f: seq<Record>, name: string, key: string)
    ensures Store.Items(Abs(f, name), key) == ToItems(KeyRecords(f, name, key))
  {
    KeysOfHaveRecords(f, name);
  }

  lemma AbsStoredCount(f: seq<Record>, name: string)
    ensures Store.StoredCount(Abs(f, name)) == CountRecords(f, name)
  {
    var a := Store.StoredCount(Abs(f, name));
    var c := CountRecords(f, name);
    KeysOfHaveRecords(f, name);
    CountRecordsSpec(f, name);
    forall k ensures k in a <==> k in c {
      AbsItems(f, name, k);
    }
    forall k | k in a ensures a[k] == c[k] {
      AbsItems(f, name, k);
      assert CountOf(a, k) == CountOf(c, k);
    }
  }

  /** Push refines the abstract store's push for this queue. */
  lemma PushRefines(f: seq<Record>, name: string, key: string, item: QueueItem, k: string)
    ensures Store.Items(Abs(Push(f, name, key, item), name), k)
         == Store.Items(Store.Push(Abs(f, name), key, item), k)
  {
    var r := Record(name, key, item.pushTimestamp, item.value);
    AbsItems(Push(f, name, key, item), name, k);
    AbsItems(f, name, k);
    AbsItems(f, name, key);
    KeyRecordsAppend(f, [r], name, k);
    ToItemsAppend(KeyRecords(f, name, k), KeyRecords([r], name, k));
  }

  lemma ShiftByPositionOutput(f: seq<Record>, name: string, kind: Kind, key: string, count: int)
    ensures ShiftByPosition(f, name, kind, key, count).1 == Store.Shift(Abs(f, name), kind, key, count).1
  {
    ShiftByPositionCounts(f, name, kind, key, count);
    ShiftByPositionItems(f, name, kind, key, count);
  }

  lemma ShiftByPositionCounts(f: seq<Record>, name: string, kind: Kind, key: string, count: int)
    ensures ShiftByPosition(f, name, kind, key, count).1.storedCount
         == Store.Shift(Abs(f, name), kind, key, count).1.storedCount
  {
    AbsStoredCount(f, name);
  }

  lemma ShiftByPositionItems(f: seq<Record>, name: string, kind: Kind, key: string, count: int)
    ensures ShiftByPosition(f, name, kind, key, count).1.items == Store.Shift(Abs(f, name), kind, key, count).1.items
  {
    AbsItems(f, name, key);
    Store.ShiftItems(Abs(f, name), kind, key, count);
    ItemsSlices(KeyRecords(f, name, key), Store.Items(Abs(f, name), key), count);
  }

  /** The two ends of a key's records, read as items. */
  lemma ItemsSlices(ks: seq<Record>, s: seq<QueueItem>, count: int)
    requires s == ToItems(ks)
    ensures var n := Taken(count, |ks|);
      && Taken(count, |s|) == n
      && ToItems(ks[..n]) == s[..n] && ToItems(ks[n..]) == s[n..]
      && ToItems(ks[|ks| - n..]) == s[|s| - n..] && ToItems(ks[..|ks| - n]) == s[..|s| - n]
  {
    var n := Taken(count, |ks|);
    ToItemsSlices(ks, n);
    ToItemsSlices(ks, |ks| - n);
  }

  lemma ShiftByPositionSameKey(f: seq<Record>, name: string, kind: Kind, key: string, count: int)
    ensures Store.Items(Abs(ShiftByPosition(f, name, kind, key, count).0, name), key)
         == Store.Items(Store.Shift(Abs(f, name), kind, key, count).0, key)
  {
    AbsItems(f, name, key);
    AbsItems(ShiftByPosition(f, name, kind, key, count).0, name, key);
    ItemsSlices(KeyRecords(f, name, key), Store.Items(Abs(f, name), key), count);
  }

  lemma ShiftByPositionOtherKey(f: seq<Record>, name: string, kind: Kind, key: string, count: int, k: string)
    requires k != key
    ensures Store.Items(Abs(ShiftByPosition(f, name, kind, key, count).0, name), k)
         == Store.Items(Store.Shift(Abs(f, name), kind, key, count).0, k)
  {
    var r := ShiftByPosition(f, name, kind, key, count);
    AbsItems(f, name, k);
    AbsItems(r.0, name, k);
    KeyRecordsOfOthers(r.0, name, key, k);
    KeyRecordsOfOthers(f, name, key, k);
  }

  /** The intended shift refines the abstract store's shift view: same
      batch, same stored counts, same items left under every key. */
  lemma ShiftByPositionRefines(f: seq<Record>, name: string, kind: Kind, key: string, count: int, k: string)
    ensures var r := ShiftByPosition(f, name, kind, key, count);
      var a := Store.Shift(Abs(f, name), kind, key, count);
      && r.1 == a.1
      && Store.Items(Abs(r.0, name), k) == Store.Items(a.0, k)
  {
    ShiftByPositionOutput(f, name, kind, key, count);
    if k == key {
      ShiftByPositionSameKey(f, name, kind, key, count);
    } else {
      ShiftByPositionOtherKey(f, name, kind, key, count, k);
    }
  }
}

=== FILE: item_json.dfy ===
/** `JSON.stringify` of a queue item and its inverse. An item is the object
    `{pushTimestamp, value}`, so its text is the two properties in that order
    with the value's own JSON text spliced in. The Redis backends store these
    texts as list elements and sorted-set members. */
module ItemJson {
  import opened Types
  import opened Text

  const Head: string := "{\"pushTimestamp\":"
  const Middle: string := ",\"value\":"

  /** `JSON.stringify(item)`. */
  function Encode(it: QueueItem): string {
    Head + Decimal(it.pushTimestamp) + Middle + it.value + "}"
  }

  /** `JSON.parse` of an item's text: `None` for text that is not of that
      shape (where `JSON.parse` would throw or yield something else). */
  function Decode(s: string): Option<QueueItem> {
    if !StartsWith(s, Head) then None
    else
      var rest := s[|Head|..];
      var k := DigitRun(rest);
      var after := rest[k..];
      if k == 0 || !StartsWith(after, Middle) || |after| < |Middle| + 1 || after[|after| - 1] != '}' then None
      else Some(QueueItem(DigitsValue(rest[..k]), after[|Middle|..|after| - 1]))
  }

  /** Parsing the text of an item gives back the item. */
  lemma DecodeEncode(it: QueueItem)
    ensures Decode(Encode(it)) == Some(it)
  {
    var d := Decimal(it.pushTimestamp);
    var tail := Middle + it.value + "}";
    HeadPart(d, tail);
    assert Encode(it) == Head + (d + tail);
    DigitRunOfDigits(d, tail);
    SplitAt(d, tail);
    TailPart(it.value);
    DecimalValue(it.pushTimestamp);
  }

  lemma HeadPart(d: string, tail: string)
    ensures StartsWith(Head + (d + tail), Head) && (Head + (d + tail))[|Head|..] == d + tail
  {
  }

  lemma SplitAt(d: string, tail: string)
    ensures (d + tail)[..|d|] == d && (d + tail)[|d|..] == tail
  {
  }

  lemma TailPart(v: string)
    ensures var after := Middle + v + "}";
      && StartsWith(after, Middle) && |after| >= |Middle| + 1 && after[|after| - 1] == '}'
      && after[|Middle|..|after| - 1] == v
  {
    var after := Middle + v + "}";
    assert after[..|Middle|] == Middle;
    assert after[|Middle|..|after| - 1] == v;
  }

  /** Different items have different texts. */
  lemma EncodeInjective(a: QueueItem, b: QueueItem)
    requires Encode(a) == Encode(b)
    ensures a == b
  {
    DecodeEncode(a);
    DecodeEncode(b);
  }
}

=== FILE: memory.dfy ===
/** The in-memory backend (src/storage/Memory.ts): one array per key, kept
    newest first because `push` uses `unshift`. FIFO pops from the tail,
    LIFO shifts from the head. */
module Memory {
  import opened Types
  import Store

  /** `memory[key]` holds the key's items newest first. */
  datatype MemoryStorage = MemoryStorage(name: string, memory: map<string, seq<QueueItem>>)

  function New(name: string): MemoryStorage {
    MemoryStorage(name, map[])
  }

  /** The key's array, empty when the key was never touched. */
  function Entry(m: MemoryStorage, key: string): seq<QueueItem> {
    if key in m.memory then m.memory[key] else []
  }

  /** `push`: creates the key's array if absent and puts the item at its head. */
  function Push(m: MemoryStorage, key: string, item: QueueItem): (r: MemoryStorage)
    ensures key in r.memory && r.memory[key] == [item] + Entry(m, key)
    ensures r.memory.Keys == m.memory.Keys + {key}
    ensures forall k :: k in m.memory && k != key ==> r.memory[k] == m.memory[k]
    ensures r.name == m.name
  {
    MemoryStorage(m.name, m.memory[key := [item] + Entry(m, key)])
  }

  /** The items taken and left after `t` rounds of `pop` on the array `s`:
      FIFO takes from the tail, LIFO from the head. */
  function Drained(s: seq<QueueItem>, kind: Kind, t: nat): (r: (seq<QueueItem>, seq<QueueItem>))
    requires t <= |s|
    ensures |r.0| == t && |r.1| == |s| - t
  {
    if kind == FIFO then (Reverse(s[|s| - t..]), s[..|s| - t]) else (s[..t], s[t..])
  }

  /** One more round moves the element at the chosen end of what is left to
      the end of what is taken. */
  lemma DrainStep(s: seq<QueueItem>, kind: Kind, t: nat)
    requires t < |s|
    ensures var d := Drained(s, kind, t); var c := d.1;
      Drained(s, kind, t + 1) ==
        if kind == FIFO then (d.0 + [c[|c| - 1]], c[..|c| - 1]) else (d.0 + [c[0]], c[1..])
  {
    if kind == FIFO {
      TailStep(s, t);
    } else {
      HeadStep(s, t);
    }
  }

  /** What `pop` computes: FIFO takes from the tail (returning the oldest
      first), LIFO from the head (returning the newest first); either way
      `Taken(count, length)` items. */
  function PopResult(m: MemoryStorage, kind: Kind, key: string, count: int): (r: (MemoryStorage, seq<QueueItem>))
    ensures |r.1| == Taken(count, |Entry(m, key)|)
    ensures key in r.0.memory && |r.0.memory[key]| + |r.1| == |Entry(m, key)|
    ensures r.0.memory.Keys == m.memory.Keys + {key}
    ensures forall k :: k in m.memory && k != key ==> r.0.memory[k] == m.memory[k]
    ensures r.0.name == m.name
  {
    var d := Drained(Entry(m, key), kind, Taken(count, |Entry(m, key)|));
    (MemoryStorage(m.name, m.memory[key := d.1]), d.0)
  }

  /** `pop`, as the source writes it: `count` rounds, each of which takes one
      item from the chosen end while the array is not empty. */
  method Pop(m: MemoryStorage, kind: Kind, key: string, count: int) returns (r: MemoryStorage, items: seq<QueueItem>)
    ensures (r, items) == PopResult(m, kind, key, count)
  {
    var s := Entry(m, key);
    var cur := s;
    items := [];
    var i := 0;
    assert s[..|s|] == s && s[0..] == s;
    while i < count
      invariant 0 <= i && (i <= count || i == 0)
      invariant (items, cur) == Drained(s, kind, Taken(i, |s|))
      decreases count - i
    {
      if |cur| > 0 {
        var t := Taken(i, |s|);
        assert t < |s| && Taken(i + 1, |s|) == t + 1;
        DrainStep(s, kind, t);
        if kind == FIFO {
          items := items + [cur[|cur| - 1]];
          cur := cur[..|cur| - 1];
        } else {
          items := items + [cur[0]];
          cur := cur[1..];
        }
      }
      i := i + 1;
    }
    r := MemoryStorage(m.name, m.memory[key := cur]);
  }

  /** One FIFO round: the last element of what is left joins the taken
      items. */
  lemma TailStep(s: seq<QueueItem>, t: nat)
    requires t < |s|
    ensures var cur := s[..|s| - t];
      && Reverse(s[|s| - t..]) + [cur[|cur| - 1]] == Reverse(s[|s| - (t + 1)..])
      && cur[..|cur| - 1] == s[..|s| - (t + 1)]
  {
    assert s[|s| - (t + 1)..] == [s[|s| - t - 1]] + s[|s| - t..];
    ReverseAppend([s[|s| - t - 1]], s[|s| - t..]);
  }

  /** One LIFO round: the first element of what is left joins the taken
      items. */
  lemma HeadStep(s: seq<QueueItem>, t: nat)
    requires t < |s|
    ensures var cur := s[t..];
      && s[..t] + [cur[0]] == s[..t + 1]
      && cur[1..] == s[t + 1..]
  {
    assert s[..t + 1] == s[..t] + [s[t]];
  }

  /** `popRight` (FIFO). */
  function PopRight(m: MemoryStorage, key: string, count: int): (MemoryStorage, seq<QueueItem>) {
    PopResult(m, FIFO, key, count)
  }

  /** `popLeft` (LIFO). */
  function PopLeft(m: MemoryStorage, key: string, count: int): (MemoryStorage, seq<QueueItem>) {
    PopResult(m, LIFO, key, count)
  }

  /** `getStoredCount`: every key ever pushed or popped, with its array length. */
  function GetStoredCount(m: MemoryStorage): (c: StoredCount)
    ensures c.Keys == m.memory.Keys
    ensures forall k :: k in c ==> c[k] == |m.memory[k]|
  {
    map k | k in m.memory :: |m.memory[k]|
  }

  // ---- the backend implements the abstract store ----

  /** The abstract store this memory represents: each array reversed into
      push order. */
  function Abs(m: MemoryStorage): Store.Store {
    Store.Store(m.name, map k | k in m.memory :: Reverse(m.memory[k]))
  }

  lemma AbsItems(m: MemoryStorage, key: string)
    ensures Store.Items(Abs(m), key) == Reverse(Entry(m, key))
  {
  }

  lemma AbsUpdate(m: MemoryStorage, key: string, v: seq<QueueItem>)
    ensures Abs(MemoryStorage(m.name, m.memory[key := v])) == Store.Store(m.name, Abs(m).queues[key := Reverse(v)])
  {
  }

  lemma AbsPush(m: MemoryStorage, key: string, item: QueueItem)
    ensures Abs(Push(m, key, item)) == Store.Push(Abs(m), key, item)
  {
    ReverseAppend([item], Entry(m, key));
    AbsUpdate(m, key, [item] + Entry(m, key));
  }

  lemma AbsPopRight(m: MemoryStorage, key: string, count: int)
    ensures Abs(PopRight(m, key, count).0) == Store.PopRight(Abs(m), key, count).0
    ensures PopRight(m, key, count).1 == Store.PopRight(Abs(m), key, count).1
  {
    var s := Entry(m, key);
    var n := Taken(count, |s|);
    ReverseSlices(s, n);
    AbsUpdate(m, key, s[..|s| - n]);
  }

  lemma AbsPopLeft(m: MemoryStorage, key: string, count: int)
    ensures Abs(PopLeft(m, key, count).0) == Store.PopLeft(Abs(m), key, count).0
    ensures PopLeft(m, key, count).1 == Store.PopLeft(Abs(m), key, count).1
  {
    var s := Entry(m, key);
    var n := Taken(count, |s|);
    ReverseSlices(s, |s| - n);
    ReverseReverse(s[..n]);
    AbsUpdate(m, key, s[n..]);
  }

  lemma AbsStoredCount(m: MemoryStorage)
    ensures GetStoredCount(m) == Store.StoredCount(Abs(m))
  {
  }

  /** Round trip: on an empty key, `push(x)` then `popRight(key, 1)` returns
      `[x]` and the key's count is back to 0. */
  lemma PushPopRoundTrip(m: MemoryStorage, key: string, x: QueueItem)
    requires Entry(m, key) == []
    ensures PopRight(Push(m, key, x), key, 1).1 == [x]
    ensures GetStoredCount(PopRight(Push(m, key, x), key, 1).0)[key] == 0
  {
  }

  /** Popping a key never pushed creates an empty entry, which
      `getStoredCount` then reports with 0. */
  lemma PopUnknownKeyReportsZero(m: MemoryStorage, kind: Kind, key: string, count: int)
    requires key !in m.memory
    ensures PopResult(m, kind, key, count).1 == []
    ensures var c := GetStoredCount(PopResult(m, kind, key, count).0);
      key in c && c[key] == 0
  {
  }
}

=== FILE: pool.dfy ===
/** src/pool.ts: the process-wide registry meant to keep queue names unique.
    The registry is a list compared with `includes` (strict equality), so
    what it catches depends on what is registered: a name, or — as the
    Queue constructor does — the queue object itself. */
module Pool {
  import opened Types
  import QueueEngine

  /** A registry entry: a name string, or a queue object known by its
      identity. A string is never strictly equal to an object. */
  datatype Entry = Name(name: string) | QueueObject(id: nat)

  function DuplicateError(name: string): string {
    "cannot create 2 queues with the same name: '" + name + "'"
  }

  /** `registerNewQueue`: fails on an entry already present, and otherwise
      appends it. */
  function RegisterNewQueue(pool: seq<Entry>, e: Entry, name: string): (r: Result<seq<Entry>, string>)
    ensures r.Failure? <==> e in pool
    ensures r.Failure? ==> r.error == DuplicateError(name)
    ensures r.Success? ==> r.value == pool + [e]
  {
    if e in pool then Failure(DuplicateError(name)) else Success(pool + [e])
  }

  /** A registry in which no entry occurs twice. */
  lemma RegisterKeepsDistinct(pool: seq<Entry>, e: Entry, name: string)
    requires Distinct(pool)
    ensures RegisterNewQueue(pool, e, name).Success? ==> Distinct(RegisterNewQueue(pool, e, name).value)
  {
    if e !in pool {
      var p := pool + [e];
      forall i, j | 0 <= i < j < |p| ensures p[i] != p[j] {
        if j == |pool| {
          assert p[i] == pool[i] && pool[i] in pool;
        } else {
          assert p[i] == pool[i] && p[j] == pool[j];
        }
      }
    }
  }

  // ---- the constructor as written: it registers `this` ----

  /** `new Queue(name)`: the fresh queue object (identity `id`, never
      registered before) is what gets registered. */
  function ConstructAsWritten(pool: seq<Entry>, id: nat, name: string): (r: Result<(seq<Entry>, QueueEngine.Queue), string>)
    requires QueueObject(id) !in pool
    ensures r.Success? && r.value.0 == pool + [QueueObject(id)] && r.value.1 == QueueEngine.New(name)
  {
    match RegisterNewQueue(pool, QueueObject(id), name)
    case Success(p) => Success((p, QueueEngine.New(name)))
    case Failure(e) => Failure(e)
  }

  /** Two queues with the same name are both created: a fresh object is
      never in the pool, so the duplicate check never fires. */
  lemma DuplicateNameAccepted(pool: seq<Entry>, id1: nat, id2: nat, name: string)
    requires id1 != id2 && QueueObject(id1) !in pool && QueueObject(id2) !in pool
    ensures var r1 := ConstructAsWritten(pool, id1, name);
      && r1.Success?
      && QueueObject(id2) !in r1.value.0
      && ConstructAsWritten(r1.value.0, id2, name).Success?
      && ConstructAsWritten(r1.value.0, id2, name).value.1.name == r1.value.1.name
  {
  }

  // ---- registration by name ----

  /** The names registered so far. */
  function Names(pool: seq<Entry>): (names: set<string>)
    ensures forall n :: n in names <==> Name(n) in pool
  {
    set e | e in pool && e.Name? :: e.name
  }

  /** `new Queue(name)` registering its name, as `registerNewQueue(name:
      string)` expects: a second queue with a taken name is refused and the
      registry is left as it was. */
  function Construct(pool: seq<Entry>, name: string): (r: Result<(seq<Entry>, QueueEngine.Queue), string>)
    ensures r.Failure? <==> name in Names(pool)
    ensures r.Failure? ==> r.error == DuplicateError(name)
    ensures r.Success? ==> r.value.0 == pool + [Name(name)] && Names(r.value.0) == Names(pool) + {name}
    ensures r.Success? ==> r.value.1 == QueueEngine.New(name) && r.value.1.name == name
  {
    match RegisterNewQueue(pool, Name(name), name)
    case Success(p) =>
      assert Names(p) == Names(pool) + {name};
      Success((p, QueueEngine.New(name)))
    case Failure(e) => Failure(e)
  }

  /** Whatever sequence of constructions runs, the registry never holds a
      name twice, and each success added a name not taken before. */
  lemma {:induction false} ConstructAllDistinct(pool: seq<Entry>, names: seq<string>)
    requires Distinct(pool)
    ensures Distinct(ConstructAll(pool, names))
    decreases |names|
  {
    if |names| > 0 {
      var r := Construct(pool, names[0]);
      if r.Success? {
        RegisterKeepsDistinct(pool, Name(names[0]), names[0]);
        ConstructAllDistinct(r.value.0, names[1..]);
      } else {
        ConstructAllDistinct(pool, names[1..]);
      }
    }
  }

  /** The registry after attempting to construct each name in turn; a
      refused construction leaves it unchanged. */
  function ConstructAll(pool: seq<Entry>, names: seq<string>): (r: seq<Entry>)
    ensures Names(r) == Names(pool) + set n | n in names
    decreases |names|
  {
    if |names| == 0 then pool
    else
      var r := Construct(pool, names[0]);
      var p := if r.Success? then r.value.0 else pool;
      assert Names(p) == Names(pool) + {names[0]};
      ConstructAll(p, names[1..])
  }

  /** Constructing a name twice: the second attempt is refused. */
  lemma SecondConstructRefused(pool: seq<Entry>, name: string)
    requires name !in Names(pool)
    ensures Construct(pool, name).Success?
    ensures Construct(Construct(pool, name).value.0, name) == Failure(DuplicateError(name))
  {
  }
}

=== FILE: queue.dfy ===
/** src/Queue.ts: the smart queue engine. A queue keeps global rules, rules
    per key (registered on first use), a priority list, and a storage; the
    shift loop repeatedly makes one pass over the keys in priority order and
    flushes at most one batch per pass to the key's (or the global) callback.
    Time is an input (`now`), storage is the abstract store, and callbacks
    are recorded as invocations rather than run. */
module QueueEngine {
  import opened Types
  import opened Rules
  import Store

  const StarKeyError: string := "\"*\" character cannot be used as a key (refers to all keys)"

  /** The engine's state. `keyOrder` lists the registered keys in the order
      they were registered: the order `Object.keys` gives for `keyRules`. */
  datatype Queue = Queue(
    name: string,
    store: Store.Store,
    shiftEnabled: bool,
    priorities: seq<string>,
    ignoreUnknownKeys: bool,
    globalRules: Rules,
    keyRules: map<string, Rules>,
    keyOrder: seq<string>)

  /** Every registered key is listed once in `keyOrder`, and the wildcard is
      never a registered key. */
  predicate Valid(q: Queue) {
    && Distinct(q.keyOrder)
    && (set k | k in q.keyOrder) == q.keyRules.Keys
    && AllKeys !in q.keyRules
  }

  /** The constructor, over an empty in-memory storage. */
  function New(name: string): (q: Queue)
    ensures Valid(q) && !q.shiftEnabled
    ensures q.keyRules == map[] && q.priorities == [] && !q.ignoreUnknownKeys
    ensures q.globalRules == Empty && q.store == Store.New(name)
  {
    Queue(name, Store.New(name), false, [], false, Empty, map[], [])
  }

  /** A key whose rules can be read: the wildcard or a registered key. */
  predicate Known(q: Queue, key: string) {
    key == AllKeys || key in q.keyRules
  }

  /** `this.keyRules[key] || {}`. */
  function KeyRules(q: Queue, key: string): Rules {
    if key in q.keyRules then q.keyRules[key] else Empty
  }

  // ---- key order ----

  /** `orderKeysByPriority`: the priority list, then (unless unknown keys
      are ignored) every registered key not in it. */
  function OrderKeysByPriority(q: Queue): (keys: seq<string>)
    ensures q.ignoreUnknownKeys ==> keys == q.priorities
    ensures !q.ignoreUnknownKeys ==> |q.priorities| <= |keys| && keys[..|q.priorities|] == q.priorities
    ensures Valid(q) && !q.ignoreUnknownKeys ==>
      forall k :: k in keys <==> k in q.priorities || k in q.keyRules
  {
    if q.ignoreUnknownKeys then q.priorities
    else
      var rest := Filter(q.keyOrder, k => k !in q.priorities);
      assert (q.priorities + rest)[..|q.priorities|] == q.priorities;
      q.priorities + rest
  }

  /** With a repetition-free priority list, no key is visited twice in a
      pass. */
  lemma OrderKeysDistinct(q: Queue)
    requires Valid(q) && Distinct(q.priorities)
    ensures Distinct(OrderKeysByPriority(q))
  {
    if !q.ignoreUnknownKeys {
      var p := k => k !in q.priorities;
      FilterDistinct(q.keyOrder, p);
      OrderDistinct(q.priorities, Filter(q.keyOrder, p));
    }
  }

  lemma OrderDistinct(p: seq<string>, rest: seq<string>)
    requires Distinct(p) && Distinct(rest)
    requires forall k :: k in rest ==> k !in p
    ensures Distinct(p + rest)
  {
    var s := p + rest;
    forall i, j | 0 <= i < j < |s| ensures s[i] != s[j] {
      if j < |p| {
        assert s[i] == p[i] && s[j] == p[j];
      } else if i < |p| {
        assert s[j] == rest[j - |p|] && s[i] == p[i];
        assert rest[j - |p|] in rest && p[i] in p;
      } else if i >= |p| {
        assert s[i] == rest[i - |p|] && s[j] == rest[j - |p|];
      }
    }
  }

  /** Registered keys outside the priority list come after it in the order
      they were registered. */
  lemma NotPrioritizedOrder(q: Queue, a: string, b: string)
    requires Valid(q) && !q.ignoreUnknownKeys
    requires a in q.keyRules && b in q.keyRules && a !in q.priorities && b !in q.priorities
    ensures var keys := OrderKeysByPriority(q);
      && |q.priorities| <= SeqIndexOf(keys, a)
      && (SeqIndexOf(keys, a) < SeqIndexOf(keys, b) <==> SeqIndexOf(q.keyOrder, a) < SeqIndexOf(q.keyOrder, b))
  {
    var p := k => k !in q.priorities;
    var rest := Filter(q.keyOrder, p);
    assert a in q.keyOrder && b in q.keyOrder;
    assert a in rest && b in rest;
    SeqIndexOfAppend(q.priorities, rest, a);
    SeqIndexOfAppend(q.priorities, rest, b);
    FilterOrder(q.keyOrder, p, a, b);
  }

  // ---- rule bookkeeping ----

  /** `parseKey`: true for the wildcard; otherwise registers the key with
      empty rules if it has none, at the end of the registration order. */
  function ParseKey(q: Queue, key: string): (r: (Queue, bool))
    ensures r.1 <==> key == AllKeys
    ensures key == AllKeys ==> r.0 == q
    ensures key != AllKeys ==> key in r.0.keyRules && r.0.keyRules[key] == KeyRules(q, key)
    ensures r.0.keyRules.Keys == if key == AllKeys then q.keyRules.Keys else q.keyRules.Keys + {key}
    ensures forall k :: k in q.keyRules ==> r.0.keyRules[k] == q.keyRules[k]
    ensures r.0.store == q.store && r.0.globalRules == q.globalRules && r.0.shiftEnabled == q.shiftEnabled
    ensures r.0.priorities == q.priorities && r.0.ignoreUnknownKeys == q.ignoreUnknownKeys && r.0.name == q.name
    ensures Valid(q) ==> Valid(r.0)
  {
    if key == AllKeys then (q, true)
    else if key in q.keyRules then (q, false)
    else
      var q1 := q.(keyRules := q.keyRules[key := Empty], keyOrder := q.keyOrder + [key]);
      assert Valid(q) ==> Distinct(q1.keyOrder) by {
        if Valid(q) {
          assert key !in q.keyOrder;
        }
      }
      (q1, false)
  }

  /** `getRule`: the rules of a registered key, or the global rules for the
      wildcard (the field the source names is read from this record). */
  function GetRule(q: Queue, key: string): (r: Rules)
    requires Known(q, key)
    ensures key != AllKeys ==> r == q.keyRules[key]
  {
    if key != AllKeys then q.keyRules[key] else q.globalRules
  }

  /** The rules of a concrete key never fall back to the global rules. */
  lemma GetRuleNoFallback(q: Queue, key: string, g: Rules)
    requires key != AllKeys && key in q.keyRules
    ensures GetRule(q.(globalRules := g), key) == GetRule(q, key)
  {
  }

  /** `setRule`: `f` updates the field the source names, in the global rules
      for the wildcard and in the key's rules otherwise. */
  function SetRule(q: Queue, key: string, f: Rules -> Rules): (r: Queue)
    requires Known(q, key)
    ensures Known(r, key) && GetRule(r, key) == f(GetRule(q, key))
    ensures forall k :: k != key && Known(q, k) ==> Known(r, k) && GetRule(r, k) == GetRule(q, k)
    ensures r.keyRules.Keys == q.keyRules.Keys && r.keyOrder == q.keyOrder
    ensures r.store == q.store && r.shiftEnabled == q.shiftEnabled && r.name == q.name
    ensures r.priorities == q.priorities && r.ignoreUnknownKeys == q.ignoreUnknownKeys
    ensures key != AllKeys ==> r.globalRules == q.globalRules
    ensures Valid(q) ==> Valid(r)
  {
    if key == AllKeys then q.(globalRules := f(q.globalRules))
    else q.(keyRules := q.keyRules[key := f(q.keyRules[key])])
  }

  /** `getKeyShiftKind`: the key's own FIFO/LIFO setting, else the global
      one (possibly unset). */
  function KeyShiftKind(q: Queue, key: string): (r: Option<Kind>)
    requires Known(q, key)
    ensures key != AllKeys && q.keyRules[key].kind.Some? ==> r == q.keyRules[key].kind
    ensures (key == AllKeys || q.keyRules[key].kind.None?) ==> r == q.globalRules.kind
  {
    // The source compares the key's kind with "FIFO" and then "LIFO"; a set
    // kind is one of the two.
    if key == AllKeys then q.globalRules.kind
    else if q.keyRules[key].kind.Some? then q.keyRules[key].kind
    else q.globalRules.kind
  }

  /** The pass tests the kind against "FIFO" and takes the LIFO path
      otherwise, an unset kind included. */
  function KindUsed(k: Option<Kind>): (r: Kind)
    ensures r == FIFO <==> k == Some(FIFO)
  {
    if k == Some(FIFO) then FIFO else LIFO
  }

  /** With no kind set for the key or globally, a pass pops LIFO, although
      the constructor's documentation calls FIFO the default. */
  lemma DefaultKindIsLifo(q: Queue, key: string)
    requires key in q.keyRules && q.keyRules[key].kind.None? && q.globalRules.kind.None?
    ensures KindUsed(KeyShiftKind(q, key)) == LIFO
  {
  }

  /** The default the documentation states (FIFO, with LIFO only when asked
      for): the corrected reading of the kind test. */
  function KindIntended(k: Option<Kind>): (r: Kind)
    ensures r == LIFO <==> k == Some(LIFO)
  {
    if k == Some(LIFO) then LIFO else FIFO
  }

  /** Under the documented default, a key with no kind set anywhere pops
      FIFO, where the code as written pops LIFO. */
  lemma DefaultKindIntended(q: Queue, key: string)
    requires key in q.keyRules && q.keyRules[key].kind.None? && q.globalRules.kind.None?
    ensures KindIntended(KeyShiftKind(q, key)) == FIFO
    ensures KindIntended(KeyShiftKind(q, key)) != KindUsed(KeyShiftKind(q, key))
  {
  }

  /** The documented default and the code agree exactly when a kind is set. */
  lemma KindIntendedAgrees(k: Option<Kind>)
    ensures KindIntended(k) == KindUsed(k) <==> k.Some?
  {
    match k
    case None =>
    case Some(FIFO) =>
    case Some(LIFO) =>
  }

  // ---- setters ----

  /** `fifo(key)`: FIFO for the key, or globally for the wildcard. */
  function Fifo(q: Queue, key: string): (r: Queue)
    ensures Known(r, key) && GetRule(r, key).kind == Some(FIFO)
    ensures forall k :: k != key && Known(q, k) ==> Known(r, k) && GetRule(r, k) == GetRule(q, k)
    ensures Valid(q) ==> Valid(r)
  {
    SetRule(ParseKey(q, key).0, key, (x: Rules) => x.(kind := Some(FIFO)))
  }

  /** `lifo(key)`: LIFO for the key, or globally for the wildcard. */
  function Lifo(q: Queue, key: string): (r: Queue)
    ensures Known(r, key) && GetRule(r, key).kind == Some(LIFO)
    ensures forall k :: k != key && Known(q, k) ==> Known(r, k) && GetRule(r, k) == GetRule(q, k)
    ensures Valid(q) ==> Valid(r)
  {
    SetRule(ParseKey(q, key).0, key, (x: Rules) => x.(kind := Some(LIFO)))
  }

  /** A key's own kind wins over the global kind, whichever is set later. */
  lemma KeyKindOverrides(q: Queue, key: string)
    requires key != AllKeys
    ensures KindUsed(KeyShiftKind(Fifo(Lifo(q, AllKeys), key), key)) == FIFO
    ensures KindUsed(KeyShiftKind(Lifo(Fifo(Lifo(q, key), AllKeys), key), key)) == LIFO
  {
  }

  /** The global kind applies to a key without its own. */
  lemma GlobalKindApplies(q: Queue, key: string)
    requires key in q.keyRules && q.keyRules[key].kind.None?
    ensures KindUsed(KeyShiftKind(Fifo(q, AllKeys), key)) == FIFO
  {
  }

  /** `priority(keys, ignoreUnknownKeys)`. */
  function Priority(q: Queue, keys: seq<string>, ignoreUnknownKeys: bool): (r: Queue)
    ensures r.priorities == keys && r.ignoreUnknownKeys == ignoreUnknownKeys
    ensures r.keyRules == q.keyRules && r.globalRules == q.globalRules && r.store == q.store
    ensures Valid(q) ==> Valid(r)
  {
    q.(priorities := keys, ignoreUnknownKeys := ignoreUnknownKeys)
  }

  /** `exec(key, callback)`: clears `execAsync`, sets `exec`. */
  function Exec(q: Queue, key: string, cb: Callback): (r: Queue)
    ensures Known(r, key) && GetRule(r, key).exec == Some(cb) && GetRule(r, key).execAsync == None
    ensures forall k :: k != key && Known(q, k) ==> Known(r, k) && GetRule(r, k) == GetRule(q, k)
    ensures Valid(q) ==> Valid(r)
  {
    SetRule(SetRule(ParseKey(q, key).0, key, (x: Rules) => x.(execAsync := None)), key, (x: Rules) => x.(exec := Some(cb)))
  }

  /** `execAsync(key, callback)`: clears `exec`, sets `execAsync`. */
  function ExecAsync(q: Queue, key: string, cb: Callback): (r: Queue)
    ensures Known(r, key) && GetRule(r, key).execAsync == Some(cb) && GetRule(r, key).exec == None
    ensures forall k :: k != key && Known(q, k) ==> Known(r, k) && GetRule(r, k) == GetRule(q, k)
    ensures Valid(q) ==> Valid(r)
  {
    SetRule(SetRule(ParseKey(q, key).0, key, (x: Rules) => x.(exec := None)), key, (x: Rules) => x.(execAsync := Some(cb)))
  }

  /** `flushSize(key, size)`. */
  function FlushSize(q: Queue, key: string, size: int): (r: Queue)
    ensures Known(r, key) && GetRule(r, key).shiftSize == Some(size)
    ensures forall k :: k != key && Known(q, k) ==> Known(r, k) && GetRule(r, k) == GetRule(q, k)
    ensures Valid(q) ==> Valid(r)
  {
    SetRule(ParseKey(q, key).0, key, (x: Rules) => x.(shiftSize := Some(size)))
  }

  /** `every(key, delay)`. */
  function Every(q: Queue, key: string, delay: int): (r: Queue)
    ensures Known(r, key) && GetRule(r, key).every == Some(delay)
    ensures forall k :: k != key && Known(q, k) ==> Known(r, k) && GetRule(r, k) == GetRule(q, k)
    ensures Valid(q) ==> Valid(r)
  {
    SetRule(ParseKey(q, key).0, key, (x: Rules) => x.(every := Some(delay)))
  }

  /** `clonePre(key, count, condition?)`: an absent condition is stored as
      absent, replacing any earlier one. */
  function ClonePre(q: Queue, key: string, count: int, cond: Option<Condition>): (r: Queue)
    ensures Known(r, key) && GetRule(r, key).clonePre == Some(count) && GetRule(r, key).clonePreCondition == cond
    ensures forall k :: k != key && Known(q, k) ==> Known(r, k) && GetRule(r, k) == GetRule(q, k)
    ensures Valid(q) ==> Valid(r)
  {
    SetRule(SetRule(ParseKey(q, key).0, key, (x: Rules) => x.(clonePre := Some(count))), key, (x: Rules) => x.(clonePreCondition := cond))
  }

  /** `clonePost(key, count, condition?)`. */
  function ClonePost(q: Queue, key: string, count: int, cond: Option<Condition>): (r: Queue)
    ensures Known(r, key) && GetRule(r, key).clonePost == Some(count) && GetRule(r, key).clonePostCondition == cond
    ensures forall k :: k != key && Known(q, k) ==> Known(r, k) && GetRule(r, k) == GetRule(q, k)
    ensures Valid(q) ==> Valid(r)
  {
    SetRule(SetRule(ParseKey(q, key).0, key, (x: Rules) => x.(clonePost := Some(count))), key, (x: Rules) => x.(clonePostCondition := cond))
  }

  /** Each per-key setter touches only the rules of its own key: any other
      known key, or the global rules when `other` is "*", reads as before,
      whatever value is set. */
  lemma SettersAreLocal(q: Queue, key: string, other: string, cb: Callback, n: int, cond: Option<Condition>)
    requires key != other && Known(q, other)
    ensures GetRule(Fifo(q, key), other) == GetRule(q, other)
    ensures GetRule(Lifo(q, key), other) == GetRule(q, other)
    ensures GetRule(Exec(q, key, cb), other) == GetRule(q, other)
    ensures GetRule(ExecAsync(q, key, cb), other) == GetRule(q, other)
    ensures GetRule(FlushSize(q, key, n), other) == GetRule(q, other)
    ensures GetRule(Every(q, key, n), other) == GetRule(q, other)
    ensures GetRule(ClonePre(q, key, n, cond), other) == GetRule(q, other)
    ensures GetRule(ClonePost(q, key, n, cond), other) == GetRule(q, other)
  {
  }

  // ---- push ----

  /** `push(key, value)` at time `now`. `preOk` is what the key's
      `clonePreCondition` answers, when it has one. Only the key's own
      `clonePre` counts: the global one is never read here. */
  function Push(q: Queue, key: string, value: string, now: nat, preOk: bool): (r: Result<Queue, string>)
    ensures key == AllKeys ==> r == Failure(StarKeyError)
    ensures key != AllKeys && q.ignoreUnknownKeys && key !in q.priorities ==> r == Success(q)
    ensures key != AllKeys && !(q.ignoreUnknownKeys && key !in q.priorities) ==>
      && r.Success? && r.value.shiftEnabled && key in r.value.keyRules
      && (forall k :: k != key ==> Store.Items(r.value.store, k) == Store.Items(q.store, k))
      && var kr := KeyRules(q, key); var it := QueueItem(now, value); var before := Store.Items(q.store, key);
         && (!Truthy(kr.clonePre) ==> Store.Items(r.value.store, key) == before + [it])
         && (Truthy(kr.clonePre) && kr.clonePreCondition.Some? && !preOk ==> Store.Items(r.value.store, key) == before + [it])
         && (Truthy(kr.clonePre) && (kr.clonePreCondition.None? || preOk) ==>
               Store.Items(r.value.store, key) == before + Repeat(it, kr.clonePre.value))
    ensures r.Success? ==> r.value.globalRules == q.globalRules && r.value.priorities == q.priorities
    ensures r.Success? && Valid(q) ==> Valid(r.value)
  {
    if key == AllKeys then Failure(StarKeyError)
    else if q.ignoreUnknownKeys && key !in q.priorities then Success(q)
    else
      var q1 := ParseKey(q, key).0;
      var kr := GetRule(q1, key);
      var it := QueueItem(now, value);
      var copies := if Truthy(kr.clonePre) && (kr.clonePreCondition.None? || preOk) then kr.clonePre.value else 1;
      Store.PushAllItems(q1.store, key, Repeat(it, copies));
      assert Repeat(it, 1) == [it];
      Success(q1.(store := Store.PushAll(q1.store, key, Repeat(it, copies)), shiftEnabled := true))
  }

  /** Without a `clonePre` of its own, a key gets exactly one item per push,
      whatever the global rules say. */
  lemma PushStoresOne(q: Queue, key: string, value: string, now: nat, preOk: bool)
    requires key != AllKeys && !q.ignoreUnknownKeys
    requires !Truthy(KeyRules(q, key).clonePre)
    ensures var r := Push(q, key, value, now, preOk);
      r.Success? && |Store.Items(r.value.store, key)| == |Store.Items(q.store, key)| + 1
  {
  }

  // ---- flush-side cloning ----

  /** `parseItemsPost`: the key's own truthy `clonePost` (with its condition)
      wins; else the global one; with neither the batch is unchanged. */
  function ParseItemsPost(q: Queue, key: string, items: seq<QueueItem>, holds: (Condition, string) -> bool): (r: seq<QueueItem>)
    requires key in q.keyRules
    ensures !Truthy(q.keyRules[key].clonePost) && !Truthy(q.globalRules.clonePost) ==> r == items
  {
    var kr := q.keyRules[key];
    if Truthy(kr.clonePost) then Expand(items, kr.clonePost.value, kr.clonePostCondition, holds)
    else if Truthy(q.globalRules.clonePost) then Expand(items, q.globalRules.clonePost.value, q.globalRules.clonePostCondition, holds)
    else items
  }

  /** A key's own `clonePost` makes the global one irrelevant; a batch of
      one item comes back as `n` copies or, if its condition fails, once. */
  lemma ClonePostPrecedence(q: Queue, key: string, it: QueueItem, g: Rules, holds: (Condition, string) -> bool)
    requires key in q.keyRules && Truthy(q.keyRules[key].clonePost)
    ensures ParseItemsPost(q.(globalRules := g), key, [it], holds) == ParseItemsPost(q, key, [it], holds)
    ensures var kr := q.keyRules[key];
      ParseItemsPost(q, key, [it], holds) ==
        if kr.clonePostCondition.None? || holds(kr.clonePostCondition.value, it.value)
        then Repeat(it, kr.clonePost.value) else [it]
  {
    var kr := q.keyRules[key];
    ExpandOne(it, kr.clonePost.value, kr.clonePostCondition, holds);
  }

  /** For any batch, a key's own truthy `clonePost` makes the global rules
      irrelevant; without a condition each item comes out `n` times in a row,
      in batch order, and a condition that holds of no value leaves the
      batch as it is. */
  lemma ParseItemsPostKeyWins(q: Queue, key: string, items: seq<QueueItem>, g: Rules, holds: (Condition, string) -> bool)
    requires key in q.keyRules && Truthy(q.keyRules[key].clonePost)
    ensures ParseItemsPost(q.(globalRules := g), key, items, holds) == ParseItemsPost(q, key, items, holds)
    ensures var kr := q.keyRules[key]; var r := ParseItemsPost(q, key, items, holds);
      kr.clonePostCondition.None? && kr.clonePost.value > 0 ==>
        Blocks(r, items, kr.clonePost.value)
    ensures var kr := q.keyRules[key];
      kr.clonePostCondition.Some? && (forall i :: 0 <= i < |items| ==> !holds(kr.clonePostCondition.value, items[i].value)) ==>
        ParseItemsPost(q, key, items, holds) == items
  {
    var kr := q.keyRules[key];
    if kr.clonePostCondition.None? && kr.clonePost.value > 0 {
      ExpandUnconditionalAt(items, kr.clonePost.value, holds);
    }
    if kr.clonePostCondition.Some? && (forall i :: 0 <= i < |items| ==> !holds(kr.clonePostCondition.value, items[i].value)) {
      ExpandNoneCloned(items, kr.clonePost.value, kr.clonePostCondition.value, holds);
    }
  }

  /** Without a truthy `clonePost` of its own, a key falls back to the global
      rule for any batch: the key's own `clonePostCondition` is ignored, a
      positive count with no condition repeats each item `n` times in order,
      a negative count with no condition drops the batch, and a condition
      that holds of no value leaves it as it is. */
  lemma ParseItemsPostGlobal(q: Queue, key: string, items: seq<QueueItem>, c: Option<Condition>, holds: (Condition, string) -> bool)
    requires key in q.keyRules && !Truthy(q.keyRules[key].clonePost) && Truthy(q.globalRules.clonePost)
    ensures var q' := q.(keyRules := q.keyRules[key := q.keyRules[key].(clonePostCondition := c)]);
      ParseItemsPost(q', key, items, holds) == ParseItemsPost(q, key, items, holds)
    ensures var g := q.globalRules; var r := ParseItemsPost(q, key, items, holds);
      g.clonePostCondition.None? && g.clonePost.value > 0 ==>
        Blocks(r, items, g.clonePost.value)
    ensures var g := q.globalRules;
      g.clonePostCondition.None? && g.clonePost.value < 0 ==> ParseItemsPost(q, key, items, holds) == []
    ensures var g := q.globalRules;
      g.clonePostCondition.Some? && (forall i :: 0 <= i < |items| ==> !holds(g.clonePostCondition.value, items[i].value)) ==>
        ParseItemsPost(q, key, items, holds) == items
  {
    var g := q.globalRules;
    if g.clonePostCondition.None? && g.clonePost.value > 0 {
      ExpandUnconditionalAt(items, g.clonePost.value, holds);
    }
    if g.clonePostCondition.None? && g.clonePost.value < 0 {
      ExpandNegativeCount(items, g.clonePost.value, holds);
    }
    if g.clonePostCondition.Some? && (forall i :: 0 <= i < |items| ==> !holds(g.clonePostCondition.value, items[i].value)) {
      ExpandNoneCloned(items, g.clonePost.value, g.clonePostCondition.value, holds);
    }
  }

  /** Flush-side cloning keeps the batch's order: it works item by item. */
  lemma ParseItemsPostAppend(q: Queue, key: string, a: seq<QueueItem>, b: seq<QueueItem>, holds: (Condition, string) -> bool)
    requires key in q.keyRules
    ensures ParseItemsPost(q, key, a + b, holds) == ParseItemsPost(q, key, a, holds) + ParseItemsPost(q, key, b, holds)
  {
    var kr := q.keyRules[key];
    var g := q.globalRules;
    if Truthy(kr.clonePost) {
      ExpandAppend(a, b, kr.clonePost.value, kr.clonePostCondition, holds);
    } else if Truthy(g.clonePost) {
      ExpandAppend(a, b, g.clonePost.value, g.clonePostCondition, holds);
    }
  }

  // ---- dispatch ----

  /** A recorded callback call: which callback, for which key and value, and
      whether the pass awaits it (`exec`) or not (`execAsync`). */
  datatype Invocation = Invocation(callback: Callback, key: string, value: string, awaited: bool)

  /** The callback a batch of `key` goes to: the key's own `exec`, else its
      `execAsync`, else the global `exec`, else the global `execAsync`. */
  function Handler(q: Queue, key: string): (h: Option<(Callback, bool)>)
    requires key in q.keyRules
    ensures h.None? <==> !HasExec(q.keyRules[key]) && !HasExec(q.globalRules)
    ensures HasExec(q.keyRules[key]) ==> Some(h.value.0) in [q.keyRules[key].exec, q.keyRules[key].execAsync]
  {
    var kr := q.keyRules[key];
    var g := q.globalRules;
    if HasExec(kr) then
      if kr.exec.Some? then Some((kr.exec.value, true)) else Some((kr.execAsync.value, false))
    else if HasExec(g) then
      if g.exec.Some? then Some((g.exec.value, true)) else Some((g.execAsync.value, false))
    else None
  }

  /** One invocation per item, in batch order. */
  function Dispatch(q: Queue, key: string, items: seq<QueueItem>): (calls: seq<Invocation>)
    requires key in q.keyRules
    ensures Handler(q, key).Some? ==> |calls| == |items|
    ensures Handler(q, key).None? ==> calls == []
    ensures forall i :: 0 <= i < |calls| ==>
      calls[i] == Invocation(Handler(q, key).value.0, key, items[i].value, Handler(q, key).value.1)
  {
    match Handler(q, key)
    case None => []
    case Some((cb, awaited)) => seq(|items|, i requires 0 <= i < |items| => Invocation(cb, key, items[i].value, awaited))
  }

  /** After `exec(key, cb)` the key's batches go to `cb`, awaited, whatever
      global callback is set; after `execAsync(key, cb)`, to `cb`, not
      awaited. */
  lemma KeyCallbackPreferred(q: Queue, key: string, cb: Callback)
    requires key != AllKeys
    ensures Handler(Exec(q, key, cb), key) == Some((cb, true))
    ensures Handler(ExecAsync(q, key, cb), key) == Some((cb, false))
  {
  }

  /** A key without callbacks of its own falls back to the global ones. */
  lemma GlobalCallbackFallback(q: Queue, key: string, cb: Callback)
    requires key in q.keyRules && !HasExec(q.keyRules[key])
    ensures Handler(Exec(q, AllKeys, cb), key) == Some((cb, true))
  {
  }

  // ---- the interval lock ----

  /** `lockKey`. */
  function LockKey(q: Queue, key: string, now: int): (r: Queue)
    requires key in q.keyRules
    ensures key in r.keyRules && r.keyRules[key].locked == Some(true) && r.keyRules[key].lastLockTimestamp == Some(now)
    ensures SameSettings(r.keyRules[key], q.keyRules[key])
    ensures r == q.(keyRules := r.keyRules) && r.keyRules.Keys == q.keyRules.Keys
    ensures forall k :: k in q.keyRules && k != key ==> r.keyRules[k] == q.keyRules[k]
  {
    q.(keyRules := q.keyRules[key := q.keyRules[key].(locked := Some(true), lastLockTimestamp := Some(now))])
  }

  /** `unlockKey`. */
  function UnlockKey(q: Queue, key: string): (r: Queue)
    requires key in q.keyRules
    ensures key in r.keyRules && r.keyRules[key].locked == Some(false) && r.keyRules[key].lastLockTimestamp == None
    ensures SameSettings(r.keyRules[key], q.keyRules[key])
    ensures r == q.(keyRules := r.keyRules) && r.keyRules.Keys == q.keyRules.Keys
    ensures forall k :: k in q.keyRules && k != key ==> r.keyRules[k] == q.keyRules[k]
  {
    q.(keyRules := q.keyRules[key := q.keyRules[key].(locked := Some(false), lastLockTimestamp := None)])
  }

  /** Two rule records that differ at most in their lock fields. */
  predicate SameSettings(a: Rules, b: Rules) {
    && a.kind == b.kind && a.shiftSize == b.shiftSize && a.every == b.every
    && a.clonePre == b.clonePre && a.clonePreCondition == b.clonePreCondition
    && a.clonePost == b.clonePost && a.clonePostCondition == b.clonePostCondition
    && a.exec == b.exec && a.execAsync == b.execAsync
  }

  /** The lock span `keyRules.every || globalRules.every` has elapsed since
      the lock was taken. An unset span or lock time never elapses (the
      comparison with `undefined` or `NaN` is false). */
  predicate Unlockable(kr: Rules, g: Rules, now: int) {
    var span := Or(kr.every, g.every);
    kr.lastLockTimestamp.Some? && span.Some? && now - kr.lastLockTimestamp.value >= span.value
  }

  // ---- one pass of the shift loop ----

  /** `keyRules.shiftSize || 1`: the key's own size only. */
  function ShiftSize(kr: Rules): (n: int)
    ensures n != 0
    ensures Truthy(kr.shiftSize) ==> n == kr.shiftSize.value
  {
    Or(kr.shiftSize, Some(1)).value
  }

  /** The pass gets as far as popping the key: some callback is set and the
      key is not locked, or its lock has elapsed. */
  predicate Attempted(q: Queue, key: string, now: int) {
    var kr := KeyRules(q, key);
    && (HasExec(kr) || HasExec(q.globalRules))
    && (kr.locked != Some(true) || Unlockable(kr, q.globalRules, now))
  }

  /** Visiting the key flushes a batch: it is registered, gets as far as
      popping, and its pop takes at least one item. */
  predicate Ready(q: Queue, key: string, now: int) {
    && key in q.keyRules
    && Attempted(q, key, now)
    && Taken(ShiftSize(q.keyRules[key]), |Store.Items(q.store, key)|) > 0
  }

  /** Visiting the key throws a TypeError: an unregistered key reached with
      a global callback set dereferences its missing rules, in
      `getKeyShiftKind` or, for the wildcard, in `parseItemsPost`. */
  predicate Crashes(q: Queue, key: string) {
    && key !in q.keyRules
    && HasExec(q.globalRules)
    && (key != AllKeys || |Store.Items(q.store, key)| > 0)
  }

  /** Everything outside the visited key's items and lock fields is as it
      was. */
  ghost predicate Frame(a: Queue, b: Queue, key: string) {
    && b.name == a.name && b.priorities == a.priorities && b.ignoreUnknownKeys == a.ignoreUnknownKeys
    && b.globalRules == a.globalRules && b.keyOrder == a.keyOrder && b.keyRules.Keys == a.keyRules.Keys
    && (forall k :: k in a.keyRules && k != key ==> b.keyRules[k] == a.keyRules[k])
    && (key in a.keyRules ==> SameSettings(b.keyRules[key], a.keyRules[key]))
    && (forall k :: k != key ==> Store.Items(b.store, k) == Store.Items(a.store, k))
  }

  /** What visiting one key in a pass does. */
  datatype Step = Skipped(q: Queue) | Served(q: Queue, calls: seq<Invocation>) | Crashed(q: Queue)

  /** `unlockKey`, for a locked key whose span has elapsed. */
  function ReleaseLock(q: Queue, key: string): (r: Queue)
    ensures r.store == q.store && r.shiftEnabled == q.shiftEnabled
    ensures Frame(q, r, key) && Known(r, key) == Known(q, key)
    ensures KeyRules(r, key).locked != Some(true)
    ensures SameSettings(KeyRules(r, key), KeyRules(q, key))
  {
    if KeyRules(q, key).locked == Some(true) then UnlockKey(q, key) else q
  }

  /** `shiftFIFO` or `shiftLIFO` of the key's batch, with `shiftEnabled`
      recomputed from the stored-count snapshot the storage returns. */
  function PopBatch(q: Queue, key: string): (r: (Queue, seq<QueueItem>))
    requires Known(q, key)
    ensures var s := Store.Items(q.store, key); var n := Taken(ShiftSize(KeyRules(q, key)), |s|);
      && (KindUsed(KeyShiftKind(q, key)) == FIFO ==> r.1 == s[..n] && Store.Items(r.0.store, key) == s[n..])
      && (KindUsed(KeyShiftKind(q, key)) == LIFO ==> r.1 == s[|s| - n..] && Store.Items(r.0.store, key) == s[..|s| - n])
    ensures |r.1| == Taken(ShiftSize(KeyRules(q, key)), |Store.Items(q.store, key)|)
    ensures r.0 == q.(store := r.0.store, shiftEnabled := AnyPending(Store.StoredCount(q.store)))
    ensures forall k :: k != key ==> Store.Items(r.0.store, k) == Store.Items(q.store, k)
  {
    var b := Store.Shift(q.store, KindUsed(KeyShiftKind(q, key)), key, ShiftSize(KeyRules(q, key)));
    (q.(store := b.0, shiftEnabled := AnyPending(b.1.storedCount)), b.1.items)
  }

  /** The body of the pass's `for` loop for one key. `holds` answers clone
      conditions. */
  function Visit(q: Queue, key: string, now: int, holds: (Condition, string) -> bool): (r: Step)
    ensures r.Served? <==> Ready(q, key, now)
    ensures r.Crashed? <==> Crashes(q, key)
    ensures !Attempted(q, key, now) ==> r == Skipped(q)
    ensures !r.Crashed? ==> Frame(q, r.q, key)
    ensures r.Skipped? ==> Store.Items(r.q.store, key) == Store.Items(q.store, key)
    ensures Attempted(q, key, now) && !r.Crashed? ==> r.q.shiftEnabled == AnyPending(Store.StoredCount(q.store))
    ensures r.Served? ==> forall c :: c in r.calls ==> c.key == key
    ensures r.Served? && Truthy(Or(q.keyRules[key].every, q.globalRules.every)) ==>
      r.q.keyRules[key].locked == Some(true) && r.q.keyRules[key].lastLockTimestamp == Some(now)
  {
    var kr := KeyRules(q, key);
    var g := q.globalRules;
    if !HasExec(kr) && !HasExec(g) then Skipped(q)
    else if kr.locked == Some(true) && !Unlockable(kr, g, now) then Skipped(q)
    else
      var q1 := ReleaseLock(q, key);
      if !Known(q1, key) then Crashed(q1)
      else PopAndDispatch(q1, key, now, Truthy(Or(kr.every, g.every)), holds)
  }

  /** The visit past the lock check, on a key with rules or the wildcard:
      pop the batch, skip an empty one, otherwise clone it, hand it to the
      callback and, when `lock` (a lock span is set), lock the key. */
  function PopAndDispatch(q: Queue, key: string, now: int, lock: bool, holds: (Condition, string) -> bool): (r: Step)
    requires Known(q, key)
    ensures r.Served? <==> key in q.keyRules && Taken(ShiftSize(q.keyRules[key]), |Store.Items(q.store, key)|) > 0
    ensures r.Crashed? <==> key !in q.keyRules && |Store.Items(q.store, key)| > 0
    ensures !r.Crashed? ==> Frame(q, r.q, key)
    ensures r.Skipped? ==> Store.Items(r.q.store, key) == Store.Items(q.store, key)
    ensures !r.Crashed? ==> r.q.shiftEnabled == AnyPending(Store.StoredCount(q.store))
    ensures r.Served? ==> forall c :: c in r.calls ==> c.key == key
    ensures r.Served? && lock ==> r.q.keyRules[key].locked == Some(true) && r.q.keyRules[key].lastLockTimestamp == Some(now)
  {
    var (q2, batch) := PopBatch(q, key);
    if |batch| == 0 then Skipped(q2)
    else if key !in q2.keyRules then Crashed(q2)
    else
      var calls := Dispatch(q2, key, ParseItemsPost(q2, key, batch, holds));
      Served(if lock then LockKey(q2, key, now) else q2, calls)
  }

  /** A batch is cloned and dispatched by the key's settings and the
      global rules alone; the lock fields play no part. */
  lemma DispatchBySettings(q: Queue, q': Queue, key: string, items: seq<QueueItem>, holds: (Condition, string) -> bool)
    requires key in q.keyRules && key in q'.keyRules && q.globalRules == q'.globalRules
    requires SameSettings(q.keyRules[key], q'.keyRules[key])
    ensures Dispatch(q, key, ParseItemsPost(q, key, items, holds)) == Dispatch(q', key, ParseItemsPost(q', key, items, holds))
  {
    assert Handler(q, key) == Handler(q', key);
    assert ParseItemsPost(q, key, items, holds) == ParseItemsPost(q', key, items, holds);
  }

  /** The batch a visit flushes: the oldest `n` items for FIFO, the newest
      `n` (in push order) for LIFO, `n` being the key's shift size clamped to
      what is pending; the rest stays stored. */
  lemma VisitBatch(q: Queue, key: string, now: int, holds: (Condition, string) -> bool)
    requires Ready(q, key, now)
    ensures var kr := q.keyRules[key]; var s := Store.Items(q.store, key); var n := Taken(ShiftSize(kr), |s|);
      var fifo := KindUsed(KeyShiftKind(q, key)) == FIFO;
      var batch := if fifo then s[..n] else s[|s| - n..];
      && Visit(q, key, now, holds).calls == Dispatch(q, key, ParseItemsPost(q, key, batch, holds))
      && Store.Items(Visit(q, key, now, holds).q.store, key) == if fifo then s[n..] else s[..|s| - n]
  {
    var s := Store.Items(q.store, key);
    var kr := q.keyRules[key];
    var q1 := ReleaseLock(q, key);
    var lock := Truthy(Or(kr.every, q.globalRules.every));
    assert Visit(q, key, now, holds) == PopAndDispatch(q1, key, now, lock, holds);
    assert key in q1.keyRules && q1.store == q.store;
    assert KeyShiftKind(q1, key) == KeyShiftKind(q, key);
    assert ShiftSize(KeyRules(q1, key)) == ShiftSize(kr);
    var b := PopBatch(q1, key);
    PopAndDispatchServes(q1, key, now, lock, holds);
    DispatchBySettings(q, b.0, key, b.1, holds);
  }

  /** A served stage hands the popped batch, cloned, to the callback, and
      leaves the key with what the pop left. */
  lemma PopAndDispatchServes(q: Queue, key: string, now: int, lock: bool, holds: (Condition, string) -> bool)
    requires key in q.keyRules && Taken(ShiftSize(q.keyRules[key]), |Store.Items(q.store, key)|) > 0
    ensures var b := PopBatch(q, key); var r := PopAndDispatch(q, key, now, lock, holds);
      && key in b.0.keyRules
      && r.calls == Dispatch(b.0, key, ParseItemsPost(b.0, key, b.1, holds))
      && Store.Items(r.q.store, key) == Store.Items(b.0.store, key)
  {
  }

  /** The outcome of a pass: the state after it, the callback calls it made,
      the key it served (if any) and whether it ended in a TypeError. */
  datatype Outcome = Outcome(q: Queue, calls: seq<Invocation>, served: Option<string>, crashed: bool)

  /** The `for` loop over the ordered keys: skipped keys fall through to the
      next, the first batch ends the pass (`break`), a TypeError ends it. */
  function PassOver(q: Queue, keys: seq<string>, now: int, holds: (Condition, string) -> bool): (r: Outcome)
    ensures forall c :: c in r.calls ==> r.served == Some(c.key)
    ensures forall k :: k != AllKeys && r.served != Some(k) ==> Store.Items(r.q.store, k) == Store.Items(q.store, k)
    ensures r.served.Some? ==> r.served.value in keys && !r.crashed
    decreases |keys|
  {
    if |keys| == 0 then Outcome(q, [], None, false)
    else
      match Visit(q, keys[0], now, holds)
      case Skipped(q1) => PassOver(q1, keys[1..], now, holds)
      case Served(q1, calls) => Outcome(q1, calls, Some(keys[0]), false)
      case Crashed(q1) => Outcome(q1, [], None, true)
  }

  /** One pass of the shift loop at time `now`: nothing while shifting is
      disabled, otherwise a walk over the keys in priority order. */
  function Pass(q: Queue, now: int, holds: (Condition, string) -> bool): (r: Outcome)
    ensures !q.shiftEnabled ==> r == Outcome(q, [], None, false)
  {
    if !q.shiftEnabled then Outcome(q, [], None, false)
    else PassOver(q, OrderKeysByPriority(q), now, holds)
  }

  /** A skipped visit changes neither which keys are ready nor which crash. */
  lemma SkipPreserves(q: Queue, key: string, now: int, holds: (Condition, string) -> bool, k: string)
    requires Visit(q, key, now, holds).Skipped?
    ensures var q1 := Visit(q, key, now, holds).q;
      && Ready(q1, k, now) == Ready(q, k, now)
      && Crashes(q1, k) == Crashes(q, k)
  {
    var q1 := Visit(q, key, now, holds).q;
    if k == key && k in q.keyRules && Attempted(q, key, now) {
      assert !Ready(q, key, now);
      assert Store.Items(q1.store, key) == Store.Items(q.store, key);
    }
  }

  /** The pass serves the first key in its order that is ready, provided no
      key before it crashes. */
  lemma {:induction false} PassOverServesFirstReady(q: Queue, keys: seq<string>, now: int, holds: (Condition, string) -> bool, i: nat)
    requires i < |keys| && Ready(q, keys[i], now)
    requires forall j :: 0 <= j < i ==> !Ready(q, keys[j], now) && !Crashes(q, keys[j])
    ensures PassOver(q, keys, now, holds).served == Some(keys[i])
    ensures !PassOver(q, keys, now, holds).crashed
    decreases i
  {
    if i > 0 {
      var q1 := Visit(q, keys[0], now, holds).q;
      forall k ensures Ready(q1, k, now) == Ready(q, k, now) && Crashes(q1, k) == Crashes(q, k) {
        SkipPreserves(q, keys[0], now, holds, k);
      }
      assert keys[1..][i - 1] == keys[i];
      forall j | 0 <= j < i - 1 ensures !Ready(q1, keys[1..][j], now) && !Crashes(q1, keys[1..][j]) {
        assert keys[1..][j] == keys[j + 1];
      }
      PassOverServesFirstReady(q1, keys[1..], now, holds, i - 1);
    }
  }

  /** When no key in the order is ready and none crashes, the pass flushes
      nothing and leaves every key's items in place. */
  lemma {:induction false} PassOverNoneReady(q: Queue, keys: seq<string>, now: int, holds: (Condition, string) -> bool)
    requires forall j :: 0 <= j < |keys| ==> !Ready(q, keys[j], now) && !Crashes(q, keys[j])
    ensures var r := PassOver(q, keys, now, holds);
      && r.served == None && r.calls == [] && !r.crashed
      && forall k :: Store.Items(r.q.store, k) == Store.Items(q.store, k)
    decreases |keys|
  {
    if |keys| > 0 {
      var q1 := Visit(q, keys[0], now, holds).q;
      forall k ensures Ready(q1, k, now) == Ready(q, k, now) && Crashes(q1, k) == Crashes(q, k) {
        SkipPreserves(q, keys[0], now, holds, k);
      }
      forall j | 0 <= j < |keys| - 1 ensures !Ready(q1, keys[1..][j], now) && !Crashes(q1, keys[1..][j]) {
        assert keys[1..][j] == keys[j + 1];
      }
      PassOverNoneReady(q1, keys[1..], now, holds);
    }
  }

  /** Priority: a pass serves the first ready key of `orderKeysByPriority`. */
  lemma PassServesFirstReady(q: Queue, now: int, holds: (Condition, string) -> bool, i: nat)
    requires q.shiftEnabled
    requires var keys := OrderKeysByPriority(q);
      && i < |keys| && Ready(q, keys[i], now)
      && forall j :: 0 <= j < i ==> !Ready(q, keys[j], now) && !Crashes(q, keys[j])
    ensures Pass(q, now, holds).served == Some(OrderKeysByPriority(q)[i])
    ensures !Pass(q, now, holds).crashed
  {
    PassOverServesFirstReady(q, OrderKeysByPriority(q), now, holds, i);
  }

  /** A queue whose ordered keys are all registered (or that has no global
      callback) never crashes in a pass, as long as nothing is stored under
      the wildcard. */
  lemma PassSafe(q: Queue, now: int, holds: (Condition, string) -> bool)
    requires Store.Items(q.store, AllKeys) == []
    requires forall k :: k in OrderKeysByPriority(q) ==> k in q.keyRules || !HasExec(q.globalRules)
    ensures !Pass(q, now, holds).crashed
  {
    if q.shiftEnabled {
      var keys := OrderKeysByPriority(q);
      forall j | 0 <= j < |keys| ensures !Crashes(q, keys[j]) {
        assert keys[j] in keys;
      }
      PassOverSafe(q, keys, now, holds);
    }
  }

  /** A walk over keys none of which crashes does not crash. */
  lemma {:induction false} PassOverSafe(q: Queue, keys: seq<string>, now: int, holds: (Condition, string) -> bool)
    requires forall j :: 0 <= j < |keys| ==> !Crashes(q, keys[j])
    ensures !PassOver(q, keys, now, holds).crashed
    decreases |keys|
  {
    if |keys| > 0 && Visit(q, keys[0], now, holds).Skipped? {
      var q1 := Visit(q, keys[0], now, holds).q;
      forall j | 0 <= j < |keys| - 1 ensures !Crashes(q1, keys[1..][j]) {
        assert keys[1..][j] == keys[j + 1];
        SkipPreserves(q, keys[0], now, holds, keys[j + 1]);
      }
      PassOverSafe(q1, keys[1..], now, holds);
    }
  }

  /** A priority key that was never registered crashes the pass when a
      global callback is set: the `|| {}` guard covers the rule lookup but
      not `getKeyShiftKind`. */
  lemma UnregisteredPriorityCrashes(q: Queue, key: string, now: int, holds: (Condition, string) -> bool)
    requires q.shiftEnabled && q.ignoreUnknownKeys && q.priorities == [key]
    requires key != AllKeys && key !in q.keyRules && HasExec(q.globalRules)
    ensures Pass(q, now, holds).crashed
  {
  }

  /** Within the lock span after a batch, the key is skipped. */
  lemma LockedKeyWaits(q: Queue, key: string, t: int, now: int, holds: (Condition, string) -> bool)
    requires key in q.keyRules
    requires var span := Or(q.keyRules[key].every, q.globalRules.every); span.Some? && now - t < span.value
    ensures Visit(LockKey(q, key, t), key, now, holds) == Skipped(LockKey(q, key, t))
  {
  }

  /** Once the lock span has elapsed, a locked key is exactly as ready as
      an unlocked one. */
  lemma LockExpires(q: Queue, key: string, t: int, now: int)
    requires key in q.keyRules
    requires var span := Or(q.keyRules[key].every, q.globalRules.every); span.Some? && now - t >= span.value
    ensures Ready(LockKey(q, key, t), key, now) == Ready(UnlockKey(q, key), key, now)
  {
  }

  /** `flushSize("*", n)` sets a global shift size the pass never reads:
      a key's batch size comes from its own rules only. */
  lemma GlobalFlushSizeIgnored(q: Queue, key: string, n: int)
    requires key != AllKeys
    ensures ShiftSize(KeyRules(FlushSize(q, AllKeys, n), key)) == ShiftSize(KeyRules(q, key))
  {
  }

  /** End to end: on a fresh queue with a callback for `key`, a pushed value
      is handed to that callback, awaited, by the next pass. */
  lemma PushThenFlush(name: string, key: string, v: string, t: nat, now: int, cb: Callback,
                      holds: (Condition, string) -> bool)
    requires key != AllKeys
    ensures var r := Push(Exec(New(name), key, cb), key, v, t, true);
      && r.Success?
      && Pass(r.value, now, holds).calls == [Invocation(cb, key, v, true)]
      && Store.Items(Pass(r.value, now, holds).q.store, key) == []
  {
    var it := QueueItem(t, v);
    PushOnFresh(name, key, v, t, cb);
    var q := Push(Exec(New(name), key, cb), key, v, t, true).value;
    OrderOne(q, key);
    FlushSingle(q, key, it, cb, now, holds);
  }

  /** The push half: a fresh queue with only `key` registered holds the one
      pushed item and has shifting enabled. */
  lemma PushOnFresh(name: string, key: string, v: string, t: nat, cb: Callback)
    requires key != AllKeys
    ensures var r := Push(Exec(New(name), key, cb), key, v, t, true);
      && r.Success?
      && r.value.keyOrder == [key] && r.value.priorities == [] && !r.value.ignoreUnknownKeys && r.value.shiftEnabled
      && key in r.value.keyRules && r.value.keyRules[key] == Empty.(exec := Some(cb)) && r.value.globalRules == Empty
      && Store.Items(r.value.store, key) == [QueueItem(t, v)]
  {
    var q0 := Exec(New(name), key, cb);
    assert q0.keyOrder == [key] && q0.priorities == [] && !q0.ignoreUnknownKeys;
    assert q0.keyRules[key] == Empty.(exec := Some(cb));
    assert Store.Items(q0.store, key) == [];
  }

  /** The flush half: a pass over a queue whose only key holds one item and
      has an `exec` callback hands that item to it and empties the key. */
  lemma FlushSingle(q: Queue, key: string, it: QueueItem, cb: Callback, now: int, holds: (Condition, string) -> bool)
    requires q.shiftEnabled && OrderKeysByPriority(q) == [key]
    requires key in q.keyRules && q.keyRules[key] == Empty.(exec := Some(cb)) && q.globalRules == Empty
    requires Store.Items(q.store, key) == [it]
    ensures Pass(q, now, holds).calls == [Invocation(cb, key, it.value, true)]
    ensures Store.Items(Pass(q, now, holds).q.store, key) == []
  {
    assert Ready(q, key, now);
    var vr := Visit(q, key, now, holds);
    assert vr.Served?;
    assert Pass(q, now, holds) == Outcome(vr.q, vr.calls, Some(key), false);
    VisitBatch(q, key, now, holds);
    FlushOne(q, key, it, holds);
  }

  lemma OrderOne(q: Queue, key: string)
    requires q.keyOrder == [key] && q.priorities == [] && !q.ignoreUnknownKeys
    ensures OrderKeysByPriority(q) == [key]
  {
    assert Filter(q.keyOrder, k => k !in q.priorities) == [key];
  }

  lemma FlushOne(q: Queue, key: string, it: QueueItem, holds: (Condition, string) -> bool)
    requires key in q.keyRules && q.keyRules[key].clonePost.None? && q.globalRules.clonePost.None?
    requires Handler(q, key).Some?
    ensures Dispatch(q, key, ParseItemsPost(q, key, [it], holds)) ==
      [Invocation(Handler(q, key).value.0, key, it.value, Handler(q, key).value.1)]
  {
  }
}

=== FILE: redis.dfy ===
/** src/storage/Redis.ts: one storage class with two layouts, chosen by the
    `TTLms` option. Without a truthy TTL each queue key is a Redis list, as
    in the list backend; with one, each key is a sorted set scored by push
    timestamp, as in the sorted-set backend, and the push timestamps are
    also kept in an in-process FIFO cache that `getFirstTimestamp` drains. */
module RedisStore {
  import opened Types
  import opened Text
  import opened RedisDb
  import opened RedisOps
  import Store

  const KeySetTail: string := "§$et§"

  function KeyHead(name: string): (kh: string)
    ensures StartsWith(kh, "n§ç") && |kh| > 0
  {
    "n§çs§çq-" + name
  }

  /** A storage: its name, its `TTLms` option and its timestamps cache. */
  datatype RedisStorage = RedisStorage(name: string, ttl: Option<int>, timestamps: seq<nat>)

  /** The constructor: an empty timestamps cache. */
  function New(name: string, ttl: Option<int>): (s: RedisStorage)
    ensures s.name == name && s.ttl == ttl && |s.timestamps| == 0
  {
    RedisStorage(name, ttl, [])
  }

  /** `buildListKey`: the key head and the item key, plus the set tail when
      a TTL is set. */
  function BuildListKey(s: RedisStorage, key: string): (rk: string)
    ensures StartsWith(rk, KeyHead(s.name))
    ensures Truthy(s.ttl) ==> EndsWith(rk, KeySetTail)
  {
    if Truthy(s.ttl) then KeyHead(s.name) + key + KeySetTail else KeyHead(s.name) + key
  }

  /** `getItemKey`: the part after the key head, cut at the set tail when a
      TTL is set. */
  function GetItemKey(s: RedisStorage, rk: string): Option<string> {
    if Truthy(s.ttl) then SetItemKey(KeyHead(s.name), KeySetTail, rk) else ListItemKey(KeyHead(s.name), rk)
  }

  /** In both layouts `getItemKey` inverts `buildListKey` for item keys free
      of '§' and 'ç'. */
  lemma KeyRoundTrip(s: RedisStorage, key: string)
    requires '§' !in key && 'ç' !in key
    ensures GetItemKey(s, BuildListKey(s, key)) == Some(key)
  {
    var kh := KeyHead(s.name);
    NamespaceMarked(kh);
    if Truthy(s.ttl) {
      assert Marked(KeySetTail, 0);
      SetKeyRoundTrip(kh, KeySetTail, key, 2, 0);
    } else {
      NoOccurrence(key, kh, 2);
      ListKeyRoundTrip(kh, key);
    }
  }

  /** `push`: with a TTL the timestamp joins the cache and the item is ZADDed
      with its timestamp as score; otherwise the item is LPUSHed. */
  function Push(s: RedisStorage, db: Db, key: string, item: QueueItem): (r: Result<(RedisStorage, Db), RedisError>)
    ensures r.Success? ==> r.value.0.name == s.name && r.value.0.ttl == s.ttl
    ensures r.Success? ==>
      r.value.0.timestamps == if Truthy(s.ttl) then s.timestamps + [item.pushTimestamp] else s.timestamps
    ensures r.Success? ==> SameExcept(db, r.value.1, BuildListKey(s, key))
    ensures r.Success? && !Truthy(s.ttl) ==>
      && List(db, BuildListKey(s, key)).Success?
      && List(r.value.1, BuildListKey(s, key)) == Success([ItemJson.Encode(item)] + List(db, BuildListKey(s, key)).value)
    ensures r.Success? && Truthy(s.ttl) ==>
      && ZSet(r.value.1, BuildListKey(s, key)).Success?
      && EntryOf(item) in ZSet(r.value.1, BuildListKey(s, key)).value
  {
    if Truthy(s.ttl) then
      match SetPush(db, BuildListKey(s, key), item)
      case Failure(e) => Failure(e)
      case Success(db1) => Success((s.(timestamps := s.timestamps + [item.pushTimestamp]), db1))
    else
      match LPush(db, BuildListKey(s, key), ItemJson.Encode(item))
      case Failure(e) => Failure(e)
      case Success(db1) => Success((s, db1))
  }

  /** `popRight`: the lowest ranks of the sorted set with a TTL, `count`
      RPOPs of the list without. */
  function PopRight(s: RedisStorage, db: Db, key: string, count: int): (r: Result<(Db, seq<QueueItem>), RedisError>)
    ensures r.Success? ==> SameExcept(db, r.value.0, BuildListKey(s, key))
  {
    if Truthy(s.ttl) then SetPopRight(db, BuildListKey(s, key), count)
    else ListPopRight(db, BuildListKey(s, key), count)
  }

  /** `popLeft`: the highest ranks of the sorted set with a TTL, `count`
      LPOPs of the list without. */
  function PopLeft(s: RedisStorage, db: Db, key: string, count: int): (r: Result<(Db, seq<QueueItem>), RedisError>)
    ensures r.Success? ==> SameExcept(db, r.value.0, BuildListKey(s, key))
  {
    if Truthy(s.ttl) then SetPopLeft(db, BuildListKey(s, key), count)
    else ListPopLeft(db, BuildListKey(s, key), count)
  }

  /** `getStoredCount` over the keys `listed` for the key head. With a TTL,
      `reply` gives each key's ZCOUNT answer and every failed key is skipped
      (the catch block rethrows nothing); without one, each key gets its
      LLEN and an error aborts. */
  function GetStoredCount(s: RedisStorage, db: Db, reply: string -> Result<nat, RedisError>, listed: seq<string>): (r: Result<StoredCount, RedisError>)
    ensures Truthy(s.ttl) ==> r.Success?
  {
    if Truthy(s.ttl) then CountSets(reply, KeyHead(s.name), KeySetTail, listed, map[], false)
    else CountLists(db, KeyHead(s.name), listed, map[])
  }

  /** `getFirstTimestamp`: shift of the timestamps cache, undefined when it
      is empty. */
  function GetFirstTimestamp(s: RedisStorage): (r: (RedisStorage, Option<nat>))
    ensures r.0.name == s.name && r.0.ttl == s.ttl
    ensures r.1.None? <==> |s.timestamps| == 0
    ensures r.1.Some? ==> [r.1.value] + r.0.timestamps == s.timestamps
  {
    if |s.timestamps| == 0 then (s, None)
    else (s.(timestamps := s.timestamps[1..]), Some(s.timestamps[0]))
  }

  /** `cleanupKeys`: nothing (undefined) without a truthy TTL; otherwise
      ZREMRANGEBYSCORE -inf threshold on every listed set key, replying the
      number removed. */
  function CleanupKeys(s: RedisStorage, db: Db, listed: seq<string>, threshold: int): (r: Result<(Db, Option<nat>), RedisError>)
    ensures !Truthy(s.ttl) ==> r == Success((db, None))
    ensures Truthy(s.ttl) && r.Success? ==> r.value.1.Some?
    ensures r.Success? ==> forall j :: j !in listed ==> Lookup(r.value.0, j) == Lookup(db, j)
  {
    if !Truthy(s.ttl) then Success((db, None))
    else
      match CleanupSets(db, KeyHead(s.name), KeySetTail, listed, threshold)
      case Failure(e) => Failure(e)
      case Success((db1, c)) => Success((db1, Some(c)))
  }

  // ---- the timestamps cache ----

  /** The cache is FIFO: the first timestamp handed back after a push is the
      oldest cached one, or the pushed one when the cache was empty. */
  lemma TimestampsFifo(s: RedisStorage, db: Db, key: string, item: QueueItem)
    requires Truthy(s.ttl)
    requires Push(s, db, key, item).Success?
    ensures var s1 := Push(s, db, key, item).value.0;
      GetFirstTimestamp(s1).1 == Some(if |s.timestamps| == 0 then item.pushTimestamp else s.timestamps[0])
  {
  }

  /** Draining the cache hands back every cached timestamp in push order. */
  function Drain(s: RedisStorage): (ts: seq<nat>)
    decreases |s.timestamps|
  {
    match GetFirstTimestamp(s)
    case (_, None) => []
    case (s1, Some(t)) => [t] + Drain(s1)
  }

  lemma {:induction false} DrainInPushOrder(s: RedisStorage)
    ensures Drain(s) == s.timestamps
    decreases |s.timestamps|
  {
    if |s.timestamps| > 0 {
      DrainInPushOrder(GetFirstTimestamp(s).0);
    }
  }

  // ---- against the abstract store ----

  /** The database holds store `st` in the layout `s` uses. */
  ghost predicate Holds(s: RedisStorage, db: Db, st: Store.Store) {
    if Truthy(s.ttl) then SetsHold(db, KeyHead(s.name), KeySetTail, st) else ListsHold(db, KeyHead(s.name), st)
  }

  /** `push` stores the item as the newest of its key; with a TTL, provided
      it ranks after every pending item of its key. */
  lemma PushRefines(s: RedisStorage, db: Db, st: Store.Store, key: string, item: QueueItem)
    requires Holds(s, db, st)
    requires Truthy(s.ttl) ==> ZValid(Entries(Store.Items(st, key) + [item]))
    ensures Push(s, db, key, item).Success?
    ensures Holds(Push(s, db, key, item).value.0, Push(s, db, key, item).value.1, Store.Push(st, key, item))
  {
    var kh := KeyHead(s.name);
    var rk := BuildListKey(s, key);
    var st1 := Store.Push(st, key, item);
    if Truthy(s.ttl) {
      SetPushSpec(db, rk, Store.Items(st, key), item);
      var r := Push(s, db, key, item).value.1;
      forall k | k != key ensures ZSet(r, kh + k + KeySetTail) == Success(Entries(Store.Items(st1, k))) {
        SetKeysDistinct(kh, KeySetTail, k, key);
        SameExceptReads(db, r, rk, kh + k + KeySetTail);
      }
    } else {
      var r := Push(s, db, key, item).value.1;
      forall k ensures List(r, kh + k) == Success(Stacked(Store.Items(st1, k))) {
        if k == key {
          StackedPush(Store.Items(st, key), item);
        } else {
          ListKeysDistinct(kh, k, key);
          SameExceptReads(db, r, rk, kh + k);
        }
      }
    }
  }

  /** `popRight` hands back the oldest pending items, oldest first, and
      removes them: `count` of them without a TTL, `RankTaken(count)` with
      one (all of them for a count of 0). */
  lemma PopRightRefines(s: RedisStorage, db: Db, st: Store.Store, key: string, count: int)
    requires Holds(s, db, st)
    ensures var n := if Truthy(s.ttl) then RankTaken(count, |Store.Items(st, key)|) else count;
      var r := PopRight(s, db, key, count); var p := Store.PopRight(st, key, n);
      && r.Success?
      && r.value.1 == p.1
      && Holds(s, r.value.0, p.0)
  {
    if Truthy(s.ttl) {
      PopRightSets(s, db, st, key, count);
    } else {
      PopRightLists(s, db, st, key, count);
    }
  }

  lemma PopRightSets(s: RedisStorage, db: Db, st: Store.Store, key: string, count: int)
    requires Holds(s, db, st) && Truthy(s.ttl)
    ensures var r := PopRight(s, db, key, count); var p := Store.PopRight(st, key, RankTaken(count, |Store.Items(st, key)|));
      r.Success? && r.value.1 == p.1 && Holds(s, r.value.0, p.0)
  {
    var kh := KeyHead(s.name);
    var xs := Store.Items(st, key);
    var n := RankTaken(count, |xs|);
    assert BuildListKey(s, key) == kh + key + KeySetTail;
    SetPopRightSpec(db, kh + key + KeySetTail, xs, count);
    assert Taken(n, |xs|) == n;
    SetsHoldStep(db, PopRight(s, db, key, count).value.0, kh, KeySetTail, key, st, Store.PopRight(st, key, n).0);
  }

  lemma PopRightLists(s: RedisStorage, db: Db, st: Store.Store, key: string, count: int)
    requires Holds(s, db, st) && !Truthy(s.ttl)
    ensures var r := PopRight(s, db, key, count); var p := Store.PopRight(st, key, count);
      r.Success? && r.value.1 == p.1 && Holds(s, r.value.0, p.0)
  {
    var kh := KeyHead(s.name);
    assert BuildListKey(s, key) == kh + key;
    ListPopRightSpec(db, kh + key, Store.Items(st, key), count);
    ListsHoldStep(db, PopRight(s, db, key, count).value.0, kh, key, st, Store.PopRight(st, key, count).0);
  }

  /** `popLeft` hands back the newest pending items, newest first, and
      removes them: `count` of them without a TTL, `RankTaken(count)` with
      one. */
  lemma PopLeftRefines(s: RedisStorage, db: Db, st: Store.Store, key: string, count: int)
    requires Holds(s, db, st)
    ensures var n := if Truthy(s.ttl) then RankTaken(count, |Store.Items(st, key)|) else count;
      var r := PopLeft(s, db, key, count); var p := Store.PopLeft(st, key, n);
      && r.Success?
      && r.value.1 == p.1
      && Holds(s, r.value.0, p.0)
  {
    if Truthy(s.ttl) {
      PopLeftSets(s, db, st, key, count);
    } else {
      PopLeftLists(s, db, st, key, count);
    }
  }

  lemma PopLeftSets(s: RedisStorage, db: Db, st: Store.Store, key: string, count: int)
    requires Holds(s, db, st) && Truthy(s.ttl)
    ensures var r := PopLeft(s, db, key, count); var p := Store.PopLeft(st, key, RankTaken(count, |Store.Items(st, key)|));
      r.Success? && r.value.1 == p.1 && Holds(s, r.value.0, p.0)
  {
    var kh := KeyHead(s.name);
    var xs := Store.Items(st, key);
    var n := RankTaken(count, |xs|);
    assert BuildListKey(s, key) == kh + key + KeySetTail;
    SetPopLeftSpec(db, kh + key + KeySetTail, xs, count);
    assert Taken(n, |xs|) == n;
    SetsHoldStep(db, PopLeft(s, db, key, count).value.0, kh, KeySetTail, key, st, Store.PopLeft(st, key, n).0);
  }

  lemma PopLeftLists(s: RedisStorage, db: Db, st: Store.Store, key: string, count: int)
    requires Holds(s, db, st) && !Truthy(s.ttl)
    ensures var r := PopLeft(s, db, key, count); var p := Store.PopLeft(st, key, count);
      r.Success? && r.value.1 == p.1 && Holds(s, r.value.0, p.0)
  {
    var kh := KeyHead(s.name);
    assert BuildListKey(s, key) == kh + key;
    ListPopLeftSpec(db, kh + key, Store.Items(st, key), count);
    ListsHoldStep(db, PopLeft(s, db, key, count).value.0, kh, key, st, Store.PopLeft(st, key, count).0);
  }

  /** With `listed` being the keys under the key head, each named by this
      queue in its layout, `getStoredCount` on true replies reports every
      key's number of pending items. */
  lemma StoredCountRefines(s: RedisStorage, db: Db, st: Store.Store, listed: seq<string>)
    requires Holds(s, db, st)
    requires forall rk :: rk in listed <==> rk in db && StartsWith(rk, KeyHead(s.name))
    requires forall rk :: rk in db && StartsWith(rk, KeyHead(s.name)) ==>
      if Truthy(s.ttl) then db[rk].ZSetV? ==> WellNamedSet(KeyHead(s.name), KeySetTail, rk)
      else WellNamedList(KeyHead(s.name), rk)
    ensures GetStoredCount(s, db, k => ZCount(db, k), listed).Success?
    ensures forall k :: CountOf(GetStoredCount(s, db, k => ZCount(db, k), listed).value, k) == |Store.Items(st, k)|
  {
    var kh := KeyHead(s.name);
    if Truthy(s.ttl) {
      CountSetsSpec(k => ZCount(db, k), kh, KeySetTail, listed, map[], false);
      forall k ensures CountOf(GetStoredCount(s, db, k => ZCount(db, k), listed).value, k) == |Store.Items(st, k)| {
        var rk := kh + k + KeySetTail;
        assert rk == kh + (k + KeySetTail);
        assert rk[..|kh|] == kh;
      }
    } else {
      forall i | 0 <= i < |listed| && StartsWith(listed[i], kh)
        ensures WellNamedList(kh, listed[i]) && List(db, listed[i]).Success?
      {
        var t := listed[i][|kh|..];
        assert listed[i] == kh + t;
      }
      CountListsSpec(db, kh, listed, map[]);
      forall k ensures CountOf(GetStoredCount(s, db, k => ZCount(db, k), listed).value, k) == |Store.Items(st, k)| {
        assert (kh + k)[..|kh|] == kh;
      }
    }
  }

  /** With a TTL, `getStoredCount` swallows every failed reply: a key whose
      ZCOUNT fails for any reason is left out and the count still succeeds. */
  lemma StoredCountSwallowsErrors(s: RedisStorage, db: Db, reply: string -> Result<nat, RedisError>, rk: string, msg: string)
    requires Truthy(s.ttl) && StartsWith(rk, KeyHead(s.name)) && reply(rk) == Failure(OtherError(msg))
    ensures GetStoredCount(s, db, reply, [rk]) == Success(map[])
  {
    assert [rk][1..] == [];
    assert CountSets(reply, KeyHead(s.name), KeySetTail, [rk][1..], map[], false) == Success(map[]);
  }

  /** Without a TTL, the sorted set of a TTL queue whose name extends this
      queue's name lies under this queue's key head; its LLEN fails with
      WRONGTYPE and `getStoredCount` fails with it. */
  lemma NeighbourSetBreaksCount(name: string, more: string, key: string, db: Db, reply: string -> Result<nat, RedisError>)
    requires var rk := BuildListKey(RedisStorage(name + more, Some(1), []), key);
      rk in db && db[rk].ZSetV?
    ensures var rk := BuildListKey(RedisStorage(name + more, Some(1), []), key);
      GetStoredCount(New(name, None), db, reply, [rk]) == Failure(WrongType)
  {
    var rk := BuildListKey(RedisStorage(name + more, Some(1), []), key);
    assert rk == KeyHead(name) + (more + key + KeySetTail);
    assert rk[..|KeyHead(name)|] == KeyHead(name);
  }

  /** With a TTL and `listed` being the keys under the head, `cleanupKeys(t)`
      is expiry on the store and replies how many entries it removed. */
  lemma CleanupRefines(s: RedisStorage, db: Db, st: Store.Store, listed: seq<string>, t: int)
    requires Truthy(s.ttl)
    requires Holds(s, db, st)
    requires forall rk :: rk in listed <==> rk in db && StartsWith(rk, KeyHead(s.name))
    requires Distinct(listed)
    requires forall i :: 0 <= i < |listed| && Expirable(KeyHead(s.name), KeySetTail, listed[i]) ==> ZSet(db, listed[i]).Success?
    ensures CleanupKeys(s, db, listed, t).Success?
    ensures Holds(s, CleanupKeys(s, db, listed, t).value.0, Expire(st, t))
    ensures CleanupKeys(s, db, listed, t).value.1 == Some(Expired(db, KeyHead(s.name), KeySetTail, listed, t))
  {
    RedisOps.CleanupRefines(db, KeyHead(s.name), KeySetTail, listed, t, st);
    CleanupSetsCount(db, KeyHead(s.name), KeySetTail, listed, t);
    assert CleanupKeys(s, db, listed, t).value.0 == CleanupSets(db, KeyHead(s.name), KeySetTail, listed, t).value.0;
  }
}

=== FILE: redis_db.dfy ===
/** The part of a Redis server the three Redis backends talk to, as a pure
    state machine: a keyspace holding lists and sorted sets, and the commands
    LPUSH, RPOP, LPOP, LLEN, DEL, ZADD, ZRANGE (plain and REV),
    ZREMRANGEBYRANK, ZCOUNT -inf +inf and ZREMRANGEBYSCORE -inf t. Each
    command returns the reply or the error Redis sends (WRONGTYPE when the key
    holds the other kind of value). A key whose value becomes empty is
    removed, as Redis does. */
module RedisDb {
  import opened Types
  import opened Text

  /** A sorted-set member with its score. */
  datatype Entry = Entry(score: int, member: string)

  /** A list is stored left to right (LPUSH adds at index 0); a sorted set is
      stored in rank order. */
  datatype Value = ListV(items: seq<string>) | ZSetV(entries: seq<Entry>)

  type Db = map<string, Value>

  /** What a storage call can fail with: the WRONGTYPE reply, any other
      error reply (a dropped connection, say), or `JSON.parse` rejecting a
      stored text. The commands below only ever produce WRONGTYPE. */
  datatype RedisError = WrongType | OtherError(message: string) | BadJson

  function Lookup(db: Db, k: string): Option<Value> {
    if k in db then Some(db[k]) else None
  }

  /** `db2` agrees with `db` on every key but `k`. */
  ghost predicate SameExcept(db: Db, db2: Db, k: string) {
    forall j :: j != k ==> Lookup(db2, j) == Lookup(db, j)
  }

  /** A command on one key leaves every other key's list and set as they were. */
  lemma SameExceptReads(db: Db, db2: Db, k: string, j: string)
    requires SameExcept(db, db2, k) && j != k
    ensures List(db2, j) == List(db, j) && ZSet(db2, j) == ZSet(db, j)
  {
    assert Lookup(db2, j) == Lookup(db, j);
  }

  // ---- lists ----

  /** The list at `k` (empty when absent). */
  function List(db: Db, k: string): Result<seq<string>, RedisError> {
    if k !in db then Success([])
    else match db[k]
      case ListV(s) => Success(s)
      case ZSetV(_) => Failure(WrongType)
  }

  function PutList(db: Db, k: string, s: seq<string>): (r: Db)
    ensures List(r, k) == Success(s)
    ensures SameExcept(db, r, k)
  {
    if |s| == 0 then db - {k} else db[k := ListV(s)]
  }

  /** LPUSH k v: `v` becomes the leftmost element. */
  function LPush(db: Db, k: string, v: string): (r: Result<Db, RedisError>)
    ensures r.Success? <==> List(db, k).Success?
    ensures r.Success? ==> List(r.value, k) == Success([v] + List(db, k).value) && SameExcept(db, r.value, k)
  {
    match List(db, k)
    case Failure(e) => Failure(e)
    case Success(s) => Success(PutList(db, k, [v] + s))
  }

  /** RPOP k: the rightmost element, or nil on an empty list. */
  function RPop(db: Db, k: string): (r: Result<(Db, Option<string>), RedisError>)
    ensures r.Success? <==> List(db, k).Success?
    ensures r.Success? ==> var s := List(db, k).value;
      && SameExcept(db, r.value.0, k)
      && (|s| == 0 ==> r.value == (db, None))
      && (|s| > 0 ==> r.value.1 == Some(s[|s| - 1]) && List(r.value.0, k) == Success(s[..|s| - 1]))
  {
    match List(db, k)
    case Failure(e) => Failure(e)
    case Success(s) =>
      if |s| == 0 then Success((db, None))
      else Success((PutList(db, k, s[..|s| - 1]), Some(s[|s| - 1])))
  }

  /** LPOP k: the leftmost element, or nil on an empty list. */
  function LPop(db: Db, k: string): (r: Result<(Db, Option<string>), RedisError>)
    ensures r.Success? <==> List(db, k).Success?
    ensures r.Success? ==> var s := List(db, k).value;
      && SameExcept(db, r.value.0, k)
      && (|s| == 0 ==> r.value == (db, None))
      && (|s| > 0 ==> r.value.1 == Some(s[0]) && List(r.value.0, k) == Success(s[1..]))
  {
    match List(db, k)
    case Failure(e) => Failure(e)
    case Success(s) =>
      if |s| == 0 then Success((db, None))
      else Success((PutList(db, k, s[1..]), Some(s[0])))
  }

  /** LLEN k. */
  function LLen(db: Db, k: string): (r: Result<nat, RedisError>)
    ensures r.Success? <==> List(db, k).Success?
    ensures r.Success? ==> r.value == |List(db, k).value|
  {
    match List(db, k)
    case Failure(e) => Failure(e)
    case Success(s) => Success(|s|)
  }

  /** DEL k. */
  function Del(db: Db, k: string): (r: Db)
    ensures k !in r && SameExcept(db, r, k)
  {
    db - {k}
  }

  // ---- sorted sets ----

  /** Redis's order on sorted-set entries: by score, ties by member bytes. */
  predicate EntryLess(a: Entry, b: Entry) {
    a.score < b.score || (a.score == b.score && StrLess(a.member, b.member))
  }

  lemma EntryLessTransitive(a: Entry, b: Entry, c: Entry)
    requires EntryLess(a, b) && EntryLess(b, c)
    ensures EntryLess(a, c)
  {
    if a.score == b.score && b.score == c.score {
      StrLessTransitive(a.member, b.member, c.member);
    }
  }

  lemma EntryLessTotal(a: Entry, b: Entry)
    requires a.member != b.member
    ensures EntryLess(a, b) || EntryLess(b, a)
  {
    StrLessTotal(a.member, b.member);
  }

  /** A well-formed sorted set: strictly increasing in Redis's order, one
      entry per member. */
  predicate ZValid(s: seq<Entry>) {
    (forall i, j :: 0 <= i < j < |s| ==> EntryLess(s[i], s[j])) &&
    (forall i, j :: 0 <= i < j < |s| ==> s[i].member != s[j].member)
  }

  /** The keyspace as Redis keeps it: no key holds an empty value, and every
      sorted set is well formed. */
  predicate DbValid(db: Db) {
    forall k :: k in db ==> match db[k]
      case ListV(s) => |s| > 0
      case ZSetV(s) => |s| > 0 && ZValid(s)
  }

  function Members(s: seq<Entry>): (ms: seq<string>)
    ensures |ms| == |s|
    ensures forall i :: 0 <= i < |s| ==> ms[i] == s[i].member
  {
    seq(|s|, i requires 0 <= i < |s| => s[i].member)
  }

  /** The sorted set at `k` (empty when absent). */
  function ZSet(db: Db, k: string): Result<seq<Entry>, RedisError> {
    if k !in db then Success([])
    else match db[k]
      case ZSetV(s) => Success(s)
      case ListV(_) => Failure(WrongType)
  }

  function PutZSet(db: Db, k: string, s: seq<Entry>): (r: Db)
    ensures ZSet(r, k) == Success(s)
    ensures SameExcept(db, r, k)
  {
    if |s| == 0 then db - {k} else db[k := ZSetV(s)]
  }

  lemma PutZSetValid(db: Db, k: string, s: seq<Entry>)
    requires DbValid(db) && ZValid(s)
    ensures DbValid(PutZSet(db, k, s))
  {
  }

  lemma PutListValid(db: Db, k: string, s: seq<string>)
    requires DbValid(db)
    ensures DbValid(PutList(db, k, s))
  {
  }

  lemma ZSetOfValid(db: Db, k: string)
    requires DbValid(db) && ZSet(db, k).Success?
    ensures ZValid(ZSet(db, k).value)
  {
  }

  lemma ConsValid(x: Entry, rest: seq<Entry>)
    requires ZValid(rest)
    requires forall i :: 0 <= i < |rest| ==> EntryLess(x, rest[i]) && x.member != rest[i].member
    ensures ZValid([x] + rest)
  {
    var s := [x] + rest;
    forall i, j | 0 <= i < j < |s| ensures EntryLess(s[i], s[j]) && s[i].member != s[j].member {
      if i > 0 {
        assert s[i] == rest[i - 1] && s[j] == rest[j - 1];
      } else {
        assert s[j] == rest[j - 1];
      }
    }
  }

  /** The set without `member`'s entry. */
  function RemoveMember(s: seq<Entry>, member: string): (r: seq<Entry>)
    ensures forall e :: e in r <==> e in s && e.member != member
  {
    if |s| == 0 then []
    else (if s[0].member == member then [] else [s[0]]) + RemoveMember(s[1..], member)
  }

  lemma {:induction false} RemoveMemberValid(s: seq<Entry>, member: string)
    requires ZValid(s)
    ensures ZValid(RemoveMember(s, member))
    decreases |s|
  {
    if |s| > 0 {
      RemoveMemberValid(s[1..], member);
      var rest := RemoveMember(s[1..], member);
      if s[0].member != member {
        forall i | 0 <= i < |rest| ensures EntryLess(s[0], rest[i]) && s[0].member != rest[i].member {
          assert rest[i] in s[1..];
          var j :| 0 <= j < |s[1..]| && s[1..][j] == rest[i];
          assert s[j + 1] == rest[i];
        }
        ConsValid(s[0], rest);
      }
    }
  }

  lemma {:induction false} RemoveAbsentMember(s: seq<Entry>, member: string)
    requires forall i :: 0 <= i < |s| ==> s[i].member != member
    ensures RemoveMember(s, member) == s
    decreases |s|
  {
    if |s| > 0 {
      RemoveAbsentMember(s[1..], member);
      assert [s[0]] + s[1..] == s;
    }
  }

  /** In a well-formed set, removing a present member removes one entry. */
  lemma {:induction false} RemovePresentMember(s: seq<Entry>, j: nat)
    requires ZValid(s) && j < |s|
    ensures |RemoveMember(s, s[j].member)| == |s| - 1
    decreases |s|
  {
    var m := s[j].member;
    if j == 0 {
      forall i | 0 <= i < |s[1..]| ensures s[1..][i].member != m {
        assert s[1..][i] == s[i + 1];
      }
      RemoveAbsentMember(s[1..], m);
    } else {
      assert s[0].member != m;
      assert ZValid(s[1..]) by {
        forall a, b | 0 <= a < b < |s[1..]|
          ensures EntryLess(s[1..][a], s[1..][b]) && s[1..][a].member != s[1..][b].member
        {
          assert s[1..][a] == s[a + 1] && s[1..][b] == s[b + 1];
        }
      }
      assert s[1..][j - 1] == s[j];
      RemovePresentMember(s[1..], j - 1);
    }
  }

  /** Inserts `e` at its rank. */
  function Insert(s: seq<Entry>, e: Entry): (r: seq<Entry>)
    ensures |r| == |s| + 1
    ensures forall x :: x in r <==> x in s || x == e
  {
    if |s| == 0 then [e]
    else if EntryLess(e, s[0]) then [e] + s
    else [s[0]] + Insert(s[1..], e)
  }

  /** An entry ranked after every entry goes at the end. */
  lemma {:induction false} InsertLast(s: seq<Entry>, e: Entry)
    requires forall i :: 0 <= i < |s| ==> EntryLess(s[i], e)
    ensures Insert(s, e) == s + [e]
    decreases |s|
  {
    if |s| > 0 {
      assert !EntryLess(e, s[0]) by {
        if EntryLess(e, s[0]) {
          EntryLessTransitive(e, s[0], e);
          EntryLessIrreflexive(e);
        }
      }
      InsertLast(s[1..], e);
      assert [s[0]] + (s[1..] + [e]) == s + [e];
    }
  }

  lemma EntryLessIrreflexive(a: Entry)
    ensures !EntryLess(a, a)
  {
    StrLessIrreflexive(a.member);
  }

  lemma {:induction false} InsertValid(s: seq<Entry>, e: Entry)
    requires ZValid(s)
    requires forall i :: 0 <= i < |s| ==> s[i].member != e.member
    ensures ZValid(Insert(s, e))
    decreases |s|
  {
    if |s| > 0 {
      if EntryLess(e, s[0]) {
        forall i | 0 <= i < |s| ensures EntryLess(e, s[i]) {
          if i > 0 {
            EntryLessTransitive(e, s[0], s[i]);
          }
        }
        ConsValid(e, s);
      } else {
        EntryLessTotal(e, s[0]);
        InsertValid(s[1..], e);
        var rest := Insert(s[1..], e);
        forall i | 0 <= i < |rest| ensures EntryLess(s[0], rest[i]) && s[0].member != rest[i].member {
          if rest[i] != e {
            assert rest[i] in s[1..];
            var j :| 0 <= j < |s[1..]| && s[1..][j] == rest[i];
            assert s[j + 1] == rest[i];
          }
        }
        ConsValid(s[0], rest);
      }
    }
  }

  /** ZADD k score member: the member is added, or its score updated; either
      way it ends up with exactly one entry. */
  function ZAdd(db: Db, k: string, score: int, member: string): (r: Result<Db, RedisError>)
    ensures r.Success? <==> ZSet(db, k).Success?
    ensures r.Success? ==> SameExcept(db, r.value, k)
    ensures r.Success? ==> ZSet(r.value, k).Success? && forall e :: e in ZSet(r.value, k).value <==>
      e == Entry(score, member) || (e in ZSet(db, k).value && e.member != member)
  {
    match ZSet(db, k)
    case Failure(err) => Failure(err)
    case Success(s) => Success(PutZSet(db, k, Insert(RemoveMember(s, member), Entry(score, member))))
  }

  lemma ZAddValid(db: Db, k: string, score: int, member: string)
    requires DbValid(db) && ZAdd(db, k, score, member).Success?
    ensures DbValid(ZAdd(db, k, score, member).value)
    ensures ZValid(ZSet(ZAdd(db, k, score, member).value, k).value)
  {
    var s := ZSet(db, k).value;
    RemoveMemberValid(s, member);
    var t := RemoveMember(s, member);
    forall i | 0 <= i < |t| ensures t[i].member != member {
      assert t[i] in t;
    }
    InsertValid(t, Entry(score, member));
    PutZSetValid(db, k, Insert(t, Entry(score, member)));
  }

  /** Redis's normalisation of a rank range `start .. stop` (inclusive, a
      negative rank counting from the end) over a set of `len` entries, as the
      half-open slice `lo .. hi`. */
  function RankRange(len: nat, start: int, stop: int): (r: (nat, nat))
    ensures r.0 <= r.1 <= len
  {
    var a := if start < 0 then start + len else start;
    var b := if stop < 0 then stop + len else stop;
    var lo := if a < 0 then 0 else a;
    var hi := if b >= len then len - 1 else b;
    if lo > hi || lo >= len then (0, 0) else (lo, hi + 1)
  }

  /** ZRANGE k start stop [REV]: the members of the range, in ascending order
      or, with REV, in descending order. */
  function ZRange(db: Db, k: string, start: int, stop: int, rev: bool): (r: Result<seq<string>, RedisError>)
    ensures r.Success? <==> ZSet(db, k).Success?
    ensures r.Success? ==> var s := ZSet(db, k).value; var (lo, hi) := RankRange(|s|, start, stop);
      r.value == Members(if rev then Reverse(s)[lo..hi] else s[lo..hi])
  {
    match ZSet(db, k)
    case Failure(err) => Failure(err)
    case Success(s) =>
      var (lo, hi) := RankRange(|s|, start, stop);
      Success(Members(if rev then Reverse(s)[lo..hi] else s[lo..hi]))
  }

  /** ZREMRANGEBYRANK k start stop: removes the range, replies its size. */
  function ZRemRangeByRank(db: Db, k: string, start: int, stop: int): (r: Result<(Db, nat), RedisError>)
    ensures r.Success? <==> ZSet(db, k).Success?
    ensures r.Success? ==> var s := ZSet(db, k).value; var (lo, hi) := RankRange(|s|, start, stop);
      && ZSet(r.value.0, k) == Success(s[..lo] + s[hi..])
      && r.value.1 == hi - lo
      && SameExcept(db, r.value.0, k)
  {
    match ZSet(db, k)
    case Failure(err) => Failure(err)
    case Success(s) =>
      var (lo, hi) := RankRange(|s|, start, stop);
      Success((PutZSet(db, k, s[..lo] + s[hi..]), hi - lo))
  }

  lemma SlicesValid(s: seq<Entry>, lo: nat, hi: nat)
    requires ZValid(s) && lo <= hi <= |s|
    ensures ZValid(s[..lo] + s[hi..])
  {
    var t := s[..lo] + s[hi..];
    forall i, j | 0 <= i < j < |t| ensures EntryLess(t[i], t[j]) && t[i].member != t[j].member {
      var i' := if i < lo then i else i + hi - lo;
      var j' := if j < lo then j else j + hi - lo;
      assert t[i] == s[i'] && t[j] == s[j'];
    }
  }

  lemma ZRemRangeByRankValid(db: Db, k: string, start: int, stop: int)
    requires DbValid(db) && ZRemRangeByRank(db, k, start, stop).Success?
    ensures DbValid(ZRemRangeByRank(db, k, start, stop).value.0)
  {
    var s := ZSet(db, k).value;
    var (lo, hi) := RankRange(|s|, start, stop);
    SlicesValid(s, lo, hi);
    PutZSetValid(db, k, s[..lo] + s[hi..]);
  }

  /** ZCOUNT k -inf +inf: the number of entries. */
  function ZCount(db: Db, k: string): (r: Result<nat, RedisError>)
    ensures r.Success? <==> ZSet(db, k).Success?
    ensures r.Success? ==> r.value == |ZSet(db, k).value|
  {
    match ZSet(db, k)
    case Failure(err) => Failure(err)
    case Success(s) => Success(|s|)
  }

  /** Entries scored above `t`, in order. */
  function Above(s: seq<Entry>, t: int): (r: seq<Entry>)
    ensures |r| <= |s|
    ensures forall e :: e in r <==> e in s && e.score > t
  {
    if |s| == 0 then []
    else (if s[0].score > t then [s[0]] else []) + Above(s[1..], t)
  }

  lemma {:induction false} AboveValid(s: seq<Entry>, t: int)
    requires ZValid(s)
    ensures ZValid(Above(s, t))
    decreases |s|
  {
    if |s| > 0 {
      AboveValid(s[1..], t);
      var rest := Above(s[1..], t);
      if s[0].score > t {
        forall i | 0 <= i < |rest| ensures EntryLess(s[0], rest[i]) && s[0].member != rest[i].member {
          assert rest[i] in s[1..];
          var j :| 0 <= j < |s[1..]| && s[1..][j] == rest[i];
          assert s[j + 1] == rest[i];
        }
        ConsValid(s[0], rest);
      }
    }
  }

  /** ZREMRANGEBYSCORE k -inf t: removes every entry scored at most `t`,
      replies how many. */
  function ZRemRangeByScore(db: Db, k: string, t: int): (r: Result<(Db, nat), RedisError>)
    ensures r.Success? <==> ZSet(db, k).Success?
    ensures r.Success? ==> var s := ZSet(db, k).value;
      && ZSet(r.value.0, k) == Success(Above(s, t))
      && r.value.1 == |s| - |Above(s, t)|
      && SameExcept(db, r.value.0, k)
  {
    match ZSet(db, k)
    case Failure(err) => Failure(err)
    case Success(s) => Success((PutZSet(db, k, Above(s, t)), |s| - |Above(s, t)|))
  }

  lemma ZRemRangeByScoreValid(db: Db, k: string, t: int)
    requires DbValid(db) && ZRemRangeByScore(db, k, t).Success?
    ensures DbValid(ZRemRangeByScore(db, k, t).value.0)
  {
    AboveValid(ZSet(db, k).value, t);
    PutZSetValid(db, k, Above(ZSet(db, k).value, t));
  }

  // ---- rank arithmetic of the pops ----

  /** How many entries the range `0 .. count - 1` covers in a set of `len`:
      `count` clamped to `len` for a positive count, everything for 0 (the
      stop rank -1 is the last entry), and all but the top `-count` for a
      negative one. */
  function RankTaken(count: int, len: nat): (n: nat)
    ensures n <= len
  {
    if count > 0 then Taken(count, len)
    else if count == 0 then len
    else if len + count > 0 then len + count else 0
  }

  /** The ascending pop's range starts at rank 0 and covers `RankTaken`. */
  lemma LowRanks(len: nat, count: int)
    ensures RankRange(len, 0, count - 1) == (0, RankTaken(count, len))
  {
  }

  /** The descending pop's removal range `-count .. -1` covers the same
      number of entries, taken from the top. */
  lemma HighRanks(len: nat, count: int)
    ensures var n := RankTaken(count, len); var (lo, hi) := RankRange(len, -count, -1);
      && hi - lo == n
      && (n > 0 ==> lo == len - n && hi == len)
  {
  }
}

=== FILE: redis_list.dfy ===
/** src/storage/RedisList.ts: one Redis list per queue key. `push` is LPUSH
    and `popRight` is RPOP, so `popRight` is first-in first-out. `popLeft` is
    LPOP, so it is last-in first-out. The lists live under a key head built
    from the queue name, and the listing KEYS returns for that head is a
    parameter. */
module RedisList {
  import opened Types
  import opened Text
  import opened RedisDb
  import opened RedisOps
  import Store
  import ItemJson

  const Prefix: string := "n§çs§çq-lst"

  /** The key head as the source builds it: the prefix, then the queue name
      with no delimiter. Two queues can then share Redis keys. */
  function KeyHeadAsWritten(name: string): string {
    Prefix + name
  }

  /** The key head this model uses: the prefix, the name's length in decimal,
      a colon, then the name. The queue name can then be read back from any
      of its keys. */
  function KeyHead(name: string): (kh: string)
    ensures StartsWith(kh, Prefix) && |kh| > |Prefix|
  {
    Prefix + Decimal(|name|) + ":" + name
  }

  /** A storage: its queue name and the key head its lists live under. */
  datatype RedisListStorage = RedisListStorage(name: string, keyHead: string)

  /** The constructor as the source writes it: the head is the prefix
      directly followed by the name. */
  function New(name: string): (s: RedisListStorage)
    ensures s.name == name && s.keyHead == KeyHeadAsWritten(name)
    ensures StartsWith(s.keyHead, Prefix) && s.keyHead[|Prefix|..] == name
  {
    assert (Prefix + name)[..|Prefix|] == Prefix;
    RedisListStorage(name, KeyHeadAsWritten(name))
  }

  /** The constructor with the corrected, length-prefixed head. */
  function NewIsolated(name: string): (s: RedisListStorage)
    ensures s.name == name && s.keyHead == KeyHead(name)
  {
    RedisListStorage(name, KeyHead(name))
  }

  /** `buildListKey`: the key head followed by the item key. */
  function BuildListKey(s: RedisListStorage, key: string): (rk: string)
    ensures StartsWith(rk, s.keyHead) && rk[|s.keyHead|..] == key
  {
    assert (s.keyHead + key)[..|s.keyHead|] == s.keyHead;
    s.keyHead + key
  }

  /** `getItemKey`: the part after the key head, up to any further
      occurrence of it. */
  function GetItemKey(s: RedisListStorage, rk: string): Option<string>
    requires |s.keyHead| > 0
  {
    ListItemKey(s.keyHead, rk)
  }

  /** `getItemKey` inverts `buildListKey` exactly for the item keys that do
      not contain the key head, with the source's head and with the
      corrected one. */
  lemma KeyRoundTrip(name: string, key: string)
    ensures GetItemKey(New(name), BuildListKey(New(name), key)) == Some(key)
        <==> !Contains(key, KeyHeadAsWritten(name))
    ensures GetItemKey(NewIsolated(name), BuildListKey(NewIsolated(name), key)) == Some(key)
        <==> !Contains(key, KeyHead(name))
  {
    ListKeyRoundTrip(KeyHeadAsWritten(name), key);
    ListKeyRoundTrip(KeyHead(name), key);
  }

  /** `push`: LPUSH of the item's JSON text. */
  function Push(s: RedisListStorage, db: Db, key: string, item: QueueItem): (r: Result<Db, RedisError>)
    ensures r.Success? <==> List(db, BuildListKey(s, key)).Success?
    ensures r.Success? ==>
      List(r.value, BuildListKey(s, key)) == Success([ItemJson.Encode(item)] + List(db, BuildListKey(s, key)).value)
  {
    LPush(db, BuildListKey(s, key), ItemJson.Encode(item))
  }

  /** `popRight`: `count` RPOPs on the key's list. */
  function PopRight(s: RedisListStorage, db: Db, key: string, count: int): (r: Result<(Db, seq<QueueItem>), RedisError>)
    ensures r.Success? ==> SameExcept(db, r.value.0, BuildListKey(s, key))
    ensures r.Success? ==> |r.value.1| <= if count > 0 then count else 0
  {
    ListPopRight(db, BuildListKey(s, key), count)
  }

  /** `popLeft`: `count` LPOPs on the key's list. */
  function PopLeft(s: RedisListStorage, db: Db, key: string, count: int): (r: Result<(Db, seq<QueueItem>), RedisError>)
    ensures r.Success? ==> SameExcept(db, r.value.0, BuildListKey(s, key))
    ensures r.Success? ==> |r.value.1| <= if count > 0 then count else 0
  {
    ListPopLeft(db, BuildListKey(s, key), count)
  }

  /** `getStoredCount` over the keys `listed` for the key head. */
  function GetStoredCount(s: RedisListStorage, db: Db, listed: seq<string>): Result<StoredCount, RedisError>
    requires |s.keyHead| > 0
  {
    CountLists(db, s.keyHead, listed, map[])
  }

  const NoTtl: string := "redis lists are not supposed to use TTL"

  /** `getFirstTimestamp`: lists keep no timestamps, so it always throws. */
  function GetFirstTimestamp(): (r: Result<nat, string>)
    ensures r == Failure(NoTtl)
  {
    Failure(NoTtl)
  }

  /** `cleanupKeys`: always throws, for the same reason. */
  function CleanupKeys(threshold: int): (r: Result<nat, string>)
    ensures r == Failure(NoTtl)
  {
    Failure(NoTtl)
  }

  /** Whether `flush(...keys)` deletes the listed Redis key `rk`: every key
      when no keys are given, otherwise the keys that decode to one of
      `keys` (a key that does not decode never matches). */
  predicate Flushes(kh: string, keys: seq<string>, rk: string)
    requires |kh| > 0
  {
    |keys| == 0 || (ListItemKey(kh, rk).Some? && ListItemKey(kh, rk).value in keys)
  }

  /** `flush(...keys)` over the keys `listed` for the key head. */
  function Flush(s: RedisListStorage, db: Db, listed: seq<string>, keys: seq<string>): (r: Db)
    requires |s.keyHead| > 0
    ensures forall j :: Lookup(r, j) == if j in listed && Flushes(s.keyHead, keys, j) then None else Lookup(db, j)
    decreases |listed|
  {
    if |listed| == 0 then db
    else
      var db1 := if Flushes(s.keyHead, keys, listed[0]) then Del(db, listed[0]) else db;
      assert forall j :: j in listed <==> j == listed[0] || j in listed[1..];
      Flush(s, db1, listed[1..], keys)
  }

  // ---- against the abstract store ----

  /** `push` stores the item as the newest of its key. */
  lemma PushRefines(s: RedisListStorage, db: Db, st: Store.Store, key: string, item: QueueItem)
    requires ListsHold(db, s.keyHead, st)
    ensures Push(s, db, key, item).Success?
    ensures ListsHold(Push(s, db, key, item).value, s.keyHead, Store.Push(st, key, item))
  {
    var kh := s.keyHead;
    var r := Push(s, db, key, item).value;
    var st1 := Store.Push(st, key, item);
    forall k ensures List(r, kh + k) == Success(Stacked(Store.Items(st1, k))) {
      if k == key {
        StackedPush(Store.Items(st, key), item);
      } else {
        assert (kh + k)[|kh|..] == k && (kh + key)[|kh|..] == key;
        SameExceptReads(db, r, kh + key, kh + k);
      }
    }
  }

  /** `popRight` is the store's `popRight`: the oldest `count` items, oldest
      first. */
  lemma PopRightRefines(s: RedisListStorage, db: Db, st: Store.Store, key: string, count: int)
    requires ListsHold(db, s.keyHead, st)
    ensures var r := PopRight(s, db, key, count); var p := Store.PopRight(st, key, count);
      && r.Success?
      && r.value.1 == p.1
      && ListsHold(r.value.0, s.keyHead, p.0)
  {
    var kh := s.keyHead;
    ListPopRightSpec(db, kh + key, Store.Items(st, key), count);
    var r := PopRight(s, db, key, count).value.0;
    var st1 := Store.PopRight(st, key, count).0;
    forall k | k != key ensures List(r, kh + k) == Success(Stacked(Store.Items(st1, k))) {
      assert (kh + k)[|kh|..] == k && (kh + key)[|kh|..] == key;
      SameExceptReads(db, r, kh + key, kh + k);
    }
  }

  /** `popLeft` is the store's `popLeft`: the newest `count` items, newest
      first. */
  lemma PopLeftRefines(s: RedisListStorage, db: Db, st: Store.Store, key: string, count: int)
    requires ListsHold(db, s.keyHead, st)
    ensures var r := PopLeft(s, db, key, count); var p := Store.PopLeft(st, key, count);
      && r.Success?
      && r.value.1 == p.1
      && ListsHold(r.value.0, s.keyHead, p.0)
  {
    var kh := s.keyHead;
    ListPopLeftSpec(db, kh + key, Store.Items(st, key), count);
    var r := PopLeft(s, db, key, count).value.0;
    var st1 := Store.PopLeft(st, key, count).0;
    forall k | k != key ensures List(r, kh + k) == Success(Stacked(Store.Items(st1, k))) {
      assert (kh + k)[|kh|..] == k && (kh + key)[|kh|..] == key;
      SameExceptReads(db, r, kh + key, kh + k);
    }
  }

  /** With `listed` being the keys under the key head, each of which decodes,
      `getStoredCount` reports every key's number of pending items (0 for a
      key it leaves out). */
  lemma StoredCountRefines(s: RedisListStorage, db: Db, st: Store.Store, listed: seq<string>)
    requires |s.keyHead| > 0
    requires ListsHold(db, s.keyHead, st)
    requires forall rk :: rk in listed <==> rk in db && StartsWith(rk, s.keyHead)
    requires forall rk :: rk in db && StartsWith(rk, s.keyHead) ==> WellNamedList(s.keyHead, rk)
    ensures GetStoredCount(s, db, listed).Success?
    ensures forall k :: CountOf(GetStoredCount(s, db, listed).value, k) == |Store.Items(st, k)|
  {
    var kh := s.keyHead;
    forall i | 0 <= i < |listed| && StartsWith(listed[i], kh)
      ensures WellNamedList(kh, listed[i]) && List(db, listed[i]).Success?
    {
      var t := listed[i][|kh|..];
      assert listed[i] == kh + t;
    }
    CountListsSpec(db, kh, listed, map[]);
    forall k ensures CountOf(GetStoredCount(s, db, listed).value, k) == |Store.Items(st, k)| {
      assert (kh + k)[..|kh|] == kh;
    }
  }

  /** The store after `flush(...keys)`: no items left for the named keys, or
      for every key when none are named. */
  function FlushStore(st: Store.Store, keys: seq<string>): (r: Store.Store)
    ensures forall k :: Store.Items(r, k) == if |keys| == 0 || k in keys then [] else Store.Items(st, k)
  {
    Store.Store(st.name, map k | k in st.queues && !(|keys| == 0 || k in keys) :: st.queues[k])
  }

  /** With `listed` being the keys under the key head, each of which decodes,
      `flush` empties exactly the named keys. */
  lemma FlushRefines(s: RedisListStorage, db: Db, st: Store.Store, listed: seq<string>, keys: seq<string>)
    requires |s.keyHead| > 0
    requires ListsHold(db, s.keyHead, st)
    requires forall rk :: rk in listed <==> rk in db && StartsWith(rk, s.keyHead)
    requires forall rk :: rk in db && StartsWith(rk, s.keyHead) ==> WellNamedList(s.keyHead, rk)
    ensures ListsHold(Flush(s, db, listed, keys), s.keyHead, FlushStore(st, keys))
  {
    var kh := s.keyHead;
    var r := Flush(s, db, listed, keys);
    forall k ensures List(r, kh + k) == Success(Stacked(Store.Items(FlushStore(st, keys), k))) {
      var rk := kh + k;
      assert rk[..|kh|] == kh && rk[|kh|..] == k;
      assert Lookup(r, rk) == if rk in listed && Flushes(kh, keys, rk) then None else Lookup(db, rk);
      if rk !in db {
        assert Store.Items(st, k) == [];
      }
    }
  }

  // ---- the shared key space ----

  /** As written, queue "q" with key "1k" and queue "q1" with key "k" use the
      same Redis list. */
  lemma KeyHeadsCollide()
    ensures KeyHeadAsWritten("q") + "1k" == KeyHeadAsWritten("q1") + "k"
  {
  }

  /** So, as written, a push to queue "q1", key "k" lands in the list that
      queue "q" pops for key "1k". */
  lemma CrossTalk(db: Db, item: QueueItem)
    requires List(db, KeyHeadAsWritten("q") + "1k").Success?
    ensures var w := New("q1");
      && Push(w, db, "k", item).Success?
      && List(Push(w, db, "k", item).value, KeyHeadAsWritten("q") + "1k")
         == Success([ItemJson.Encode(item)] + List(db, KeyHeadAsWritten("q") + "1k").value)
  {
    KeyHeadsCollide();
  }

  /** Reads the queue name back from a key under a length-prefixed head. */
  function ParseListKey(rk: string): Option<(string, string)> {
    if !StartsWith(rk, Prefix) then None
    else
      var rest := rk[|Prefix|..];
      var d := DigitRun(rest);
      if d == 0 then None
      else
        var len := DigitsValue(rest[..d]);
        var after := rest[d..];
        if |after| < 1 + len || after[0] != ':' then None
        else Some((after[1..1 + len], after[1 + len..]))
  }

  lemma ParseBuiltKey(name: string, key: string)
    ensures ParseListKey(KeyHead(name) + key) == Some((name, key))
  {
    var dn := Decimal(|name|);
    var tail := ":" + name + key;
    var rk := KeyHead(name) + key;
    assert rk == Prefix + (dn + tail);
    assert rk[..|Prefix|] == Prefix;
    var rest := rk[|Prefix|..];
    assert rest == dn + tail;
    DigitRunOfDigits(dn, tail);
    assert rest[..|dn|] == dn;
    DecimalValue(|name|);
    assert rest[|dn|..] == tail;
    assert tail[1..1 + |name|] == name;
    assert tail[1 + |name|..] == key;
  }

  /** With length-prefixed heads, different (queue, key) pairs never share a
      Redis key. */
  lemma KeyHeadsInjective(name1: string, key1: string, name2: string, key2: string)
    requires (name1, key1) != (name2, key2)
    ensures KeyHead(name1) + key1 != KeyHead(name2) + key2
  {
    ParseBuiltKey(name1, key1);
    ParseBuiltKey(name2, key2);
  }

  /** Hence a push to one queue's key leaves every other queue's lists as
      they were. */
  lemma Isolation(db: Db, name1: string, key1: string, name2: string, key2: string, item: QueueItem)
    requires (name1, key1) != (name2, key2)
    requires Push(NewIsolated(name2), db, key2, item).Success?
    ensures List(Push(NewIsolated(name2), db, key2, item).value, BuildListKey(NewIsolated(name1), key1))
         == List(db, BuildListKey(NewIsolated(name1), key1))
  {
    KeyHeadsInjective(name1, key1, name2, key2);
    SameExceptReads(db, Push(NewIsolated(name2), db, key2, item).value, KeyHead(name2) + key2, KeyHead(name1) + key1);
  }
}

=== FILE: redis_ops.dfy ===
/** The client-side routines the Redis backends share: the key-name
    encodings, the list pops (one RPOP or LPOP per requested item), the
    rank-based sorted-set pops, the `getStoredCount` loops and the TTL cleanup
    loop. Each is stated against the Redis model, and each has a lemma tying
    it to the abstract store of pending items. */
module RedisOps {
  import opened Types
  import opened Text
  import opened RedisDb
  import Store
  import ItemJson

  // ---- key names ----

  /** `redisKey.split(keyHead)[1]`; `None` where JavaScript yields undefined. */
  function ListItemKey(kh: string, rk: string): Option<string>
    requires |kh| > 0
  {
    var parts := Split(rk, kh);
    if |parts| >= 2 then Some(parts[1]) else None
  }

  /** `redisKey.split(keyHead)[1].split(tail)[0]`; `None` where the first
      split has no second part (JavaScript would throw a TypeError). */
  function SetItemKey(kh: string, tail: string, rk: string): Option<string>
    requires |kh| > 0 && |tail| > 0
  {
    match ListItemKey(kh, rk)
    case None => None
    case Some(m) => Some(Split(m, tail)[0])
  }

  lemma HeadFirst(kh: string, k: string)
    requires |kh| > 0
    ensures IndexOf(kh + k, kh) == Some(0)
    ensures (kh + k)[|kh|..] == k
  {
    assert OccursAt(kh + k, kh, 0) by {
      assert (kh + k)[0..|kh|] == kh;
    }
    assert (kh + k)[|kh|..] == k;
  }

  /** A list key decodes back to the item key exactly when the item key does
      not itself contain the key head. */
  lemma ListKeyRoundTrip(kh: string, k: string)
    requires |kh| > 0
    ensures ListItemKey(kh, kh + k) == Some(k) <==> !Contains(k, kh)
  {
    HeadFirst(kh, k);
    SplitAt(kh + k, kh, 0);
    SplitHead(k, kh);
  }

  /** Distinct item keys give distinct list keys under one head. */
  lemma ListKeysDistinct(kh: string, k1: string, k2: string)
    requires k1 != k2
    ensures kh + k1 != kh + k2
  {
    assert (kh + k1)[|kh|..] == k1 && (kh + k2)[|kh|..] == k2;
  }

  /** Distinct item keys give distinct set keys under one head and tail. */
  lemma SetKeysDistinct(kh: string, tail: string, k1: string, k2: string)
    requires k1 != k2
    ensures kh + k1 + tail != kh + k2 + tail
  {
    var a := kh + k1 + tail;
    var b := kh + k2 + tail;
    assert a[|kh|..|a| - |tail|] == k1;
    assert b[|kh|..|b| - |tail|] == k2;
  }

  /** A set key decodes back to the item key when the item key holds neither
      a character marking the head (`kh[m1]`) nor one marking the tail
      (`tail[m2]`). */
  lemma SetKeyRoundTrip(kh: string, tail: string, k: string, m1: nat, m2: nat)
    requires |kh| > 0 && |tail| > 0
    requires Marked(kh, m1) && kh[m1] !in k && kh[m1] !in tail
    requires Marked(tail, m2) && tail[m2] !in k
    ensures SetItemKey(kh, tail, kh + k + tail) == Some(k)
  {
    assert kh + k + tail == kh + (k + tail);
    NoOccurrence(k + tail, kh, m1);
    ListKeyRoundTrip(kh, k + tail);
    FirstOccurrenceAfter(k, tail, [], m2);
    assert k + tail + [] == k + tail;
    SplitHead(k + tail, tail);
    assert (k + tail)[..|k|] == k;
  }

  /** Every backend's key head starts with "n§ç", whose 'ç' occurs nowhere
      before it: the head is found again at the first place its 'ç' is. */
  lemma NamespaceMarked(kh: string)
    requires StartsWith(kh, "n§ç")
    ensures Marked(kh, 2) && kh[2] == 'ç'
  {
    assert kh[..3] == "n§ç";
    assert kh[0] == 'n' && kh[1] == '§' && kh[2] == 'ç';
    assert kh[..2] == ['n', '§'];
  }

  /** Set key `rk` is `kh + t + tail` for the item key `t` it decodes to. */
  predicate WellNamedSet(kh: string, tail: string, rk: string)
    requires |kh| > 0 && |tail| > 0
  {
    var t := SetItemKey(kh, tail, rk);
    t.Some? && rk == kh + t.value + tail
  }

  /** List key `rk` starts with `kh` and decodes to the rest of it. */
  predicate WellNamedList(kh: string, rk: string)
    requires |kh| > 0
  {
    StartsWith(rk, kh) && ListItemKey(kh, rk) == Some(rk[|kh|..])
  }

  // ---- item texts ----

  /** The texts of `xs`, in order. */
  function Texts(xs: seq<QueueItem>): (ts: seq<string>)
    ensures |ts| == |xs|
    ensures forall i :: 0 <= i < |xs| ==> ts[i] == ItemJson.Encode(xs[i])
  {
    seq(|xs|, i requires 0 <= i < |xs| => ItemJson.Encode(xs[i]))
  }

  /** `JSON.parse` of each text, failing on the first one that is not an item. */
  function ParseAll(ts: seq<string>): (r: Result<seq<QueueItem>, RedisError>)
    ensures r.Success? ==> |r.value| == |ts|
  {
    if |ts| == 0 then Success([])
    else
      match ItemJson.Decode(ts[0])
      case None => Failure(BadJson)
      case Some(it) =>
        match ParseAll(ts[1..])
        case Failure(e) => Failure(e)
        case Success(rest) => Success([it] + rest)
  }

  lemma {:induction false} ParseTexts(xs: seq<QueueItem>)
    ensures ParseAll(Texts(xs)) == Success(xs)
    decreases |xs|
  {
    if |xs| > 0 {
      ItemJson.DecodeEncode(xs[0]);
      assert Texts(xs)[1..] == Texts(xs[1..]);
      ParseTexts(xs[1..]);
      assert [xs[0]] + xs[1..] == xs;
    }
  }

  // ---- lists: LPUSH on push, one RPOP/LPOP per requested item ----

  /** The Redis list holding `xs` (oldest first) after one LPUSH per item:
      the newest text at the left end. */
  function Stacked(xs: seq<QueueItem>): (l: seq<string>)
    ensures |l| == |xs|
    ensures forall i :: 0 <= i < |xs| ==> l[i] == ItemJson.Encode(xs[|xs| - 1 - i])
  {
    seq(|xs|, i requires 0 <= i < |xs| => ItemJson.Encode(xs[|xs| - 1 - i]))
  }

  lemma StackedPush(xs: seq<QueueItem>, it: QueueItem)
    ensures [ItemJson.Encode(it)] + Stacked(xs) == Stacked(xs + [it])
  {
  }

  lemma StackedEnds(xs: seq<QueueItem>)
    requires |xs| > 0
    ensures Stacked(xs)[|xs| - 1] == ItemJson.Encode(xs[0])
    ensures Stacked(xs)[..|xs| - 1] == Stacked(xs[1..])
    ensures Stacked(xs)[0] == ItemJson.Encode(xs[|xs| - 1])
    ensures Stacked(xs)[1..] == Stacked(xs[..|xs| - 1])
  {
  }

  /** The representation of the store's items as lists under key head `kh`:
      key `k`'s items are the list at `kh + k`. */
  ghost predicate ListsHold(db: Db, kh: string, st: Store.Store) {
    forall k :: List(db, kh + k) == Success(Stacked(Store.Items(st, k)))
  }

  /** A change confined to one key's list, which ends up holding that key's
      new items, keeps every list in step with the new store. */
  lemma ListsHoldStep(db: Db, db2: Db, kh: string, key: string, st: Store.Store, st2: Store.Store)
    requires ListsHold(db, kh, st) && SameExcept(db, db2, kh + key)
    requires List(db2, kh + key) == Success(Stacked(Store.Items(st2, key)))
    requires forall k :: k != key ==> Store.Items(st2, k) == Store.Items(st, k)
    ensures ListsHold(db2, kh, st2)
  {
    forall k ensures List(db2, kh + k) == Success(Stacked(Store.Items(st2, k))) {
      if k != key {
        ListKeysDistinct(kh, k, key);
        SameExceptReads(db, db2, kh + key, kh + k);
      }
    }
  }

  /** `popRight` over a list: `count` RPOPs, each text parsed; a falsy
      reply (nil or the empty string) is skipped without parsing. */
  function ListPopRight(db: Db, rk: string, count: int): (r: Result<(Db, seq<QueueItem>), RedisError>)
    ensures r.Success? ==> SameExcept(db, r.value.0, rk)
    ensures r.Success? ==> |r.value.1| <= if count > 0 then count else 0
    decreases if count > 0 then count else 0
  {
    if count <= 0 then Success((db, []))
    else
      var p := RPop(db, rk);
      if p.Failure? then Failure(p.error)
      else if p.value.1.None? || p.value.1.value == "" then ListPopRight(p.value.0, rk, count - 1)
      else
        var it := ItemJson.Decode(p.value.1.value);
        if it.None? then Failure(BadJson)
        else
          var rest := ListPopRight(p.value.0, rk, count - 1);
          if rest.Failure? then rest else Success((rest.value.0, [it.value] + rest.value.1))
  }

  /** `popLeft` over a list: `count` LPOPs, each text parsed; a falsy
      reply (nil or the empty string) is skipped without parsing. */
  function ListPopLeft(db: Db, rk: string, count: int): (r: Result<(Db, seq<QueueItem>), RedisError>)
    ensures r.Success? ==> SameExcept(db, r.value.0, rk)
    ensures r.Success? ==> |r.value.1| <= if count > 0 then count else 0
    decreases if count > 0 then count else 0
  {
    if count <= 0 then Success((db, []))
    else
      var p := LPop(db, rk);
      if p.Failure? then Failure(p.error)
      else if p.value.1.None? || p.value.1.value == "" then ListPopLeft(p.value.0, rk, count - 1)
      else
        var it := ItemJson.Decode(p.value.1.value);
        if it.None? then Failure(BadJson)
        else
          var rest := ListPopLeft(p.value.0, rk, count - 1);
          if rest.Failure? then rest else Success((rest.value.0, [it.value] + rest.value.1))
  }

  /** An empty-string element is falsy: a pop removes it and returns nothing
      for it, at either end, instead of failing to parse it. */
  lemma PopSkipsEmptyText(db: Db, rk: string, count: int)
    requires List(db, rk) == Success([""]) && count >= 1
    ensures var r := ListPopRight(db, rk, count);
      r.Success? && r.value.1 == [] && List(r.value.0, rk) == Success([])
    ensures var r := ListPopLeft(db, rk, count);
      r.Success? && r.value.1 == [] && List(r.value.0, rk) == Success([])
  {
    var db1 := RPop(db, rk).value.0;
    EmptyPopsNothing(db1, rk, count - 1);
    var db2 := LPop(db, rk).value.0;
    EmptyPopsNothing(db2, rk, count - 1);
  }

  lemma {:induction false} EmptyPopsNothing(db: Db, rk: string, count: int)
    requires List(db, rk) == Success([])
    ensures var r := ListPopRight(db, rk, count);
      r.Success? && r.value.1 == [] && List(r.value.0, rk) == Success([])
    ensures var r := ListPopLeft(db, rk, count);
      r.Success? && r.value.1 == [] && List(r.value.0, rk) == Success([])
    decreases if count > 0 then count else 0
  {
    if count > 0 {
      EmptyPopsNothing(db, rk, count - 1);
    }
  }

  lemma SliceCons<T>(xs: seq<T>, n: nat)
    requires 0 < n <= |xs|
    ensures xs[..n] == [xs[0]] + xs[1..][..n - 1]
    ensures xs[n..] == xs[1..][n - 1..]
  {
  }

  lemma SliceSnoc<T>(xs: seq<T>, n: nat)
    requires 0 < n <= |xs|
    ensures var front := xs[..|xs| - 1];
      && front[|front| - (n - 1)..] == xs[|xs| - n..|xs| - 1]
      && xs[|xs| - n..] == xs[|xs| - n..|xs| - 1] + [xs[|xs| - 1]]
      && front[..|front| - (n - 1)] == xs[..|xs| - n]
  {
  }

  /** RPOP on a stacked list hands back the oldest item's text. */
  lemma RPopStacked(db: Db, rk: string, xs: seq<QueueItem>)
    requires List(db, rk) == Success(Stacked(xs)) && |xs| > 0
    ensures RPop(db, rk).Success? && RPop(db, rk).value.1 == Some(ItemJson.Encode(xs[0]))
    ensures List(RPop(db, rk).value.0, rk) == Success(Stacked(xs[1..]))
  {
    StackedEnds(xs);
  }

  /** LPOP on a stacked list hands back the newest item's text. */
  lemma LPopStacked(db: Db, rk: string, xs: seq<QueueItem>)
    requires List(db, rk) == Success(Stacked(xs)) && |xs| > 0
    ensures LPop(db, rk).Success? && LPop(db, rk).value.1 == Some(ItemJson.Encode(xs[|xs| - 1]))
    ensures List(LPop(db, rk).value.0, rk) == Success(Stacked(xs[..|xs| - 1]))
  {
    StackedEnds(xs);
  }

  lemma ListPopRightStep(db: Db, rk: string, count: int, it: QueueItem)
    requires count > 0 && RPop(db, rk).Success? && RPop(db, rk).value.1 == Some(ItemJson.Encode(it))
    ensures var rest := ListPopRight(RPop(db, rk).value.0, rk, count - 1);
      ListPopRight(db, rk, count) == if rest.Success? then Success((rest.value.0, [it] + rest.value.1)) else rest
  {
    ItemJson.DecodeEncode(it);
  }

  lemma ListPopLeftStep(db: Db, rk: string, count: int, it: QueueItem)
    requires count > 0 && LPop(db, rk).Success? && LPop(db, rk).value.1 == Some(ItemJson.Encode(it))
    ensures var rest := ListPopLeft(LPop(db, rk).value.0, rk, count - 1);
      ListPopLeft(db, rk, count) == if rest.Success? then Success((rest.value.0, [it] + rest.value.1)) else rest
  {
    ItemJson.DecodeEncode(it);
  }

  /** LPUSH then RPOP is first-in first-out: the oldest `count` items come
      back oldest first, and the rest stay. */
  lemma ListPopRightSpec(db: Db, rk: string, xs: seq<QueueItem>, count: int)
    requires List(db, rk) == Success(Stacked(xs))
    ensures var r := ListPopRight(db, rk, count); var n := Taken(count, |xs|);
      && r.Success?
      && r.value.1 == xs[..n]
      && List(r.value.0, rk) == Success(Stacked(xs[n..]))
  {
    RightPoppedHolds(db, rk, xs, count);
  }

  /** What `popRight` of `count` does to a stacked list of `xs`. */
  predicate RightPopped(db: Db, rk: string, xs: seq<QueueItem>, count: int) {
    var n := Taken(count, |xs|);
    PoppedAs(ListPopRight(db, rk, count), rk, xs[..n], xs[n..])
  }

  /** A pop that succeeded with `batch` and left the list holding `left`. */
  predicate PoppedAs(r: Result<(Db, seq<QueueItem>), RedisError>, rk: string, batch: seq<QueueItem>, left: seq<QueueItem>) {
    r.Success? && r.value.1 == batch && List(r.value.0, rk) == Success(Stacked(left))
  }

  /** One more round in front of a successful pop adds its item at the
      head of the batch. */
  lemma PrependPopped(r: Result<(Db, seq<QueueItem>), RedisError>, rest: Result<(Db, seq<QueueItem>), RedisError>,
                      rk: string, x: QueueItem, batch: seq<QueueItem>, left: seq<QueueItem>)
    requires PoppedAs(rest, rk, batch, left)
    requires r == if rest.Success? then Success((rest.value.0, [x] + rest.value.1)) else rest
    ensures PoppedAs(r, rk, [x] + batch, left)
  {
  }

  lemma {:induction false} RightPoppedHolds(db: Db, rk: string, xs: seq<QueueItem>, count: int)
    requires List(db, rk) == Success(Stacked(xs))
    ensures RightPopped(db, rk, xs, count)
    decreases if count > 0 then count else 0, 1
  {
    if count <= 0 {
      assert xs[0..] == xs;
    } else if |xs| == 0 {
      RightPoppedHolds(db, rk, xs, count - 1);
    } else {
      RightPoppedCons(db, rk, xs, count);
    }
  }

  lemma {:induction false} RightPoppedCons(db: Db, rk: string, xs: seq<QueueItem>, count: int)
    requires List(db, rk) == Success(Stacked(xs)) && |xs| > 0 && count > 0
    ensures RightPopped(db, rk, xs, count)
    decreases count, 0
  {
    RPopStacked(db, rk, xs);
    RightPoppedHolds(RPop(db, rk).value.0, rk, xs[1..], count - 1);
    RightCombine(db, rk, xs, count);
  }

  /** The oldest item, then the oldest `count - 1` of the rest. */
  lemma RightCombine(db: Db, rk: string, xs: seq<QueueItem>, count: int)
    requires List(db, rk) == Success(Stacked(xs)) && |xs| > 0 && count > 0 && RPop(db, rk).Success?
    requires RightPopped(RPop(db, rk).value.0, rk, xs[1..], count - 1)
    ensures RightPopped(db, rk, xs, count)
  {
    RightHead(db, rk, xs, count);
    var n := Taken(count, |xs|);
    var xs1 := xs[1..];
    assert Taken(count - 1, |xs1|) == n - 1;
    PrependPopped(ListPopRight(db, rk, count), ListPopRight(RPop(db, rk).value.0, rk, count - 1),
                  rk, xs[0], xs1[..n - 1], xs1[n - 1..]);
    SliceCons(xs, n);
  }

  /** The first round of `popRight` on a non-empty stacked list takes its
      oldest item and leaves the rest stacked. */
  lemma RightHead(db: Db, rk: string, xs: seq<QueueItem>, count: int)
    requires List(db, rk) == Success(Stacked(xs)) && |xs| > 0 && count > 0
    ensures RPop(db, rk).Success? && List(RPop(db, rk).value.0, rk) == Success(Stacked(xs[1..]))
    ensures var rest := ListPopRight(RPop(db, rk).value.0, rk, count - 1);
      ListPopRight(db, rk, count) == if rest.Success? then Success((rest.value.0, [xs[0]] + rest.value.1)) else rest
  {
    RPopStacked(db, rk, xs);
    ListPopRightStep(db, rk, count, xs[0]);
  }

  /** LPUSH then LPOP is last-in first-out: the newest `count` items come
      back newest first, and the rest stay. */
  lemma ListPopLeftSpec(db: Db, rk: string, xs: seq<QueueItem>, count: int)
    requires List(db, rk) == Success(Stacked(xs))
    ensures var r := ListPopLeft(db, rk, count); var n := Taken(count, |xs|);
      && r.Success?
      && r.value.1 == Reverse(xs[|xs| - n..])
      && List(r.value.0, rk) == Success(Stacked(xs[..|xs| - n]))
  {
    LeftPoppedHolds(db, rk, xs, count);
  }

  lemma {:induction false} LeftPoppedHolds(db: Db, rk: string, xs: seq<QueueItem>, count: int)
    requires List(db, rk) == Success(Stacked(xs))
    ensures LeftPopped(db, rk, xs, count)
    decreases if count > 0 then count else 0, 1
  {
    if count <= 0 {
      assert xs[|xs|..] == [];
      assert xs[..|xs|] == xs;
    } else if |xs| == 0 {
      LeftPoppedHolds(db, rk, xs, count - 1);
    } else {
      LeftPoppedCons(db, rk, xs, count);
    }
  }

  lemma {:induction false} LeftPoppedCons(db: Db, rk: string, xs: seq<QueueItem>, count: int)
    requires List(db, rk) == Success(Stacked(xs)) && |xs| > 0 && count > 0
    ensures LeftPopped(db, rk, xs, count)
    decreases count, 0
  {
    LPopStacked(db, rk, xs);
    LeftPoppedHolds(LPop(db, rk).value.0, rk, xs[..|xs| - 1], count - 1);
    LeftCombine(db, rk, xs, count);
  }

  /** What `popLeft` of `count` does to a stacked list of `xs`. */
  predicate LeftPopped(db: Db, rk: string, xs: seq<QueueItem>, count: int) {
    var n := Taken(count, |xs|);
    PoppedAs(ListPopLeft(db, rk, count), rk, Reverse(xs[|xs| - n..]), xs[..|xs| - n])
  }

  /** The newest item, then the newest `count - 1` of the rest. */
  lemma LeftCombine(db: Db, rk: string, xs: seq<QueueItem>, count: int)
    requires List(db, rk) == Success(Stacked(xs)) && |xs| > 0 && count > 0 && LPop(db, rk).Success?
    requires LeftPopped(LPop(db, rk).value.0, rk, xs[..|xs| - 1], count - 1)
    ensures LeftPopped(db, rk, xs, count)
  {
    LeftHead(db, rk, xs, count);
    var n := Taken(count, |xs|);
    var front := xs[..|xs| - 1];
    assert Taken(count - 1, |front|) == n - 1;
    PrependPopped(ListPopLeft(db, rk, count), ListPopLeft(LPop(db, rk).value.0, rk, count - 1),
                  rk, xs[|xs| - 1], Reverse(front[|front| - (n - 1)..]), front[..|front| - (n - 1)]);
    LeftSlices(xs, n);
  }

  /** The first round of `popLeft` on a non-empty stacked list takes its
      newest item and leaves the rest stacked. */
  lemma LeftHead(db: Db, rk: string, xs: seq<QueueItem>, count: int)
    requires List(db, rk) == Success(Stacked(xs)) && |xs| > 0 && count > 0
    ensures LPop(db, rk).Success? && List(LPop(db, rk).value.0, rk) == Success(Stacked(xs[..|xs| - 1]))
    ensures var rest := ListPopLeft(LPop(db, rk).value.0, rk, count - 1);
      ListPopLeft(db, rk, count) == if rest.Success? then Success((rest.value.0, [xs[|xs| - 1]] + rest.value.1)) else rest
  {
    LPopStacked(db, rk, xs);
    ListPopLeftStep(db, rk, count, xs[|xs| - 1]);
  }

  /** Taking the newest `n` items is taking the newest one, then the newest
      `n - 1` of the rest. */
  lemma LeftSlices<T>(xs: seq<T>, n: nat)
    requires 0 < n <= |xs|
    ensures var front := xs[..|xs| - 1];
      && [xs[|xs| - 1]] + Reverse(front[|front| - (n - 1)..]) == Reverse(xs[|xs| - n..])
      && front[..|front| - (n - 1)] == xs[..|xs| - n]
  {
    var last := xs[|xs| - 1];
    SliceSnoc(xs, n);
    ReverseAppend(xs[|xs| - n..|xs| - 1], [last]);
    assert Reverse([last]) == [last];
  }

  // ---- sorted sets: scored by push timestamp, popped by rank ----

  function EntryOf(it: QueueItem): Entry {
    Entry(it.pushTimestamp, ItemJson.Encode(it))
  }

  /** The sorted-set entries of `xs`, in the order given. */
  function Entries(xs: seq<QueueItem>): (s: seq<Entry>)
    ensures |s| == |xs|
    ensures forall i :: 0 <= i < |xs| ==> s[i] == EntryOf(xs[i])
  {
    seq(|xs|, i requires 0 <= i < |xs| => EntryOf(xs[i]))
  }

  /** The representation of the store's items as sorted sets: key `k`'s
      items, oldest first, are the set at `kh + k + tail` in rank order. */
  ghost predicate SetsHold(db: Db, kh: string, tail: string, st: Store.Store) {
    forall k :: ZSet(db, kh + k + tail) == Success(Entries(Store.Items(st, k)))
  }

  /** A change confined to one key's set, which ends up holding that key's
      new items, keeps every set in step with the new store. */
  lemma SetsHoldStep(db: Db, db2: Db, kh: string, tail: string, key: string, st: Store.Store, st2: Store.Store)
    requires SetsHold(db, kh, tail, st) && SameExcept(db, db2, kh + key + tail)
    requires ZSet(db2, kh + key + tail) == Success(Entries(Store.Items(st2, key)))
    requires forall k :: k != key ==> Store.Items(st2, k) == Store.Items(st, k)
    ensures SetsHold(db2, kh, tail, st2)
  {
    forall k ensures ZSet(db2, kh + k + tail) == Success(Entries(Store.Items(st2, k))) {
      if k != key {
        SetKeysDistinct(kh, tail, k, key);
        SameExceptReads(db, db2, kh + key + tail, kh + k + tail);
      }
    }
  }

  /** `push` into a sorted set: ZADD with the timestamp as score. */
  function SetPush(db: Db, rk: string, it: QueueItem): (r: Result<Db, RedisError>)
    ensures r.Success? <==> ZSet(db, rk).Success?
    ensures r.Success? ==> SameExcept(db, r.value, rk)
    ensures r.Success? ==> ZSet(r.value, rk).Success? && EntryOf(it) in ZSet(r.value, rk).value
  {
    ZAdd(db, rk, it.pushTimestamp, ItemJson.Encode(it))
  }

  /** An item ranked after every pending one is appended. */
  lemma SetPushSpec(db: Db, rk: string, xs: seq<QueueItem>, it: QueueItem)
    requires ZSet(db, rk) == Success(Entries(xs))
    requires ZValid(Entries(xs + [it]))
    ensures SetPush(db, rk, it).Success?
    ensures ZSet(SetPush(db, rk, it).value, rk) == Success(Entries(xs + [it]))
  {
    var s := Entries(xs);
    var e := EntryOf(it);
    assert Entries(xs + [it]) == s + [e];
    forall i | 0 <= i < |s| ensures s[i].member != e.member && EntryLess(s[i], e) {
      assert (s + [e])[i] == s[i] && (s + [e])[|s|] == e;
    }
    RemoveAbsentMember(s, e.member);
    InsertLast(s, e);
  }

  /** Set semantics: pushing an item whose text is already a member adds no
      entry. */
  lemma SetPushDuplicate(db: Db, rk: string, j: nat, it: QueueItem)
    requires ZSet(db, rk).Success? && ZValid(ZSet(db, rk).value)
    requires j < |ZSet(db, rk).value| && ZSet(db, rk).value[j].member == ItemJson.Encode(it)
    ensures SetPush(db, rk, it).Success?
    ensures |ZSet(SetPush(db, rk, it).value, rk).value| == |ZSet(db, rk).value|
  {
    RemovePresentMember(ZSet(db, rk).value, j);
  }

  /** `popRight` over a sorted set: ZRANGE 0 count-1, then ZREMRANGEBYRANK
      0 count-1. */
  function SetPopRight(db: Db, rk: string, count: int): (r: Result<(Db, seq<QueueItem>), RedisError>)
    ensures r.Success? ==> SameExcept(db, r.value.0, rk)
  {
    match ZRange(db, rk, 0, count - 1, false)
    case Failure(e) => Failure(e)
    case Success(ms) =>
      match ParseAll(ms)
      case Failure(e) => Failure(e)
      case Success(items) =>
        match ZRemRangeByRank(db, rk, 0, count - 1)
        case Failure(e) => Failure(e)
        case Success((db1, _)) => Success((db1, items))
  }

  /** `popLeft` over a sorted set: ZRANGE 0 count-1 REV, then
      ZREMRANGEBYRANK -count -1. */
  function SetPopLeft(db: Db, rk: string, count: int): (r: Result<(Db, seq<QueueItem>), RedisError>)
    ensures r.Success? ==> SameExcept(db, r.value.0, rk)
  {
    match ZRange(db, rk, 0, count - 1, true)
    case Failure(e) => Failure(e)
    case Success(ms) =>
      match ParseAll(ms)
      case Failure(e) => Failure(e)
      case Success(items) =>
        match ZRemRangeByRank(db, rk, -count, -1)
        case Failure(e) => Failure(e)
        case Success((db1, _)) => Success((db1, items))
  }

  lemma MembersOfEntries(xs: seq<QueueItem>, a: nat, b: nat)
    requires a <= b <= |xs|
    ensures Members(Entries(xs)[a..b]) == Texts(xs[a..b])
    ensures Entries(xs)[a..b] == Entries(xs[a..b])
  {
  }

  lemma EntriesReverse(xs: seq<QueueItem>)
    ensures Reverse(Entries(xs)) == Entries(Reverse(xs))
  {
  }

  /** The ascending pop returns the lowest-ranked `RankTaken(count)` items in
      rank order and removes exactly those. */
  lemma SetPopRightSpec(db: Db, rk: string, xs: seq<QueueItem>, count: int)
    requires ZSet(db, rk) == Success(Entries(xs))
    ensures var r := SetPopRight(db, rk, count); var n := RankTaken(count, |xs|);
      && r.Success?
      && r.value.1 == xs[..n]
      && ZSet(r.value.0, rk) == Success(Entries(xs[n..]))
  {
    var n := RankTaken(count, |xs|);
    LowRanks(|xs|, count);
    MembersOfEntries(xs, 0, n);
    MembersOfEntries(xs, n, |xs|);
    ParseTexts(xs[..n]);
    assert xs[0..n] == xs[..n];
    assert Entries(xs)[..0] + Entries(xs)[n..] == Entries(xs[n..]);
  }

  lemma MembersEntries(ys: seq<QueueItem>)
    ensures Members(Entries(ys)) == Texts(ys)
  {
  }

  /** The REV range `0 .. count - 1` reads the top `RankTaken(count)` texts,
      highest first. */
  lemma TopRange(db: Db, rk: string, xs: seq<QueueItem>, count: int)
    requires ZSet(db, rk) == Success(Entries(xs))
    ensures var n := RankTaken(count, |xs|);
      ZRange(db, rk, 0, count - 1, true) == Success(Texts(Reverse(xs[|xs| - n..])))
  {
    var len := |xs|;
    var n := RankTaken(count, len);
    var s := Entries(xs);
    LowRanks(len, count);
    ReverseSlices(s, n);
    assert Reverse(s)[0..n] == Reverse(s[len - n..]);
    MembersOfEntries(xs, len - n, len);
    assert s[len - n..] == Entries(xs[len - n..]);
    EntriesReverse(xs[len - n..]);
    MembersEntries(Reverse(xs[len - n..]));
  }

  /** The rank range `-count .. -1` removes exactly the top `RankTaken(count)`
      entries. */
  lemma TopRemoval(db: Db, rk: string, xs: seq<QueueItem>, count: int)
    requires ZSet(db, rk) == Success(Entries(xs))
    ensures var n := RankTaken(count, |xs|); var r := ZRemRangeByRank(db, rk, -count, -1);
      r.Success? && ZSet(r.value.0, rk) == Success(Entries(xs[..|xs| - n]))
  {
    var len := |xs|;
    var n := RankTaken(count, len);
    var s := Entries(xs);
    HighRanks(len, count);
    var (lo, hi) := RankRange(len, -count, -1);
    MembersOfEntries(xs, 0, len - n);
    if n > 0 {
      assert s[..lo] + s[hi..] == s[0..len - n];
    } else {
      assert s[..lo] + s[hi..] == s;
      assert s[0..len - 0] == s;
    }
  }

  /** The descending pop returns the highest-ranked `RankTaken(count)` items,
      highest first, and its removal range covers exactly those items. */
  lemma SetPopLeftSpec(db: Db, rk: string, xs: seq<QueueItem>, count: int)
    requires ZSet(db, rk) == Success(Entries(xs))
    ensures var r := SetPopLeft(db, rk, count); var n := RankTaken(count, |xs|);
      && r.Success?
      && r.value.1 == Reverse(xs[|xs| - n..])
      && ZSet(r.value.0, rk) == Success(Entries(xs[..|xs| - n]))
  {
    var n := RankTaken(count, |xs|);
    TopRange(db, rk, xs, count);
    TopRemoval(db, rk, xs, count);
    ParseTexts(Reverse(xs[|xs| - n..]));
  }

  // ---- getStoredCount ----

  /** The list-backend loop: for each listed key under `kh`, its decoded item
      key gets the list's LLEN; an error reply aborts the loop. */
  function CountLists(db: Db, kh: string, listed: seq<string>, acc: StoredCount): (r: Result<StoredCount, RedisError>)
    requires |kh| > 0
    decreases |listed|
  {
    if |listed| == 0 then Success(acc)
    else if !StartsWith(listed[0], kh) then CountLists(db, kh, listed[1..], acc)
    else
      match LLen(db, listed[0])
      case Failure(e) => Failure(e)
      case Success(n) => CountLists(db, kh, listed[1..], acc[ListItemKey(kh, listed[0]).GetOr("undefined") := n])
  }

  /** When every listed key under `kh` is a well-named list, key `k` ends up
      with the length of the list at `kh + k` if that key was listed. */
  lemma {:induction false} CountListsSpec(db: Db, kh: string, listed: seq<string>, acc: StoredCount)
    requires |kh| > 0
    requires forall i :: 0 <= i < |listed| && StartsWith(listed[i], kh) ==>
      WellNamedList(kh, listed[i]) && List(db, listed[i]).Success?
    ensures var r := CountLists(db, kh, listed, acc);
      && r.Success?
      && forall k :: CountOf(r.value, k) ==
           if kh + k in listed && List(db, kh + k).Success? then |List(db, kh + k).value| else CountOf(acc, k)
    decreases |listed|
  {
    if |listed| > 0 {
      var rk := listed[0];
      if !StartsWith(rk, kh) {
        CountListsSpec(db, kh, listed[1..], acc);
        forall k ensures kh + k in listed <==> kh + k in listed[1..] {
          HeadFirst(kh, k);
          assert listed == [rk] + listed[1..];
        }
      } else {
        var t := rk[|kh|..];
        assert rk == kh + t;
        var acc1 := acc[t := |List(db, rk).value|];
        CountListsSpec(db, kh, listed[1..], acc1);
        forall k ensures kh + k in listed <==> kh + k == rk || kh + k in listed[1..] {
          assert listed == [rk] + listed[1..];
        }
        forall k ensures kh + k == rk <==> k == t {
          HeadFirst(kh, k);
        }
      }
    }
  }

  /** A key that does not start with `kh` is no set key under it. */
  lemma NotUnderHead(kh: string, tail: string, rk: string)
    requires |kh| > 0 && !StartsWith(rk, kh)
    ensures forall k :: kh + k + tail != rk
  {
    forall k ensures kh + k + tail != rk {
      HeadFirst(kh, k + tail);
      assert kh + k + tail == kh + (k + tail);
    }
  }

  /** A well-named set key names exactly one item key. */
  lemma SetKeyNamesOne(kh: string, tail: string, rk: string, t: string)
    requires |kh| > 0 && |tail| > 0 && rk == kh + t + tail
    ensures forall k :: kh + k + tail == rk <==> k == t
  {
    forall k ensures kh + k + tail == rk <==> k == t {
      if kh + k + tail == rk {
        assert kh + k + tail == kh + (k + tail) && kh + t + tail == kh + (t + tail);
        HeadFirst(kh, k + tail);
        HeadFirst(kh, t + tail);
        assert k + tail == t + tail;
        assert (k + tail)[..|k + tail| - |tail|] == k;
        assert (t + tail)[..|t + tail| - |tail|] == t;
      }
    }
  }

  /** The sorted-set loop: for each listed key under `kh`, its decoded item
      key gets the ZCOUNT reply. A failed reply skips the key when it is
      WRONGTYPE or when `rethrow` is off, and aborts the loop otherwise. */
  function CountSets(reply: string -> Result<nat, RedisError>, kh: string, tail: string,
                     listed: seq<string>, acc: StoredCount, rethrow: bool): (r: Result<StoredCount, RedisError>)
    requires |kh| > 0 && |tail| > 0
    ensures r.Failure? ==> rethrow
    decreases |listed|
  {
    if |listed| == 0 then Success(acc)
    else if !StartsWith(listed[0], kh) then CountSets(reply, kh, tail, listed[1..], acc, rethrow)
    else
      match reply(listed[0])
      case Success(n) =>
        CountSets(reply, kh, tail, listed[1..], acc[SetItemKey(kh, tail, listed[0]).GetOr("undefined") := n], rethrow)
      case Failure(e) =>
        if rethrow && e != WrongType then Failure(e)
        else CountSets(reply, kh, tail, listed[1..], acc, rethrow)
  }

  /** When every listed key under `kh` that answers is a well-named set key,
      and no key answers with an error that is rethrown, key `k` ends up with
      the reply for `kh + k + tail` if that key was listed and answered. */
  lemma {:induction false} CountSetsSpec(reply: string -> Result<nat, RedisError>, kh: string, tail: string,
                                         listed: seq<string>, acc: StoredCount, rethrow: bool)
    requires |kh| > 0 && |tail| > 0
    requires forall i :: 0 <= i < |listed| && StartsWith(listed[i], kh) ==>
      if reply(listed[i]).Success? then WellNamedSet(kh, tail, listed[i])
      else !rethrow || reply(listed[i]).error == WrongType
    ensures var r := CountSets(reply, kh, tail, listed, acc, rethrow);
      && r.Success?
      && forall k :: CountOf(r.value, k) ==
           if kh + k + tail in listed && reply(kh + k + tail).Success? then reply(kh + k + tail).value
           else CountOf(acc, k)
    decreases |listed|
  {
    if |listed| > 0 {
      var rk := listed[0];
      forall k ensures kh + k + tail in listed <==> kh + k + tail == rk || kh + k + tail in listed[1..] {
        assert listed == [rk] + listed[1..];
      }
      if !StartsWith(rk, kh) {
        CountSetsSpec(reply, kh, tail, listed[1..], acc, rethrow);
        NotUnderHead(kh, tail, rk);
      } else if reply(rk).Success? {
        var t := SetItemKey(kh, tail, rk).value;
        var acc1 := acc[t := reply(rk).value];
        CountSetsSpec(reply, kh, tail, listed[1..], acc1, rethrow);
        SetKeyNamesOne(kh, tail, rk, t);
      } else {
        CountSetsSpec(reply, kh, tail, listed[1..], acc, rethrow);
      }
    }
  }

  // ---- TTL cleanup ----

  /** The keys the cleanup loop touches: under `kh` and ending with `tail`. */
  predicate Expirable(kh: string, tail: string, rk: string) {
    StartsWith(rk, kh) && EndsWith(rk, tail)
  }

  /** The cleanup loop: ZREMRANGEBYSCORE -inf t on every listed expirable key,
      summing the replies. */
  function CleanupSets(db: Db, kh: string, tail: string, listed: seq<string>, t: int): (r: Result<(Db, nat), RedisError>)
    ensures r.Success? ==> forall j :: j !in listed ==> Lookup(r.value.0, j) == Lookup(db, j)
    decreases |listed|
  {
    if |listed| == 0 then Success((db, 0))
    else if !Expirable(kh, tail, listed[0]) then CleanupSets(db, kh, tail, listed[1..], t)
    else
      match ZRemRangeByScore(db, listed[0], t)
      case Failure(e) => Failure(e)
      case Success((db1, removed)) =>
        match CleanupSets(db1, kh, tail, listed[1..], t)
        case Failure(e) => Failure(e)
        case Success((db2, c)) => Success((db2, removed + c))
  }

  lemma {:induction false} AboveAll(s: seq<Entry>, t: int)
    requires forall i :: 0 <= i < |s| ==> s[i].score > t
    ensures Above(s, t) == s
    decreases |s|
  {
    if |s| > 0 {
      AboveAll(s[1..], t);
      assert [s[0]] + s[1..] == s;
    }
  }

  lemma AboveAbove(s: seq<Entry>, t: int)
    ensures Above(Above(s, t), t) == Above(s, t)
  {
    var a := Above(s, t);
    forall i | 0 <= i < |a| ensures a[i].score > t {
      assert a[i] in a;
    }
    AboveAll(a, t);
  }

  /** After the cleanup every expirable listed set holds only its entries
      scored above `t`, and every other key is as it was. */
  lemma {:induction false} CleanupSetsSpec(db: Db, kh: string, tail: string, listed: seq<string>, t: int)
    requires forall i :: 0 <= i < |listed| && Expirable(kh, tail, listed[i]) ==> ZSet(db, listed[i]).Success?
    ensures var r := CleanupSets(db, kh, tail, listed, t);
      && r.Success?
      && forall j :: if j in listed && Expirable(kh, tail, j) then ZSet(r.value.0, j) == Success(Above(ZSet(db, j).value, t))
                     else Lookup(r.value.0, j) == Lookup(db, j)
    decreases |listed|
  {
    if |listed| > 0 {
      var rk := listed[0];
      assert listed == [rk] + listed[1..];
      if !Expirable(kh, tail, rk) {
        CleanupSetsSpec(db, kh, tail, listed[1..], t);
      } else {
        var db1 := ZRemRangeByScore(db, rk, t).value.0;
        forall i | 0 <= i < |listed[1..]| && Expirable(kh, tail, listed[1..][i])
          ensures ZSet(db1, listed[1..][i]).Success?
        {
          if listed[1..][i] != rk {
            SameExceptReads(db, db1, rk, listed[1..][i]);
          }
        }
        CleanupSetsSpec(db1, kh, tail, listed[1..], t);
        AboveAbove(ZSet(db, rk).value, t);
        forall j | j != rk ensures ZSet(db1, j) == ZSet(db, j) && Lookup(db1, j) == Lookup(db, j) {
          SameExceptReads(db, db1, rk, j);
        }
      }
    }
  }

  /** Entries a cleanup removes from the listed expirable sets. */
  function Expired(db: Db, kh: string, tail: string, listed: seq<string>, t: int): nat
    decreases |listed|
  {
    if |listed| == 0 then 0
    else
      var here := if Expirable(kh, tail, listed[0]) && ZSet(db, listed[0]).Success?
                  then |ZSet(db, listed[0]).value| - |Above(ZSet(db, listed[0]).value, t)| else 0;
      here + Expired(db, kh, tail, listed[1..], t)
  }

  lemma {:induction false} ExpiredFrame(db: Db, db1: Db, k: string, kh: string, tail: string, listed: seq<string>, t: int)
    requires SameExcept(db, db1, k) && k !in listed
    ensures Expired(db1, kh, tail, listed, t) == Expired(db, kh, tail, listed, t)
    decreases |listed|
  {
    if |listed| > 0 {
      SameExceptReads(db, db1, k, listed[0]);
      ExpiredFrame(db, db1, k, kh, tail, listed[1..], t);
    }
  }

  /** The reply of the cleanup is the number of entries it removed. */
  lemma {:induction false} CleanupSetsCount(db: Db, kh: string, tail: string, listed: seq<string>, t: int)
    requires Distinct(listed)
    requires forall i :: 0 <= i < |listed| && Expirable(kh, tail, listed[i]) ==> ZSet(db, listed[i]).Success?
    ensures CleanupSets(db, kh, tail, listed, t).Success?
    ensures CleanupSets(db, kh, tail, listed, t).value.1 == Expired(db, kh, tail, listed, t)
    decreases |listed|
  {
    CleanupSetsSpec(db, kh, tail, listed, t);
    if |listed| > 0 {
      var rk := listed[0];
      assert Distinct(listed[1..]);
      if !Expirable(kh, tail, rk) {
        CleanupSetsCount(db, kh, tail, listed[1..], t);
      } else {
        var db1 := ZRemRangeByScore(db, rk, t).value.0;
        assert rk !in listed[1..];
        forall i | 0 <= i < |listed[1..]| && Expirable(kh, tail, listed[1..][i])
          ensures ZSet(db1, listed[1..][i]).Success?
        {
          SameExceptReads(db, db1, rk, listed[1..][i]);
        }
        CleanupSetsCount(db1, kh, tail, listed[1..], t);
        ExpiredFrame(db, db1, rk, kh, tail, listed[1..], t);
      }
    }
  }

  // ---- the TTL cleanup against the store ----

  /** The items of `xs` pushed after `t`, in order. */
  function PushedAfter(xs: seq<QueueItem>, t: int): (r: seq<QueueItem>)
    ensures forall x :: x in r <==> x in xs && x.pushTimestamp > t
  {
    if |xs| == 0 then []
    else (if xs[0].pushTimestamp > t then [xs[0]] else []) + PushedAfter(xs[1..], t)
  }

  /** The store with every item pushed at or before `t` dropped. */
  function Expire(st: Store.Store, t: int): (r: Store.Store)
    ensures forall k :: Store.Items(r, k) == PushedAfter(Store.Items(st, k), t)
  {
    Store.Store(st.name, map k | k in st.queues :: PushedAfter(st.queues[k], t))
  }

  lemma EntriesCons(x: QueueItem, p: seq<QueueItem>)
    ensures Entries([x] + p) == [EntryOf(x)] + Entries(p)
  {
  }

  lemma {:induction false} AboveEntries(xs: seq<QueueItem>, t: int)
    ensures Above(Entries(xs), t) == Entries(PushedAfter(xs, t))
    decreases |xs|
  {
    if |xs| > 0 {
      var es := Entries(xs);
      var p := PushedAfter(xs[1..], t);
      AboveEntries(xs[1..], t);
      assert es[1..] == Entries(xs[1..]);
      assert es[0] == EntryOf(xs[0]);
      if xs[0].pushTimestamp > t {
        EntriesCons(xs[0], p);
      }
    }
  }

  /** With the listing being the keys under `kh`, the cleanup implements
      expiry on the store: each key keeps exactly its items pushed after
      `t`. */
  lemma CleanupRefines(db: Db, kh: string, tail: string, listed: seq<string>, t: int, st: Store.Store)
    requires SetsHold(db, kh, tail, st)
    requires forall rk :: rk in listed <==> rk in db && StartsWith(rk, kh)
    requires forall i :: 0 <= i < |listed| && Expirable(kh, tail, listed[i]) ==> ZSet(db, listed[i]).Success?
    ensures CleanupSets(db, kh, tail, listed, t).Success?
    ensures SetsHold(CleanupSets(db, kh, tail, listed, t).value.0, kh, tail, Expire(st, t))
  {
    CleanupSetsSpec(db, kh, tail, listed, t);
    var db2 := CleanupSets(db, kh, tail, listed, t).value.0;
    forall k ensures ZSet(db2, kh + k + tail) == Success(Entries(Store.Items(Expire(st, t), k))) {
      var rk := kh + k + tail;
      AboveEntries(Store.Items(st, k), t);
      assert rk == kh + (k + tail) && rk == (kh + k) + tail;
      assert StartsWith(rk, kh) && EndsWith(rk, tail);
      if rk !in db {
        assert Store.Items(st, k) == [];
      }
    }
  }
}

=== FILE: redis_set.dfy ===
/** src/storage/RedisSet.ts: one Redis sorted set per queue key, each item
    scored by its push timestamp. Pops take rank ranges: `popRight` the
    lowest ranks (oldest first), `popLeft` the highest (newest first). Every
    push also LPUSHes its timestamp onto a per-queue TTL list, which
    `getFirstTimestamp` RPOPs, oldest first. */
module RedisSet {
  import opened Types
  import opened Text
  import opened RedisDb
  import opened RedisOps
  import Store
  import ItemJson

  const KeySetTail: string := "§$et§"
  const KeyTtlTail: string := "§$ttl§"

  function KeyHead(name: string): string {
    "n§çs§çq-rset-" + name
  }

  /** The TTL list's key: note the missing dash after "rset". */
  function TtlKey(name: string): string {
    "n§çs§çq-rset" + name + KeyTtlTail
  }

  /** A storage: its queue name and its `TTLms` option. */
  datatype RedisSetStorage = RedisSetStorage(name: string, ttl: Option<int>)

  /** `buildListKey`: key head, item key, set tail. */
  function BuildListKey(s: RedisSetStorage, key: string): string {
    KeyHead(s.name) + key + KeySetTail
  }

  /** `getItemKey`: the part after the key head, cut at the first tail. */
  function GetItemKey(s: RedisSetStorage, rk: string): Option<string> {
    SetItemKey(KeyHead(s.name), KeySetTail, rk)
  }

  lemma HeadMarked(name: string)
    ensures Marked(KeyHead(name), 2) && KeyHead(name)[2] == 'ç'
  {
    assert KeyHead(name) == "n§ç" + ("s§çq-rset-" + name);
    NamespaceMarked(KeyHead(name));
  }

  /** `getItemKey` inverts `buildListKey` for item keys free of '§' and 'ç'. */
  lemma KeyRoundTrip(s: RedisSetStorage, key: string)
    requires '§' !in key && 'ç' !in key
    ensures GetItemKey(s, BuildListKey(s, key)) == Some(key)
  {
    HeadMarked(s.name);
    assert Marked(KeySetTail, 0);
    SetKeyRoundTrip(KeyHead(s.name), KeySetTail, key, 2, 0);
  }

  /** Keeping the key head and the tail out of the item key is not enough:
      "a§$et" contains neither, yet its set key decodes to "a", because the
      tail then first occurs one character into the key. */
  lemma TailOverlap(s: RedisSetStorage)
    ensures !Contains("a§$et", KeyHead(s.name)) && !Contains("a§$et", KeySetTail)
    ensures GetItemKey(s, BuildListKey(s, "a§$et")) == Some("a")
  {
    var k := "a§$et";
    var kh := KeyHead(s.name);
    HeadMarked(s.name);
    NoOccurrence(k, kh, 2);
    assert k[0..5][0] == 'a' != KeySetTail[0];
    var mt := k + KeySetTail;
    assert mt == "a" + KeySetTail + "$et§";
    assert kh + k + KeySetTail == kh + mt;
    NoOccurrence(mt, kh, 2);
    ListKeyRoundTrip(kh, mt);
    FirstOccurrenceAfter("a", KeySetTail, "$et§", 0);
    SplitHead(mt, KeySetTail);
    assert mt[..1] == "a";
  }

  /** A queue whose name is "-" followed by `name` keeps its TTL list under
      this queue's key head, so this queue's KEYS listing includes it. */
  lemma DashedTtlKeyUnderHead(name: string)
    ensures StartsWith(TtlKey("-" + name), KeyHead(name))
  {
    assert TtlKey("-" + name) == KeyHead(name) + KeyTtlTail;
  }

  lemma TtlKeyIsNoSetKey(name: string, key: string)
    ensures TtlKey(name) != KeyHead(name) + key + KeySetTail
  {
    var a := TtlKey(name);
    var b := KeyHead(name) + key + KeySetTail;
    assert a == ("n§çs§çq-rset" + name) + KeyTtlTail;
    assert a[|a| - 5] == KeyTtlTail[1] == '$';
    assert b[|b| - 5] == KeySetTail[0] == '§';
  }

  /** `push`: LPUSH of the timestamp onto the TTL list, then ZADD of the item
      scored by its timestamp. */
  function Push(s: RedisSetStorage, db: Db, key: string, item: QueueItem): (r: Result<Db, RedisError>)
    ensures r.Success? ==>
      && List(db, TtlKey(s.name)).Success?
      && List(r.value, TtlKey(s.name)).Success?
      && List(r.value, TtlKey(s.name)).value == [Decimal(item.pushTimestamp)] + List(db, TtlKey(s.name)).value
      && ZSet(r.value, BuildListKey(s, key)).Success?
      && EntryOf(item) in ZSet(r.value, BuildListKey(s, key)).value
  {
    TtlKeyIsNoSetKey(s.name, key);
    match LPush(db, TtlKey(s.name), Decimal(item.pushTimestamp))
    case Failure(e) => Failure(e)
    case Success(db1) =>
      match SetPush(db1, BuildListKey(s, key), item)
      case Failure(e) => Failure(e)
      case Success(db2) =>
        SameExceptReads(db1, db2, BuildListKey(s, key), TtlKey(s.name));
        Success(db2)
  }

  /** `popRight`: ZRANGE 0 count-1, then ZREMRANGEBYRANK 0 count-1. */
  function PopRight(s: RedisSetStorage, db: Db, key: string, count: int): (r: Result<(Db, seq<QueueItem>), RedisError>)
    ensures r.Success? ==> SameExcept(db, r.value.0, BuildListKey(s, key))
  {
    SetPopRight(db, BuildListKey(s, key), count)
  }

  /** `popLeft`: ZRANGE 0 count-1 REV, then ZREMRANGEBYRANK -count -1. */
  function PopLeft(s: RedisSetStorage, db: Db, key: string, count: int): (r: Result<(Db, seq<QueueItem>), RedisError>)
    ensures r.Success? ==> SameExcept(db, r.value.0, BuildListKey(s, key))
  {
    SetPopLeft(db, BuildListKey(s, key), count)
  }

  /** `getStoredCount` over the keys `listed` for the key head, with `reply`
      the ZCOUNT answer for each key: WRONGTYPE skips the key, any other
      error is rethrown. */
  function GetStoredCount(s: RedisSetStorage, reply: string -> Result<nat, RedisError>, listed: seq<string>): Result<StoredCount, RedisError> {
    CountSets(reply, KeyHead(s.name), KeySetTail, listed, map[], true)
  }

  /** `getFirstTimestamp`: RPOP of the TTL list read with `parseInt`; nil or
      a non-numeric text gives undefined. */
  function GetFirstTimestamp(s: RedisSetStorage, db: Db): (r: Result<(Db, Option<nat>), RedisError>)
    ensures r.Success? <==> List(db, TtlKey(s.name)).Success?
    ensures r.Success? && |List(db, TtlKey(s.name)).value| == 0 ==> r.value == (db, None)
  {
    match RPop(db, TtlKey(s.name))
    case Failure(e) => Failure(e)
    case Success((db1, None)) => Success((db1, None))
    case Success((db1, Some(t))) => Success((db1, ParseInt(t)))
  }

  /** `cleanupKeys`: nothing (undefined) without a truthy `TTLms`; otherwise
      ZREMRANGEBYSCORE -inf threshold on every listed key under the key head
      that ends with the set tail, replying the number removed. */
  function CleanupKeys(s: RedisSetStorage, db: Db, listed: seq<string>, threshold: int): (r: Result<(Db, Option<nat>), RedisError>)
    ensures !Truthy(s.ttl) ==> r == Success((db, None))
    ensures Truthy(s.ttl) && r.Success? ==> r.value.1.Some?
  {
    if !Truthy(s.ttl) then Success((db, None))
    else
      match CleanupSets(db, KeyHead(s.name), KeySetTail, listed, threshold)
      case Failure(e) => Failure(e)
      case Success((db1, c)) => Success((db1, Some(c)))
  }

  // ---- against the abstract store ----

  /** `push` of an item ranked after every pending item of its key stores it
      as the newest of its key, and records its timestamp. */
  lemma PushRefines(s: RedisSetStorage, db: Db, st: Store.Store, key: string, item: QueueItem)
    requires SetsHold(db, KeyHead(s.name), KeySetTail, st)
    requires List(db, TtlKey(s.name)).Success?
    requires ZValid(Entries(Store.Items(st, key) + [item]))
    ensures Push(s, db, key, item).Success?
    ensures SetsHold(Push(s, db, key, item).value, KeyHead(s.name), KeySetTail, Store.Push(st, key, item))
  {
    var kh := KeyHead(s.name);
    var rk := BuildListKey(s, key);
    var ttlk := TtlKey(s.name);
    var db1 := LPush(db, ttlk, Decimal(item.pushTimestamp)).value;
    TtlKeyIsNoSetKey(s.name, key);
    SameExceptReads(db, db1, ttlk, rk);
    SetPushSpec(db1, rk, Store.Items(st, key), item);
    var r := Push(s, db, key, item).value;
    var st1 := Store.Push(st, key, item);
    forall k ensures ZSet(r, kh + k + KeySetTail) == Success(Entries(Store.Items(st1, k))) {
      if k != key {
        var rk2 := kh + k + KeySetTail;
        assert rk2 != rk by {
          assert rk2 == kh + (k + KeySetTail) && rk == kh + (key + KeySetTail);
          assert rk2[|kh|..] == k + KeySetTail && rk[|kh|..] == key + KeySetTail;
          assert (k + KeySetTail)[..|k|] == k;
          assert (key + KeySetTail)[..|key|] == key;
        }
        TtlKeyIsNoSetKey(s.name, k);
        SameExceptReads(db, db1, ttlk, rk2);
        SameExceptReads(db1, r, rk, rk2);
      }
    }
  }

  /** Pushing an item equal to a pending one of the same key (a clone made
      at push time has the same timestamp and value) adds no entry: the key's
      count stays what it was, where the store would count one more. */
  lemma PushedCloneCollapses(s: RedisSetStorage, db: Db, st: Store.Store, key: string, j: nat)
    requires DbValid(db)
    requires SetsHold(db, KeyHead(s.name), KeySetTail, st)
    requires List(db, TtlKey(s.name)).Success?
    requires j < |Store.Items(st, key)|
    ensures var item := Store.Items(st, key)[j];
      && Push(s, db, key, item).Success?
      && |ZSet(Push(s, db, key, item).value, BuildListKey(s, key)).value| == |Store.Items(st, key)|
      && |Store.Items(Store.Push(st, key, item), key)| == |Store.Items(st, key)| + 1
  {
    var rk := BuildListKey(s, key);
    var ttlk := TtlKey(s.name);
    var item := Store.Items(st, key)[j];
    var db1 := LPush(db, ttlk, Decimal(item.pushTimestamp)).value;
    TtlKeyIsNoSetKey(s.name, key);
    SameExceptReads(db, db1, ttlk, rk);
    assert ZSet(db, rk) == Success(Entries(Store.Items(st, key)));
    assert rk in db && db[rk].ZSetV?;
    SetPushDuplicate(db1, rk, j, item);
  }

  /** `popRight` takes `RankTaken(count)` items, oldest first: the store's
      `popRight` of that many. For a positive count that is the store's
      `popRight` of `count` itself. */
  lemma PopRightRefines(s: RedisSetStorage, db: Db, st: Store.Store, key: string, count: int)
    requires SetsHold(db, KeyHead(s.name), KeySetTail, st)
    ensures var n := RankTaken(count, |Store.Items(st, key)|);
      var r := PopRight(s, db, key, count); var p := Store.PopRight(st, key, n);
      && r.Success?
      && r.value.1 == p.1
      && SetsHold(r.value.0, KeyHead(s.name), KeySetTail, p.0)
    ensures count > 0 ==> RankTaken(count, |Store.Items(st, key)|) == Taken(count, |Store.Items(st, key)|)
  {
    var kh := KeyHead(s.name);
    var rk := BuildListKey(s, key);
    var n := RankTaken(count, |Store.Items(st, key)|);
    SetPopRightSpec(db, rk, Store.Items(st, key), count);
    var r := PopRight(s, db, key, count).value.0;
    var st1 := Store.PopRight(st, key, n).0;
    forall k | k != key ensures ZSet(r, kh + k + KeySetTail) == Success(Entries(Store.Items(st1, k))) {
      SetKeysDistinct(kh, KeySetTail, k, key);
      SameExceptReads(db, r, rk, kh + k + KeySetTail);
    }
  }

  /** `popLeft` takes `RankTaken(count)` items, newest first: the store's
      `popLeft` of that many. */
  lemma PopLeftRefines(s: RedisSetStorage, db: Db, st: Store.Store, key: string, count: int)
    requires SetsHold(db, KeyHead(s.name), KeySetTail, st)
    ensures var n := RankTaken(count, |Store.Items(st, key)|);
      var r := PopLeft(s, db, key, count); var p := Store.PopLeft(st, key, n);
      && r.Success?
      && r.value.1 == p.1
      && SetsHold(r.value.0, KeyHead(s.name), KeySetTail, p.0)
  {
    var kh := KeyHead(s.name);
    var rk := BuildListKey(s, key);
    var n := RankTaken(count, |Store.Items(st, key)|);
    var xs := Store.Items(st, key);
    SetPopLeftSpec(db, rk, xs, count);
    var p := Store.PopLeft(st, key, n);
    assert Taken(n, |xs|) == n;
    SetsHoldAfter(db, PopLeft(s, db, key, count).value.0, kh, key, st, p.0);
  }

  /** A command that rewrote only one key's set, to what the store now holds
      for that key, keeps the sets in step with the store. */
  lemma SetsHoldAfter(db: Db, r: Db, kh: string, key: string, st: Store.Store, st1: Store.Store)
    requires SetsHold(db, kh, KeySetTail, st)
    requires SameExcept(db, r, kh + key + KeySetTail)
    requires ZSet(r, kh + key + KeySetTail) == Success(Entries(Store.Items(st1, key)))
    requires forall k :: k != key ==> Store.Items(st1, k) == Store.Items(st, k)
    ensures SetsHold(r, kh, KeySetTail, st1)
  {
    forall k ensures ZSet(r, kh + k + KeySetTail) == Success(Entries(Store.Items(st1, k))) {
      if k != key {
        SetKeysDistinct(kh, KeySetTail, k, key);
        SameExceptReads(db, r, kh + key + KeySetTail, kh + k + KeySetTail);
      }
    }
  }

  /** With a count of 0 the rank range 0..-1 is the whole set: both pops
      return and remove every pending item of the key, where the store's
      pops take none. */
  lemma ZeroCountDrains(s: RedisSetStorage, db: Db, st: Store.Store, key: string)
    requires SetsHold(db, KeyHead(s.name), KeySetTail, st)
    ensures PopRight(s, db, key, 0).Success? && PopRight(s, db, key, 0).value.1 == Store.Items(st, key)
    ensures PopLeft(s, db, key, 0).Success? && PopLeft(s, db, key, 0).value.1 == Reverse(Store.Items(st, key))
    ensures ZSet(PopRight(s, db, key, 0).value.0, BuildListKey(s, key)) == Success([])
    ensures Store.PopRight(st, key, 0).1 == [] && Store.PopLeft(st, key, 0).1 == []
  {
    var xs := Store.Items(st, key);
    SetPopRightSpec(db, BuildListKey(s, key), xs, 0);
    SetPopLeftSpec(db, BuildListKey(s, key), xs, 0);
    assert xs[..|xs|] == xs && xs[|xs| - |xs|..] == xs;
  }

  /** With `listed` being the keys under the key head, and every sorted set
      there named by this queue, `getStoredCount` on true ZCOUNT replies
      reports every key's number of pending items. Lists under the head (the
      TTL list of the queue named "-" + name, say) answer WRONGTYPE and are
      skipped. */
  lemma StoredCountRefines(s: RedisSetStorage, db: Db, st: Store.Store, listed: seq<string>)
    requires SetsHold(db, KeyHead(s.name), KeySetTail, st)
    requires forall rk :: rk in listed <==> rk in db && StartsWith(rk, KeyHead(s.name))
    requires forall rk :: rk in db && StartsWith(rk, KeyHead(s.name)) && db[rk].ZSetV? ==>
      WellNamedSet(KeyHead(s.name), KeySetTail, rk)
    ensures GetStoredCount(s, k => ZCount(db, k), listed).Success?
    ensures forall k :: CountOf(GetStoredCount(s, k => ZCount(db, k), listed).value, k) == |Store.Items(st, k)|
  {
    var kh := KeyHead(s.name);
    var reply := k => ZCount(db, k);
    CountSetsSpec(reply, kh, KeySetTail, listed, map[], true);
    forall k ensures CountOf(GetStoredCount(s, reply, listed).value, k) == |Store.Items(st, k)| {
      var rk := kh + k + KeySetTail;
      assert rk == kh + (k + KeySetTail);
      assert rk[..|kh|] == kh;
    }
  }

  /** The TTL list of the queue named "-" + name is skipped, not counted. */
  lemma StoredCountSkipsForeignTtlList(s: RedisSetStorage, db: Db)
    requires TtlKey("-" + s.name) in db && db[TtlKey("-" + s.name)].ListV?
    ensures GetStoredCount(s, k => ZCount(db, k), [TtlKey("-" + s.name)]) == Success(map[])
  {
    var rk := TtlKey("-" + s.name);
    DashedTtlKeyUnderHead(s.name);
    assert ZCount(db, rk) == Failure(WrongType);
    assert [rk][1..] == [];
    assert CountSets(k => ZCount(db, k), KeyHead(s.name), KeySetTail, [rk][1..], map[], true) == Success(map[]);
  }

  /** Any error other than WRONGTYPE on a key under the head is rethrown. */
  lemma StoredCountRethrows(s: RedisSetStorage, reply: string -> Result<nat, RedisError>, rk: string, rest: seq<string>, msg: string)
    requires StartsWith(rk, KeyHead(s.name)) && reply(rk) == Failure(OtherError(msg))
    ensures GetStoredCount(s, reply, [rk] + rest) == Failure(OtherError(msg))
  {
    assert ([rk] + rest)[0] == rk;
  }

  // ---- TTL bookkeeping ----

  /** The TTL list holding the timestamps `tss` (oldest first) after one
      LPUSH each. */
  function StackedTimestamps(tss: seq<nat>): (l: seq<string>)
    ensures |l| == |tss|
    ensures forall i :: 0 <= i < |tss| ==> l[i] == Decimal(tss[|tss| - 1 - i])
  {
    seq(|tss|, i requires 0 <= i < |tss| => Decimal(tss[|tss| - 1 - i]))
  }

  /** `push` records the item's timestamp as the newest. */
  lemma PushRecordsTimestamp(s: RedisSetStorage, db: Db, key: string, item: QueueItem, tss: seq<nat>)
    requires List(db, TtlKey(s.name)) == Success(StackedTimestamps(tss))
    requires Push(s, db, key, item).Success?
    ensures List(Push(s, db, key, item).value, TtlKey(s.name)) == Success(StackedTimestamps(tss + [item.pushTimestamp]))
  {
    assert [Decimal(item.pushTimestamp)] + StackedTimestamps(tss) == StackedTimestamps(tss + [item.pushTimestamp]);
  }

  /** `getFirstTimestamp` hands back the oldest recorded timestamp and drops
      it; with none recorded it gives undefined. */
  lemma FirstTimestampIsOldest(s: RedisSetStorage, db: Db, tss: seq<nat>)
    requires List(db, TtlKey(s.name)) == Success(StackedTimestamps(tss))
    ensures GetFirstTimestamp(s, db).Success?
    ensures |tss| == 0 ==> GetFirstTimestamp(s, db).value.1 == None
    ensures |tss| > 0 ==>
      && GetFirstTimestamp(s, db).value.1 == Some(tss[0])
      && List(GetFirstTimestamp(s, db).value.0, TtlKey(s.name)) == Success(StackedTimestamps(tss[1..]))
  {
    if |tss| > 0 {
      var l := StackedTimestamps(tss);
      assert l[|l| - 1] == Decimal(tss[0]);
      assert l[..|l| - 1] == StackedTimestamps(tss[1..]);
      ParseDecimal(tss[0], []);
      assert Decimal(tss[0]) + [] == Decimal(tss[0]);
    }
  }

  /** With a truthy `TTLms` and `listed` being the keys under the head,
      `cleanupKeys(t)` is expiry on the store, and replies how many entries
      it removed. */
  lemma CleanupRefines(s: RedisSetStorage, db: Db, st: Store.Store, listed: seq<string>, t: int)
    requires Truthy(s.ttl)
    requires SetsHold(db, KeyHead(s.name), KeySetTail, st)
    requires forall rk :: rk in listed <==> rk in db && StartsWith(rk, KeyHead(s.name))
    requires Distinct(listed)
    requires forall i :: 0 <= i < |listed| && Expirable(KeyHead(s.name), KeySetTail, listed[i]) ==> ZSet(db, listed[i]).Success?
    ensures CleanupKeys(s, db, listed, t).Success?
    ensures SetsHold(CleanupKeys(s, db, listed, t).value.0, KeyHead(s.name), KeySetTail, Expire(st, t))
    ensures CleanupKeys(s, db, listed, t).value.1 == Some(Expired(db, KeyHead(s.name), KeySetTail, listed, t))
  {
    RedisOps.CleanupRefines(db, KeyHead(s.name), KeySetTail, listed, t, st);
    CleanupSetsCount(db, KeyHead(s.name), KeySetTail, listed, t);
  }
}

=== FILE: rules.dfy ===
/** The per-key and global rule records of the queue engine (the `Rules`
    objects of src/types.ts) and the flush-side clone expansion applied to a
    popped batch. Callbacks and clone conditions are opaque: they are known
    by identity, and what a condition answers for a value is an input. */
module Rules {
  import opened Types

  /** The wildcard key: a rule set for it is a global rule. */
  const AllKeys: string := "*"

  /** An `exec`/`execAsync` callback, by identity. */
  datatype Callback = Callback(id: nat)

  /** A clone condition, by identity. */
  datatype Condition = Condition(id: nat)

  /** A rule record; every field is optional, as in the source's object. */
  datatype Rules = Rules(
    kind: Option<Kind>,
    shiftSize: Option<int>,
    every: Option<int>,
    lastLockTimestamp: Option<int>,
    clonePre: Option<int>,
    clonePreCondition: Option<Condition>,
    clonePost: Option<int>,
    clonePostCondition: Option<Condition>,
    exec: Option<Callback>,
    execAsync: Option<Callback>,
    locked: Option<bool>)

  /** `{}`: the record `defaultKeyRulse` hands out. */
  const Empty: Rules := Rules(None, None, None, None, None, None, None, None, None, None, None)

  /** Some callback is set in the record. */
  predicate HasExec(r: Rules) {
    r.exec.Some? || r.execAsync.Some?
  }

  /** `n` copies of `x`, none when `n` is not positive (a `for` loop that
      runs `n` times). */
  function Repeat<T>(x: T, n: int): (r: seq<T>)
    ensures |r| == if n > 0 then n else 0
    ensures forall i :: 0 <= i < |r| ==> r[i] == x
  {
    if n <= 0 then [] else seq(n, _ => x)
  }

  /** The `flatMap` of `parseItemsPost`: each item repeated `n` times when
      there is no condition or the condition holds of its value, kept once
      otherwise. `holds` says what a condition answers for a value. */
  function Expand(items: seq<QueueItem>, n: int, cond: Option<Condition>,
                  holds: (Condition, string) -> bool): seq<QueueItem>
    decreases |items|
  {
    if |items| == 0 then []
    else
      var it := items[0];
      (if cond.None? || holds(cond.value, it.value) then Repeat(it, n) else [it])
        + Expand(items[1..], n, cond, holds)
  }

  /** Expansion works item by item: it keeps the items' relative order. */
  lemma {:induction false} ExpandAppend(a: seq<QueueItem>, b: seq<QueueItem>, n: int, cond: Option<Condition>,
                                        holds: (Condition, string) -> bool)
    ensures Expand(a + b, n, cond, holds) == Expand(a, n, cond, holds) + Expand(b, n, cond, holds)
    decreases |a|
  {
    if |a| == 0 {
      assert a + b == b;
    } else {
      var it := a[0];
      var h := if cond.None? || holds(cond.value, it.value) then Repeat(it, n) else [it];
      assert (a + b)[0] == it;
      assert (a + b)[1..] == a[1..] + b;
      ExpandAppend(a[1..], b, n, cond, holds);
      AppendAssoc(h, Expand(a[1..], n, cond, holds), Expand(b, n, cond, holds));
    }
  }

  /** One item expands to its `n` copies when cloned, and to itself when its
      condition fails. */
  lemma ExpandOne(it: QueueItem, n: int, cond: Option<Condition>, holds: (Condition, string) -> bool)
    ensures cond.None? || holds(cond.value, it.value) ==> Expand([it], n, cond, holds) == Repeat(it, n)
    ensures cond.Some? && !holds(cond.value, it.value) ==> Expand([it], n, cond, holds) == [it]
  {
    assert [it][1..] == [];
  }

  /** Without a condition, a batch of `m` items comes out as `n * m` items. */
  lemma {:induction false} ExpandUnconditional(items: seq<QueueItem>, n: int, holds: (Condition, string) -> bool)
    requires n > 0
    ensures |Expand(items, n, None, holds)| == n * |items|
    decreases |items|
  {
    if |items| > 0 {
      ExpandUnconditional(items[1..], n, holds);
      assert n * |items| == n + n * (|items| - 1);
    }
  }

  /** `r` is `items` with each item repeated `n` times in a row, in order:
      position `i` of `r` holds item `i / n`. */
  predicate Blocks<T(==)>(r: seq<T>, items: seq<T>, n: int) {
    && n > 0
    && |r| == n * |items|
    && forall i :: 0 <= i < |r| ==> 0 <= i / n < |items| && r[i] == items[i / n]
  }

  /** Without a condition and with a positive count, the expansion is the
      batch with each item repeated `n` times in a row. */
  lemma {:induction false} ExpandUnconditionalAt(items: seq<QueueItem>, n: int, holds: (Condition, string) -> bool)
    requires n > 0
    ensures Blocks(Expand(items, n, None, holds), items, n)
    decreases |items|
  {
    if |items| > 0 {
      ExpandUnconditionalAt(items[1..], n, holds);
      BlocksCons(items, n, Expand(items[1..], n, None, holds));
    }
  }

  /** `n` copies of the first item followed by the blocks of the rest are the
      blocks of the whole batch. */
  lemma BlocksCons<T>(items: seq<T>, n: int, tail: seq<T>)
    requires |items| > 0 && Blocks(tail, items[1..], n)
    ensures Blocks(Repeat(items[0], n) + tail, items, n)
  {
    var r := Repeat(items[0], n) + tail;
    assert n * |items| == n + n * (|items| - 1);
    forall i | 0 <= i < |r| ensures 0 <= i / n < |items| && r[i] == items[i / n] {
      if i < n {
        DivUnique(i, n, 0, i);
      } else {
        assert r[i] == tail[i - n];
        DivShift(i, n);
      }
    }
  }

  lemma DivShift(i: int, n: int)
    requires n > 0 && i >= n
    ensures (i - n) / n + 1 == i / n
  {
    var q := (i - n) / n;
    var r := (i - n) % n;
    assert i - n == q * n + r;
    assert i == (q + 1) * n + r;
    DivUnique(i, n, q + 1, r);
  }

  /** Euclidean division has one quotient. */
  lemma DivUnique(i: int, n: int, q: int, r: int)
    requires n > 0 && 0 <= r < n && i == q * n + r
    ensures i / n == q
  {
    var q' := i / n;
    var r' := i % n;
    assert i == q' * n + r';
    assert (q' - q) * n == r - r';
    assert -n < r - r' < n;
    MulBounded(q' - q, n);
  }

  /** A multiple of `n` strictly between `-n` and `n` is 0. */
  lemma MulBounded(d: int, n: int)
    requires n > 0 && -n < d * n < n
    ensures d == 0
  {
    MulCases(d, n);
  }

  /** A non-zero multiple of `n` is at least `n` away from 0. */
  lemma MulCases(d: int, n: int)
    requires n > 0
    ensures d == 0 || d * n >= n || d * n <= -n
  {
    if d >= 1 {
      assert d * n == (d - 1) * n + n;
    } else if d <= -1 {
      assert d * n == (d + 1) * n - n;
    }
  }

  /** A count that is truthy but negative clones nothing: without a
      condition the batch expands to no items at all. */
  lemma {:induction false} ExpandNegativeCount(items: seq<QueueItem>, n: int, holds: (Condition, string) -> bool)
    requires n < 0
    ensures Expand(items, n, None, holds) == []
    decreases |items|
  {
    if |items| > 0 {
      ExpandNegativeCount(items[1..], n, holds);
    }
  }

  /** When the condition holds of no value in the batch, expansion returns
      the batch unchanged. */
  lemma {:induction false} ExpandNoneCloned(items: seq<QueueItem>, n: int, c: Condition, holds: (Condition, string) -> bool)
    requires forall i :: 0 <= i < |items| ==> !holds(c, items[i].value)
    ensures Expand(items, n, Some(c), holds) == items
    decreases |items|
  {
    if |items| > 0 {
      ExpandNoneCloned(items[1..], n, c, holds);
      assert [items[0]] + items[1..] == items;
    }
  }
}

=== FILE: stateful.dfy ===
/** src/index.ts: the `StatefulQueue` draft. It keeps one rule record per
    internal key — only the default key exists, and nothing registers
    others — and a storage whose `shift(key, count)` direction is the
    storage's own (a parameter here). `push` and `shift` are the only
    operations touching the storage; the setters write rule fields. */
module Stateful {
  import opened Types
  import Store
  import Rules

  /** The key callers use for "all", and the key it is stored under. */
  const DefaultKeyExternal: string := "all"
  const DefaultKeyInternal: string := "all§nqs§default§key"

  const ExecError: string := "nqs error: cannot shift manually if an exec callback is provided"

  /** A failed call: a thrown `Error` with its message, or the `TypeError`
      of reading a field of `undefined`. */
  datatype Error = Thrown(message: string) | TypeError

  /** `QueueRules`; every field optional. */
  datatype QueueRules = QueueRules(
    shiftSize: Option<int>,
    every: Option<int>,
    clonePre: Option<int>,
    clonePreCondition: Option<Rules.Condition>,
    clonePost: Option<int>,
    clonePostCondition: Option<Rules.Condition>,
    exec: Option<Rules.Callback>)

  const NoRules: QueueRules := QueueRules(None, None, None, None, None, None, None)

  /** `kind` is the direction the storage's `shift` pops in. */
  datatype StatefulQueue = StatefulQueue(name: string, store: Store.Store, kind: Kind, rules: map<string, QueueRules>)

  /** The constructor: rules only for the default key. */
  function New(name: string, store: Store.Store, kind: Kind): (q: StatefulQueue)
    ensures q.rules.Keys == {DefaultKeyInternal} && q.rules[DefaultKeyInternal] == NoRules
    ensures q.store == store && q.name == name
  {
    StatefulQueue(name, store, kind, map[DefaultKeyInternal := NoRules])
  }

  /** `parseKey`: "all" becomes the internal default key; other keys pass
      through. */
  function ParseKey(key: string): (k: string)
    ensures k == DefaultKeyInternal <==> key == DefaultKeyExternal || key == DefaultKeyInternal
    ensures key != DefaultKeyExternal ==> k == key
  {
    if key == DefaultKeyExternal then DefaultKeyInternal else key
  }

  /** Parsing a parsed key changes nothing: the internal key is not "all". */
  lemma ParseKeyIdempotent(key: string)
    ensures ParseKey(ParseKey(key)) == ParseKey(key)
  {
    assert |DefaultKeyInternal| != |DefaultKeyExternal|;
  }

  /** `this.rules[key]` after parsing, or the TypeError of using it when the
      key has no rules. */
  function Lookup(q: StatefulQueue, key: string): (r: Result<QueueRules, Error>)
    ensures r.Success? <==> ParseKey(key) in q.rules
    ensures r.Failure? ==> r.error == TypeError
    ensures r.Success? ==> r.value == q.rules[ParseKey(key)]
  {
    var k := ParseKey(key);
    if k in q.rules then Success(q.rules[k]) else Failure(TypeError)
  }

  /** Only "all" (or the internal key itself) can be used: any other key
      reaches `this.rules[key]` as `undefined`. */
  lemma OnlyDefaultKey(name: string, store: Store.Store, kind: Kind, key: string)
    ensures Lookup(New(name, store, kind), key).Success? <==> key == DefaultKeyExternal || key == DefaultKeyInternal
  {
  }

  /** Writes one rule field of a key through `f`. */
  function SetRule(q: StatefulQueue, key: string, f: QueueRules -> QueueRules): (r: Result<StatefulQueue, Error>)
    ensures r.Success? <==> ParseKey(key) in q.rules
    ensures r.Failure? ==> r.error == TypeError
    ensures r.Success? ==> r.value == q.(rules := q.rules[ParseKey(key) := f(q.rules[ParseKey(key)])])
  {
    var k := ParseKey(key);
    if k in q.rules then Success(q.(rules := q.rules[k := f(q.rules[k])])) else Failure(TypeError)
  }

  // ---- push ----

  /** `push` as written. `condOk` is what the key's clone condition answers
      for the value. With `clonePre` set, the loop variable starts
      `undefined`, `undefined < n` is false, and nothing is stored, cloned
      or not; without it the item is stored once. */
  function PushAsWritten(q: StatefulQueue, key: string, value: string, now: nat, condOk: bool): (r: Result<StatefulQueue, Error>)
    ensures r.Failure? <==> ParseKey(key) !in q.rules
    ensures r.Success? && Truthy(q.rules[ParseKey(key)].clonePre) ==> r.value == q
    ensures r.Success? && !Truthy(q.rules[ParseKey(key)].clonePre) ==>
      r.value == q.(store := Store.Push(q.store, ParseKey(key), QueueItem(now, value)))
  {
    match Lookup(q, key)
    case Failure(e) => Failure(e)
    case Success(kr) =>
      if Truthy(kr.clonePre) then Success(q)
      else Success(q.(store := Store.Push(q.store, ParseKey(key), QueueItem(now, value))))
  }

  /** `push` with the clone loop counting from 0: `clonePre` copies when the
      condition is absent or holds, none when it fails (the draft has no
      `else` there), one copy without `clonePre`. */
  function Push(q: StatefulQueue, key: string, value: string, now: nat, condOk: bool): (r: Result<StatefulQueue, Error>)
    ensures r.Failure? <==> ParseKey(key) !in q.rules
    ensures r.Success? ==> r.value.rules == q.rules && r.value.kind == q.kind
    ensures r.Success? ==>
      var k := ParseKey(key); var kr := q.rules[k]; var it := QueueItem(now, value);
      && (forall other :: other != k ==> Store.Items(r.value.store, other) == Store.Items(q.store, other))
      && Store.Items(r.value.store, k) == Store.Items(q.store, k) +
           if !Truthy(kr.clonePre) then [it]
           else if kr.clonePreCondition.None? || condOk then Rules.Repeat(it, kr.clonePre.value)
           else []
  {
    match Lookup(q, key)
    case Failure(e) => Failure(e)
    case Success(kr) =>
      var k := ParseKey(key);
      var it := QueueItem(now, value);
      var copies := if !Truthy(kr.clonePre) then [it]
                    else if kr.clonePreCondition.None? || condOk then Rules.Repeat(it, kr.clonePre.value)
                    else [];
      Store.PushAllItems(q.store, k, copies);
      Success(q.(store := Store.PushAll(q.store, k, copies)))
  }

  /** The two pushes agree when no `clonePre` is set. */
  lemma PushAgreesWithoutClones(q: StatefulQueue, key: string, value: string, now: nat, condOk: bool)
    requires ParseKey(key) in q.rules && !Truthy(q.rules[ParseKey(key)].clonePre)
    ensures Store.Items(PushAsWritten(q, key, value, now, condOk).value.store, ParseKey(key)) ==
            Store.Items(Push(q, key, value, now, condOk).value.store, ParseKey(key))
  {
  }

  // ---- shift ----

  /** What `shift` resolves to: `undefined`, one value, or a list of values. */
  datatype Shifted = Nothing | One(value: string) | Many(values: seq<string>)

  function Values(items: seq<QueueItem>): (vs: seq<string>)
    ensures |vs| == |items| && forall i :: 0 <= i < |items| ==> vs[i] == items[i].value
  {
    seq(|items|, i requires 0 <= i < |items| => items[i].value)
  }

  /** `shift(key, count, force)`: `undefined` for a count of 0; refused while
      an `exec` callback is set unless forced; otherwise the storage's batch,
      as a single value for a count of 1 (a TypeError when that batch is
      empty) and as a list of values otherwise. A forced shift never reads
      the key's rules (`!force && …` short-circuits), so it reaches keys
      without rules too; an unforced one of such a key is a TypeError. */
  function Shift(q: StatefulQueue, key: string, count: int, force: bool): (r: Result<(StatefulQueue, Shifted), Error>)
    ensures count == 0 ==> r == Success((q, Nothing))
    ensures count != 0 && !force && ParseKey(key) !in q.rules ==> r == Failure(TypeError)
    ensures count != 0 && ParseKey(key) in q.rules && !force && q.rules[ParseKey(key)].exec.Some? ==>
      r == Failure(Thrown(ExecError))
    ensures count != 0 && (force || (ParseKey(key) in q.rules && q.rules[ParseKey(key)].exec.None?)) ==>
      var s := Store.Items(q.store, ParseKey(key)); var n := Taken(count, |s|);
      var batch := if q.kind == FIFO then s[..n] else s[|s| - n..];
      && (count == 1 && n == 0 ==> r == Failure(TypeError))
      && (count == 1 && n > 0 ==> r.Success? && r.value.1 == One(batch[0].value))
      && (count != 1 ==> r.Success? && r.value.1 == Many(Values(batch)))
      && (r.Success? ==> Store.Items(r.value.0.store, ParseKey(key)) == if q.kind == FIFO then s[n..] else s[..|s| - n])
    ensures r.Success? ==> r.value.0.rules == q.rules
  {
    if count == 0 then Success((q, Nothing))
    else if !force && Lookup(q, key).Failure? then Failure(TypeError)
    else if !force && Lookup(q, key).value.exec.Some? then Failure(Thrown(ExecError))
    else
      var b := Store.Shift(q.store, q.kind, ParseKey(key), count);
      Store.ShiftItems(q.store, q.kind, ParseKey(key), count);
      Store.ShiftRest(q.store, q.kind, ParseKey(key), count);
      var q1 := q.(store := b.0);
      if count == 1 then
        if |b.1.items| == 0 then Failure(TypeError) else Success((q1, One(b.1.items[0].value)))
      else Success((q1, Many(Values(b.1.items))))
  }

  /** The only way to a key other than the default one: a new queue has no
      rules for "x", so an unforced shift of it throws, while a forced one
      returns its oldest (FIFO) item and empties it. */
  lemma ForcedShiftReachesAnyKey(name: string, store: Store.Store, it: QueueItem)
    requires Store.Items(store, "x") == [it]
    ensures Shift(New(name, store, FIFO), "x", 1, false) == Failure(TypeError)
    ensures var r := Shift(New(name, store, FIFO), "x", 1, true);
      && r.Success? && r.value.1 == One(it.value)
      && Store.Items(r.value.0.store, "x") == []
  {
    assert "x" != DefaultKeyInternal && "x" != DefaultKeyExternal;
  }

  /** Round trip on the default key of a FIFO storage: what one push stores,
      one shift of the same key returns, and the key is empty again. */
  lemma PushShiftRoundTrip(name: string, store: Store.Store, value: string, now: nat, condOk: bool)
    requires Store.Items(store, DefaultKeyInternal) == []
    ensures var q := New(name, store, FIFO);
      var p := Push(q, DefaultKeyExternal, value, now, condOk);
      && p.Success?
      && Shift(p.value, DefaultKeyExternal, 1, false).Success?
      && Shift(p.value, DefaultKeyExternal, 1, false).value.1 == One(value)
      && Store.Items(Shift(p.value, DefaultKeyExternal, 1, false).value.0.store, DefaultKeyInternal) == []
  {
    var q := New(name, store, FIFO);
    assert q.rules[DefaultKeyInternal].clonePre == None;
    var p := Push(q, DefaultKeyExternal, value, now, condOk);
    assert Store.Items(p.value.store, DefaultKeyInternal) == [QueueItem(now, value)];
  }

  /** With `clonePre` set to 3, the draft stores nothing, so the shift that
      should return the first copy throws instead; counting the loop from 0
      stores the three copies. */
  lemma ClonePreDropsItems(name: string, store: Store.Store, value: string, now: nat)
    requires Store.Items(store, DefaultKeyInternal) == []
    ensures var q := ClonePre(New(name, store, FIFO), DefaultKeyExternal, 3, None).value;
      && PushAsWritten(q, DefaultKeyExternal, value, now, true) == Success(q)
      && Shift(PushAsWritten(q, DefaultKeyExternal, value, now, true).value, DefaultKeyExternal, 1, false) == Failure(TypeError)
      && Store.Items(Push(q, DefaultKeyExternal, value, now, true).value.store, DefaultKeyInternal) == Rules.Repeat(QueueItem(now, value), 3)
  {
  }

  /** With the loop counting from 0, a push under `clonePre(n)` stores `n`
      copies, and one shift of `n` hands them all back. */
  lemma ClonedPushRoundTrip(name: string, store: Store.Store, value: string, now: nat, n: int)
    requires Store.Items(store, DefaultKeyInternal) == [] && n > 1
    ensures var q := ClonePre(New(name, store, FIFO), DefaultKeyExternal, n, None).value;
      var p := Push(q, DefaultKeyExternal, value, now, true);
      && p.Success?
      && Shift(p.value, DefaultKeyExternal, n, false).Success?
      && Shift(p.value, DefaultKeyExternal, n, false).value.1 == Many(Rules.Repeat(value, n))
  {
    var q := ClonePre(New(name, store, FIFO), DefaultKeyExternal, n, None).value;
    var p := Push(q, DefaultKeyExternal, value, now, true);
    var it := QueueItem(now, value);
    assert Store.Items(p.value.store, DefaultKeyInternal) == Rules.Repeat(it, n);
    var r := Shift(p.value, DefaultKeyExternal, n, false);
    assert Values(Rules.Repeat(it, n)) == Rules.Repeat(value, n);
  }

  // ---- setters ----

  /** `exec(key, callback)`. */
  function Exec(q: StatefulQueue, key: string, cb: Rules.Callback): (r: Result<StatefulQueue, Error>)
    ensures r.Success? <==> ParseKey(key) in q.rules
    ensures r.Success? ==> r.value.rules.Keys == q.rules.Keys
    ensures r.Success? ==> r.value.rules[ParseKey(key)].exec == Some(cb)
  {
    SetRule(q, key, (x: QueueRules) => x.(exec := Some(cb)))
  }

  /** An `exec` callback blocks manual shifts of its key unless forced. */
  lemma ExecBlocksShift(q: StatefulQueue, key: string, cb: Rules.Callback, count: int)
    requires ParseKey(key) in q.rules && count != 0
    ensures Shift(Exec(q, key, cb).value, key, count, false) == Failure(Thrown(ExecError))
    ensures count != 1 ==> Shift(Exec(q, key, cb).value, key, count, true).Success?
  {
  }

  /** `shiftSize(key, count)` as written: it stores the count as `every`. */
  function ShiftSizeAsWritten(q: StatefulQueue, key: string, count: int): (r: Result<StatefulQueue, Error>)
    ensures r.Success? <==> ParseKey(key) in q.rules
    ensures r.Success? ==> r.value.rules.Keys == q.rules.Keys
    ensures r.Success? ==> r.value.rules[ParseKey(key)].every == Some(count)
    ensures r.Success? ==> r.value.rules[ParseKey(key)].shiftSize == q.rules[ParseKey(key)].shiftSize
  {
    SetRule(q, key, (x: QueueRules) => x.(every := Some(count)))
  }

  /** `shiftSize(key, count)` storing the shift size it is named for. */
  function ShiftSize(q: StatefulQueue, key: string, count: int): (r: Result<StatefulQueue, Error>)
    ensures r.Success? <==> ParseKey(key) in q.rules
    ensures r.Success? ==> r.value.rules.Keys == q.rules.Keys
    ensures r.Success? ==> r.value.rules[ParseKey(key)].shiftSize == Some(count)
    ensures r.Success? ==> r.value.rules[ParseKey(key)].every == q.rules[ParseKey(key)].every
  {
    SetRule(q, key, (x: QueueRules) => x.(shiftSize := Some(count)))
  }

  /** The draft's `shiftSize` is indistinguishable from `every`, and it
      overwrites a delay set before. */
  lemma ShiftSizeClobbersEvery(q: StatefulQueue, key: string, delay: int, count: int)
    requires ParseKey(key) in q.rules
    ensures ShiftSizeAsWritten(q, key, count) == Every(q, key, count)
    ensures ShiftSizeAsWritten(Every(q, key, delay).value, key, count).value.rules[ParseKey(key)].every == Some(count)
    ensures ShiftSize(Every(q, key, delay).value, key, count).value.rules[ParseKey(key)].every == Some(delay)
  {
  }

  /** `every(key, delay)`. */
  function Every(q: StatefulQueue, key: string, delay: int): (r: Result<StatefulQueue, Error>)
    ensures r.Success? <==> ParseKey(key) in q.rules
    ensures r.Success? ==> r.value.rules.Keys == q.rules.Keys
    ensures r.Success? ==> r.value.rules[ParseKey(key)].every == Some(delay)
  {
    SetRule(q, key, (x: QueueRules) => x.(every := Some(delay)))
  }

  /** `clonePre(key, count, condition?)`. */
  function ClonePre(q: StatefulQueue, key: string, count: int, cond: Option<Rules.Condition>): (r: Result<StatefulQueue, Error>)
    ensures r.Success? <==> ParseKey(key) in q.rules
    ensures r.Success? ==> r.value.rules.Keys == q.rules.Keys
    ensures r.Success? ==> r.value.rules[ParseKey(key)].clonePre == Some(count)
    ensures r.Success? ==> r.value.rules[ParseKey(key)].clonePreCondition == cond
  {
    SetRule(q, key, (x: QueueRules) => x.(clonePre := Some(count), clonePreCondition := cond))
  }

  /** `clonePost(key, count, condition?)`: stored, and read by nothing. */
  function ClonePost(q: StatefulQueue, key: string, count: int, cond: Option<Rules.Condition>): (r: Result<StatefulQueue, Error>)
    ensures r.Success? <==> ParseKey(key) in q.rules
    ensures r.Success? ==> r.value.rules.Keys == q.rules.Keys
    ensures r.Success? ==> r.value.rules[ParseKey(key)].clonePost == Some(count)
    ensures r.Success? ==> r.value.rules[ParseKey(key)].clonePostCondition == cond
  {
    SetRule(q, key, (x: QueueRules) => x.(clonePost := Some(count), clonePostCondition := cond))
  }
}

=== FILE: store.dfy ===
/** The storage contract of src/storage/Storage.ts, stated over one abstract
    store: per key, the pending items in push order (oldest first). It has
    both views the code base uses: `popRight`/`popLeft` returning items, and
    `shiftFIFO`/`shiftLIFO` returning items plus a stored-count snapshot.
    Each backend module proves that it implements this store. */
module Store {
  import opened Types

  /** `name` is the queue name given at construction; `queues` maps each key
      to its pending items, oldest first. */
  datatype Store = Store(name: string, queues: map<string, seq<QueueItem>>)

  function New(name: string): (st: Store)
    ensures st.name == name && StoredCount(st) == map[]
  {
    Store(name, map[])
  }

  /** Pending items of a key, oldest first (none for an unknown key). */
  function Items(st: Store, key: string): seq<QueueItem> {
    if key in st.queues then st.queues[key] else []
  }

  /** Storage `getName`: the name given at construction. */
  function GetName(st: Store): string {
    st.name
  }

  /** Storage `push`: the item becomes the newest of its key. */
  function Push(st: Store, key: string, item: QueueItem): (r: Store)
    ensures Items(r, key) == Items(st, key) + [item]
    ensures forall k :: k != key ==> Items(r, k) == Items(st, k)
    ensures r.name == st.name
  {
    Store(st.name, st.queues[key := Items(st, key) + [item]])
  }

  /** Storage `popRight`: removes and returns the oldest `count` items of the
      key, oldest first. An unknown key gets an empty entry. */
  function PopRight(st: Store, key: string, count: int): (r: (Store, seq<QueueItem>))
    ensures var n := Taken(count, |Items(st, key)|);
      && r.1 == Items(st, key)[..n]
      && Items(r.0, key) == Items(st, key)[n..]
    ensures forall k :: k != key ==> Items(r.0, k) == Items(st, k)
    ensures r.0.name == st.name
  {
    var s := Items(st, key);
    var n := Taken(count, |s|);
    (Store(st.name, st.queues[key := s[n..]]), s[..n])
  }

  /** Storage `popLeft`: removes and returns the newest `count` items of the
      key, newest first. An unknown key gets an empty entry. */
  function PopLeft(st: Store, key: string, count: int): (r: (Store, seq<QueueItem>))
    ensures var s := Items(st, key); var n := Taken(count, |s|);
      && r.1 == Reverse(s[|s| - n..])
      && Items(r.0, key) == s[..|s| - n]
    ensures forall k :: k != key ==> Items(r.0, k) == Items(st, k)
    ensures r.0.name == st.name
  {
    var s := Items(st, key);
    var n := Taken(count, |s|);
    (Store(st.name, st.queues[key := s[..|s| - n]]), Reverse(s[|s| - n..]))
  }

  /** Storage `getStoredCount`: every known key with its number of pending items. */
  function StoredCount(st: Store): (c: StoredCount)
    ensures c.Keys == st.queues.Keys
    ensures forall k :: CountOf(c, k) == |Items(st, k)|
  {
    map k | k in st.queues :: |st.queues[k]|
  }

  /** The `shiftFIFO`/`shiftLIFO` view: a pop together with the stored-count
      snapshot taken before the items are removed. Like FileSystem.ts, the
      only backend with this view, a LIFO batch comes back in push order. */
  function Shift(st: Store, kind: Kind, key: string, count: int): (r: (Store, ShiftOutput))
    ensures r.1.storedCount == StoredCount(st)
    ensures kind == FIFO ==> (r.0, r.1.items) == PopRight(st, key, count)
    ensures kind == LIFO ==> r.0 == PopLeft(st, key, count).0
    ensures var s := Items(st, key); var n := Taken(count, |s|);
      kind == LIFO ==> r.1.items == s[|s| - n..]
  {
    if kind == FIFO then
      var p := PopRight(st, key, count);
      (p.0, ShiftOutput(StoredCount(st), p.1))
    else
      var p := PopLeft(st, key, count);
      ReverseReverse(Items(st, key)[|Items(st, key)| - Taken(count, |Items(st, key)|)..]);
      (p.0, ShiftOutput(StoredCount(st), Reverse(p.1)))
  }

  /** The batch of a shift: the oldest `n` items (FIFO) or the newest `n`
      in push order (LIFO). */
  lemma ShiftItems(st: Store, kind: Kind, key: string, count: int)
    ensures var s := Items(st, key); var n := Taken(count, |s|);
      Shift(st, kind, key, count).1.items == if kind == FIFO then s[..n] else s[|s| - n..]
  {
  }

  /** What a shift leaves under its key: the items after the batch (FIFO)
      or before it (LIFO). */
  lemma ShiftRest(st: Store, kind: Kind, key: string, count: int)
    ensures var s := Items(st, key); var n := Taken(count, |s|);
      Items(Shift(st, kind, key, count).0, key) == if kind == FIFO then s[n..] else s[..|s| - n]
  {
  }

  // ---- the contract, over histories of operations ----

  /** A storage operation as the engine issues it. */
  datatype Op = PushOp(key: string, item: QueueItem) | PopOp(kind: Kind, key: string, count: int)

  /** One operation: the store after it and the items it returned. */
  function Apply(st: Store, op: Op): (Store, seq<QueueItem>) {
    match op
    case PushOp(k, it) => (Push(st, k, it), [])
    case PopOp(kind, k, n) => if kind == FIFO then PopRight(st, k, n) else PopLeft(st, k, n)
  }

  /** Runs a sequence of operations, collecting the items every pop returned. */
  function Run(st: Store, ops: seq<Op>): (r: (Store, seq<QueueItem>))
    decreases |ops|
  {
    if |ops| == 0 then (st, [])
    else
      var (st1, out1) := Apply(st, ops[0]);
      var (st2, out2) := Run(st1, ops[1..]);
      (st2, out1 + out2)
  }

  /** Number of pushes the operations make for `key`. */
  function Pushes(ops: seq<Op>, key: string): nat {
    if |ops| == 0 then 0
    else (if ops[0].PushOp? && ops[0].key == key then 1 else 0) + Pushes(ops[1..], key)
  }

  /** Number of items one operation pops from `key`. */
  function Took(st: Store, op: Op, key: string): nat {
    if op.PopOp? && op.key == key then Taken(op.count, |Items(st, key)|) else 0
  }

  /** Number of items the pops of `key` take, when run from `st`. */
  function Popped(st: Store, ops: seq<Op>, key: string): nat
    decreases |ops|
  {
    if |ops| == 0 then 0
    else Took(st, ops[0], key) + Popped(Apply(st, ops[0]).0, ops[1..], key)
  }

  /** One operation changes a key's count by its push, less what it pops. */
  lemma ApplyCount(st: Store, op: Op, key: string)
    ensures |Items(Apply(st, op).0, key)| + Took(st, op, key)
         == |Items(st, key)| + (if op.PushOp? && op.key == key then 1 else 0)
  {
  }

  /** Pending count conservation: after any history, a key holds what it held
      before plus its pushes minus the items its pops returned. */
  lemma {:induction false} PendingConservation(st: Store, ops: seq<Op>, key: string)
    ensures |Items(Run(st, ops).0, key)| + Popped(st, ops, key) == |Items(st, key)| + Pushes(ops, key)
    decreases |ops|
  {
    if |ops| > 0 {
      var st1 := Apply(st, ops[0]).0;
      assert Run(st, ops).0 == Run(st1, ops[1..]).0;
      ApplyCount(st, ops[0], key);
      PendingConservation(st1, ops[1..], key);
    }
  }

  /** Pushes of `xs` onto one key, in order. */
  function PushAll(st: Store, key: string, xs: seq<QueueItem>): (r: Store)
    decreases |xs|
  {
    if |xs| == 0 then st else PushAll(Push(st, key, xs[0]), key, xs[1..])
  }

  lemma {:induction false} PushAllItems(st: Store, key: string, xs: seq<QueueItem>)
    ensures Items(PushAll(st, key, xs), key) == Items(st, key) + xs
    ensures forall k :: k != key ==> Items(PushAll(st, key, xs), k) == Items(st, k)
    decreases |xs|
  {
    if |xs| > 0 {
      PushAllItems(Push(st, key, xs[0]), key, xs[1..]);
      assert Items(st, key) + [xs[0]] + xs[1..] == Items(st, key) + xs;
    }
  }

  /** FIFO order: after pushing `xs` onto an empty key, `popRight` returns
      them in push order. */
  lemma FifoOrder(st: Store, key: string, xs: seq<QueueItem>)
    requires Items(st, key) == []
    ensures PopRight(PushAll(st, key, xs), key, |xs|).1 == xs
    ensures Items(PopRight(PushAll(st, key, xs), key, |xs|).0, key) == []
  {
    PushAllItems(st, key, xs);
  }

  /** LIFO order: after pushing `xs` onto an empty key, `popLeft` returns
      them newest first. */
  lemma LifoOrder(st: Store, key: string, xs: seq<QueueItem>)
    requires Items(st, key) == []
    ensures PopLeft(PushAll(st, key, xs), key, |xs|).1 == Reverse(xs)
    ensures Items(PopLeft(PushAll(st, key, xs), key, |xs|).0, key) == []
  {
    PushAllItems(st, key, xs);
    assert Items(PushAll(st, key, xs), key) == xs;
  }

  /** A pop never loses or invents items: what it returns, put back in push
      order, followed or preceded by what remains, is what was there. */
  lemma PopPartitions(st: Store, key: string, count: int)
    ensures PopRight(st, key, count).1 + Items(PopRight(st, key, count).0, key) == Items(st, key)
    ensures Items(PopLeft(st, key, count).0, key) + Reverse(PopLeft(st, key, count).1) == Items(st, key)
  {
    var s := Items(st, key);
    var n := Taken(count, |s|);
    SliceJoin(s, n);
    var pl := PopLeft(st, key, count);
    assert pl.1 == Reverse(s[|s| - n..]) && Items(pl.0, key) == s[..|s| - n];
    ReverseReverse(s[|s| - n..]);
    SliceJoin(s, |s| - n);
  }
}

=== FILE: text.dfy ===
/** String operations the storage backends use on keys and records:
    JavaScript `indexOf`/`split`/`join`/`startsWith`/`endsWith`, decimal
    rendering and `parseInt` of timestamps, and the code-point order in
    which Redis sorts members of equal score. */
module Text {
  import opened Types

  predicate StartsWith(s: string, p: string) {
    |p| <= |s| && s[..|p|] == p
  }

  predicate EndsWith(s: string, p: string) {
    |p| <= |s| && s[|s| - |p|..] == p
  }

  /** `pat` occurs in `s` starting at position `i`. */
  predicate OccursAt(s: string, pat: string, i: int) {
    0 <= i && i + |pat| <= |s| && s[i..i + |pat|] == pat
  }

  lemma OccursAtTail(s: string, pat: string, j: nat)
    requires |s| > 0
    ensures OccursAt(s[1..], pat, j) <==> OccursAt(s, pat, j + 1)
  {
    if j + 1 + |pat| <= |s| {
      assert s[1..][j..j + |pat|] == s[j + 1..j + 1 + |pat|];
    }
  }

  /** First position at which `pat` occurs in `s` (JavaScript `indexOf`,
      `None` for -1). */
  function IndexOf(s: string, pat: string): (r: Option<nat>)
    ensures r.Some? ==> OccursAt(s, pat, r.value)
    ensures r.Some? ==> forall i :: 0 <= i < r.value ==> !OccursAt(s, pat, i)
    ensures r.None? ==> forall i :: !OccursAt(s, pat, i)
    decreases |s|
  {
    if |s| < |pat| then None
    else if s[..|pat|] == pat then Some(0)
    else
      var rest := IndexOf(s[1..], pat);
      assert !OccursAt(s, pat, 0);
      match rest
      case None =>
        assert forall i :: !OccursAt(s, pat, i) by {
          forall i | 1 <= i ensures !OccursAt(s, pat, i) {
            OccursAtTail(s, pat, i - 1);
          }
        }
        None
      case Some(j) =>
        OccursAtTail(s, pat, j);
        assert forall i :: 0 <= i < j + 1 ==> !OccursAt(s, pat, i) by {
          forall i | 1 <= i < j + 1 ensures !OccursAt(s, pat, i) {
            OccursAtTail(s, pat, i - 1);
          }
        }
        Some(j + 1)
  }

  predicate Contains(s: string, pat: string) {
    IndexOf(s, pat).Some?
  }

  /** JavaScript `s.split(sep)` for a non-empty separator. */
  function Split(s: string, sep: string): (parts: seq<string>)
    requires |sep| > 0
    ensures |parts| >= 1
    decreases |s|
  {
    match IndexOf(s, sep)
    case None => [s]
    case Some(i) => [s[..i]] + Split(s[i + |sep|..], sep)
  }

  /** JavaScript `parts.join(sep)`. */
  function Join(parts: seq<string>, sep: string): string {
    if |parts| == 0 then ""
    else if |parts| == 1 then parts[0]
    else parts[0] + sep + Join(parts[1..], sep)
  }

  /** The first part of a split is the text before the first occurrence of
      the separator, and it is the whole string exactly when the separator
      does not occur. */
  lemma SplitHead(s: string, sep: string)
    requires |sep| > 0
    ensures Split(s, sep)[0] == s <==> !Contains(s, sep)
    ensures Contains(s, sep) ==> Split(s, sep)[0] == s[..IndexOf(s, sep).value]
  {
  }

  /** A separator "marked" at position `m`: its character there does not
      occur earlier in it. A string free of that character cannot hold an
      occurrence of the separator that would start before its end. */
  predicate Marked(sep: string, m: nat) {
    m < |sep| && sep[m] !in sep[..m]
  }

  lemma FirstOccurrenceAfter(p: string, sep: string, rest: string, m: nat)
    requires Marked(sep, m)
    requires sep[m] !in p
    ensures IndexOf(p + sep + rest, sep) == Some(|p|)
    decreases |p|
  {
    var s := p + sep + rest;
    if |p| == 0 {
      assert s[..|sep|] == sep;
    } else {
      NoMatchAtStart(p, sep, rest, m);
      FirstOccurrenceAfter(p[1..], sep, rest, m);
      assert s[1..] == p[1..] + sep + rest;
      IndexOfStep(s, sep);
    }
  }

  /** Past a mismatch at position 0, `indexOf` is the tail's, shifted by one. */
  lemma IndexOfStep(s: string, pat: string)
    requires |pat| <= |s| && s[..|pat|] != pat
    ensures IndexOf(s[1..], pat).Some? ==> IndexOf(s, pat) == Some(IndexOf(s[1..], pat).value + 1)
  {
    if IndexOf(s[1..], pat).Some? {
      var j := IndexOf(s[1..], pat).value;
      OccursAtTail(s, pat, j);
      forall i | 0 <= i < j + 1 ensures !OccursAt(s, pat, i) {
        if i > 0 {
          OccursAtTail(s, pat, i - 1);
        }
      }
      FirstUnique(s, pat, IndexOf(s, pat), j + 1);
    }
  }

  /** Only one position is the first occurrence. */
  lemma FirstUnique(s: string, pat: string, r: Option<nat>, k: nat)
    requires r.Some? ==> OccursAt(s, pat, r.value) && forall i :: 0 <= i < r.value ==> !OccursAt(s, pat, i)
    requires r.None? ==> forall i :: !OccursAt(s, pat, i)
    requires OccursAt(s, pat, k) && forall i :: 0 <= i < k ==> !OccursAt(s, pat, i)
    ensures r == Some(k)
  {
  }

  /** A non-empty prefix free of the marker character keeps the separator
      from matching at position 0. */
  lemma NoMatchAtStart(p: string, sep: string, rest: string, m: nat)
    requires Marked(sep, m) && sep[m] !in p && |p| > 0
    ensures (p + sep + rest)[..|sep|] != sep
  {
    var s := p + sep + rest;
    if m < |p| {
      assert s[m] == p[m];
    } else {
      assert s[m] == sep[m - |p|];
      assert sep[m - |p|] in sep[..m];
    }
    assert s[..|sep|][m] == s[m];
  }

  lemma NoOccurrence(p: string, sep: string, m: nat)
    requires Marked(sep, m)
    requires sep[m] !in p
    ensures IndexOf(p, sep) == None
  {
  }

  lemma SplitAt(s: string, sep: string, i: nat)
    requires |sep| > 0
    requires IndexOf(s, sep) == Some(i)
    ensures Split(s, sep) == [s[..i]] + Split(s[i + |sep|..], sep)
  {
  }

  /** Splitting a join recovers the parts, provided no part contains the
      separator's marker character. */
  lemma {:induction false} SplitJoin(parts: seq<string>, sep: string, m: nat)
    requires |parts| >= 1
    requires Marked(sep, m)
    requires forall i :: 0 <= i < |parts| ==> sep[m] !in parts[i]
    ensures Split(Join(parts, sep), sep) == parts
    decreases |parts|
  {
    if |parts| == 1 {
      NoOccurrence(parts[0], sep, m);
    } else {
      var rest := Join(parts[1..], sep);
      FirstOccurrenceAfter(parts[0], sep, rest, m);
      var s := parts[0] + sep + rest;
      assert Join(parts, sep) == s;
      SplitAt(s, sep, |parts[0]|);
      assert s[..|parts[0]|] == parts[0];
      assert s[|parts[0]| + |sep|..] == rest;
      SplitJoin(parts[1..], sep, m);
      assert parts == [parts[0]] + parts[1..];
    }
  }

  // ---- decimal numbers ----

  predicate IsDigit(c: char) {
    '0' <= c <= '9'
  }

  function DigitChar(d: nat): (c: char)
    requires d < 10
    ensures IsDigit(c)
  {
    (48 + d) as char
  }

  function DigitValue(c: char): nat
    requires IsDigit(c)
  {
    (c as int) - 48
  }

  predicate AllDigits(s: string) {
    forall i :: 0 <= i < |s| ==> IsDigit(s[i])
  }

  /** Decimal rendering of a natural number (JavaScript `${n}`). */
  function Decimal(n: nat): (s: string)
    ensures |s| > 0 && AllDigits(s)
  {
    if n < 10 then [DigitChar(n)] else Decimal(n / 10) + [DigitChar(n % 10)]
  }

  /** Value of a string of decimal digits. */
  function DigitsValue(s: string): nat
    requires AllDigits(s)
  {
    if |s| == 0 then 0 else DigitsValue(s[..|s| - 1]) * 10 + DigitValue(s[|s| - 1])
  }

  /** Length of the longest run of digits at the start of `s`. */
  function DigitRun(s: string): (k: nat)
    ensures k <= |s| && AllDigits(s[..k])
    ensures k < |s| ==> !IsDigit(s[k])
  {
    if |s| == 0 || !IsDigit(s[0]) then 0
    else
      var k := DigitRun(s[1..]);
      assert s[..k + 1] == [s[0]] + s[1..][..k];
      k + 1
  }

  /** JavaScript `parseInt` on unsigned decimal text: the value of the
      leading digits, `None` (NaN) when there are none. */
  function ParseInt(s: string): (r: Option<nat>) {
    var k := DigitRun(s);
    if k == 0 then None else Some(DigitsValue(s[..k]))
  }

  lemma {:induction false} DecimalValue(n: nat)
    ensures DigitsValue(Decimal(n)) == n
  {
    if n >= 10 {
      var s := Decimal(n);
      assert s[..|s| - 1] == Decimal(n / 10);
      DecimalValue(n / 10);
    }
  }

  lemma {:induction false} DigitRunOfDigits(d: string, rest: string)
    requires AllDigits(d)
    requires |rest| == 0 || !IsDigit(rest[0])
    ensures DigitRun(d + rest) == |d|
    decreases |d|
  {
    if |d| > 0 {
      assert (d + rest)[1..] == d[1..] + rest;
      DigitRunOfDigits(d[1..], rest);
    } else {
      assert d + rest == rest;
    }
  }

  /** `parseInt` reads back a rendered number followed by any non-digit text. */
  lemma ParseDecimal(n: nat, rest: string)
    requires |rest| == 0 || !IsDigit(rest[0])
    ensures ParseInt(Decimal(n) + rest) == Some(n)
  {
    var d := Decimal(n);
    DigitRunOfDigits(d, rest);
    assert (d + rest)[..|d|] == d;
    DecimalValue(n);
  }

  lemma DecimalInjective(a: nat, b: nat)
    requires Decimal(a) == Decimal(b)
    ensures a == b
  {
    DecimalValue(a);
    DecimalValue(b);
  }

  // ---- code-point order (Redis orders equal-score members by their bytes) ----

  /** Lexicographic strict order on strings by code point. */
  predicate StrLess(a: string, b: string)
    decreases |a|
  {
    if |a| == 0 then |b| > 0
    else if |b| == 0 then false
    else if a[0] < b[0] then true
    else if a[0] > b[0] then false
    else StrLess(a[1..], b[1..])
  }

  lemma {:induction false} StrLessIrreflexive(a: string)
    ensures !StrLess(a, a)
    decreases |a|
  {
    if |a| > 0 {
      StrLessIrreflexive(a[1..]);
    }
  }

  lemma {:induction false} StrLessTransitive(a: string, b: string, c: string)
    requires StrLess(a, b) && StrLess(b, c)
    ensures StrLess(a, c)
    decreases |a|
  {
    if |a| > 0 && |b| > 0 && |c| > 0 && a[0] == b[0] && b[0] == c[0] {
      StrLessTransitive(a[1..], b[1..], c[1..]);
    }
  }

  lemma {:induction false} StrLessTotal(a: string, b: string)
    requires a != b
    ensures StrLess(a, b) || StrLess(b, a)
    decreases |a|
  {
    if |a| > 0 && |b| > 0 && a[0] == b[0] {
      assert a == [a[0]] + a[1..] && b == [b[0]] + b[1..];
      StrLessTotal(a[1..], b[1..]);
    }
  }
}

=== FILE: types.dfy ===
/** Shared vocabulary of the queue: items, modes, stored counts and the
    small JavaScript idioms (`a || b`, truthiness of optional numbers) that
    the engine and the backends lean on. */
module Types {

  /** An optional value; `None` stands for JavaScript's `undefined`. */
  datatype Option<+T> = None | Some(value: T) {
    function GetOr(default: T): T {
      match this
      case Some(v) => v
      case None => default
    }
  }

  /** Either a value or the error the source would throw. */
  datatype Result<+R, +E> = Success(value: R) | Failure(error: E) {
    predicate IsFailure() {
      Failure?
    }
  }

  /** Dequeue discipline: FIFO pops the oldest items, LIFO the newest. */
  datatype Kind = FIFO | LIFO

  /** A queued item: its push timestamp and the JSON text of its value.
      Values are represented by their JSON text, so `JSON.parse` of a
      stored value is that text itself. */
  datatype QueueItem = QueueItem(pushTimestamp: nat, value: string)

  /** Point-in-time map from key to the number of pending items. */
  type StoredCount = map<string, int>

  /** What the `shiftFIFO`/`shiftLIFO` storage calls hand back. */
  datatype ShiftOutput = ShiftOutput(storedCount: StoredCount, items: seq<QueueItem>)

  /** Count for a key, 0 when the key is absent from the snapshot. */
  function CountOf(c: StoredCount, key: string): int {
    if key in c then c[key] else 0
  }

  /** True when some key of the snapshot reports a non-zero count. */
  predicate AnyPending(c: StoredCount) {
    exists k :: k in c && c[k] != 0
  }

  /** JavaScript truthiness of an optional number (`undefined` and 0 are falsy). */
  predicate Truthy(n: Option<int>) {
    n.Some? && n.value != 0
  }

  /** JavaScript `a || b` on optional numbers. */
  function Or(a: Option<int>, b: Option<int>): (r: Option<int>)
    ensures Truthy(a) ==> r == a
    ensures !Truthy(a) ==> r == b
  {
    if Truthy(a) then a else b
  }

  /** Number of elements a pop of `count` takes from `len` available ones:
      `count` clamped to `0 .. len`. */
  function Taken(count: int, len: nat): (n: nat)
    ensures n <= len
    ensures count <= 0 ==> n == 0
    ensures 0 <= count <= len ==> n == count
    ensures count >= len ==> n == len
  {
    if count <= 0 then 0 else if count < len then count else len
  }

  function Reverse<T>(s: seq<T>): (r: seq<T>)
    ensures |r| == |s|
    ensures forall i :: 0 <= i < |s| ==> r[i] == s[|s| - 1 - i]
  {
    if |s| == 0 then [] else Reverse(s[1..]) + [s[0]]
  }

  lemma ReverseReverse<T>(s: seq<T>)
    ensures Reverse(Reverse(s)) == s
  {
  }

  lemma ReverseAppend<T>(a: seq<T>, b: seq<T>)
    ensures Reverse(a + b) == Reverse(b) + Reverse(a)
  {
  }

  lemma ReverseSlices<T>(s: seq<T>, n: nat)
    requires n <= |s|
    ensures Reverse(s)[..n] == Reverse(s[|s| - n..])
    ensures Reverse(s)[n..] == Reverse(s[..|s| - n])
  {
    var a, b := s[..|s| - n], s[|s| - n..];
    SliceJoin(s, |s| - n);
    ReverseAppend(a, b);
    ConcatSlices(Reverse(b), Reverse(a));
  }

  lemma SliceJoin<T>(s: seq<T>, k: nat)
    requires k <= |s|
    ensures s[..k] + s[k..] == s
  {
  }

  lemma AppendAssoc<T>(x: seq<T>, y: seq<T>, z: seq<T>)
    ensures (x + y) + z == x + (y + z)
  {
  }

  lemma ConcatSlices<T>(x: seq<T>, y: seq<T>)
    ensures (x + y)[..|x|] == x && (x + y)[|x|..] == y
  {
  }

  /** Elements of `s` that satisfy `p`, in their original order. */
  function Filter<T(!new)>(s: seq<T>, p: T -> bool): (r: seq<T>)
    ensures |r| <= |s|
    ensures forall x :: x in r <==> x in s && p(x)
  {
    if |s| == 0 then []
    else if p(s[0]) then [s[0]] + Filter(s[1..], p)
    else Filter(s[1..], p)
  }

  lemma FilterAppend<T(!new)>(a: seq<T>, b: seq<T>, p: T -> bool)
    ensures Filter(a + b, p) == Filter(a, p) + Filter(b, p)
  {
    if |a| == 0 {
      assert a + b == b;
    } else {
      assert (a + b)[1..] == a[1..] + b;
      FilterAppend(a[1..], b, p);
    }
  }

  lemma FilterFilter<T(!new)>(s: seq<T>, p: T -> bool, q: T -> bool)
    ensures Filter(Filter(s, p), q) == Filter(s, x => p(x) && q(x))
  {
  }

  lemma FilterSame<T(!new)>(s: seq<T>, p: T -> bool, q: T -> bool)
    requires forall i :: 0 <= i < |s| ==> p(s[i]) == q(s[i])
    ensures Filter(s, p) == Filter(s, q)
  {
    if |s| > 0 {
      FilterSame(s[1..], p, q);
    }
  }

  lemma FilterAll<T(!new)>(s: seq<T>, p: T -> bool)
    requires forall i :: 0 <= i < |s| ==> p(s[i])
    ensures Filter(s, p) == s
  {
    if |s| > 0 {
      FilterAll(s[1..], p);
    }
  }

  lemma FilterNone<T(!new)>(s: seq<T>, p: T -> bool)
    requires forall i :: 0 <= i < |s| ==> !p(s[i])
    ensures Filter(s, p) == []
  {
    if |s| > 0 {
      FilterNone(s[1..], p);
    }
  }

  /** Elements of `s` are pairwise distinct. */
  predicate Distinct<T(==)>(s: seq<T>) {
    forall i, j :: 0 <= i < j < |s| ==> s[i] != s[j]
  }

  /** Position of the first element equal to `x`, or -1: JavaScript `indexOf`. */
  function SeqIndexOf<T(==)>(s: seq<T>, x: T): (i: int)
    ensures -1 <= i < |s|
    ensures i == -1 <==> x !in s
    ensures 0 <= i ==> s[i] == x
  {
    if |s| == 0 then -1
    else if s[0] == x then 0
    else
      var j := SeqIndexOf(s[1..], x);
      if j == -1 then -1 else j + 1
  }

  /** `indexOf` finds the first occurrence: `x` is nowhere before it. */
  lemma {:induction false} SeqIndexOfFirst<T>(s: seq<T>, x: T)
    ensures 0 <= SeqIndexOf(s, x) ==> x !in s[..SeqIndexOf(s, x)]
    decreases |s|
  {
    if |s| > 0 && s[0] != x && SeqIndexOf(s[1..], x) != -1 {
      var j := SeqIndexOf(s[1..], x);
      SeqIndexOfFirst(s[1..], x);
      assert s[..j + 1] == [s[0]] + s[1..][..j];
    }
  }

  /** `filter` of a list without repeats has no repeats. */
  lemma {:induction false} FilterDistinct<T(!new)>(s: seq<T>, p: T -> bool)
    requires Distinct(s)
    ensures Distinct(Filter(s, p))
    decreases |s|
  {
    if |s| > 0 {
      var t := s[1..];
      assert Distinct(t) by {
        forall i, j | 0 <= i < j < |t| ensures t[i] != t[j] {
          assert t[i] == s[i + 1] && t[j] == s[j + 1];
        }
      }
      assert s[0] !in t by {
        forall i | 0 <= i < |t| ensures t[i] != s[0] {
          assert t[i] == s[i + 1];
        }
      }
      FilterDistinct(t, p);
    }
  }

  /** Past a prefix that lacks `x`, `indexOf` counts from the prefix's end. */
  lemma {:induction false} SeqIndexOfAppend<T>(a: seq<T>, b: seq<T>, x: T)
    requires x !in a
    ensures SeqIndexOf(a + b, x) == if x in b then |a| + SeqIndexOf(b, x) else -1
    decreases |a|
  {
    if |a| > 0 {
      assert (a + b)[1..] == a[1..] + b;
      SeqIndexOfAppend(a[1..], b, x);
    } else {
      assert a + b == b;
    }
  }

  /** `filter` keeps relative order: of two kept elements of a list without
      repeats, the one that came first still comes first. */
  lemma {:induction false} FilterOrder<T(!new)>(s: seq<T>, p: T -> bool, x: T, y: T)
    requires Distinct(s)
    requires x in Filter(s, p) && y in Filter(s, p)
    ensures SeqIndexOf(Filter(s, p), x) < SeqIndexOf(Filter(s, p), y) <==> SeqIndexOf(s, x) < SeqIndexOf(s, y)
    decreases |s|
  {
    var t := s[1..];
    assert Distinct(t) by {
      forall i, j | 0 <= i < j < |t| ensures t[i] != t[j] {
        assert t[i] == s[i + 1] && t[j] == s[j + 1];
      }
    }
    assert s[0] !in t by {
      forall i | 0 <= i < |t| ensures t[i] != s[0] {
        assert t[i] == s[i + 1];
      }
    }
    if p(s[0]) {
      assert Filter(s, p) == [s[0]] + Filter(t, p);
      if x != s[0] && y != s[0] {
        FilterOrder(t, p, x, y);
      }
    } else {
      assert Filter(s, p) == Filter(t, p);
      assert x != s[0] && y != s[0];
      FilterOrder(t, p, x, y);
    }
  }

  /** JavaScript `Array.prototype.splice(start, deleteCount)`'s return value:
      the deleted slice, with a negative `start` counted from the end and
      both arguments clamped to the array. */
  function SpliceRemoved<T>(s: seq<T>, start: int, deleteCount: int): (r: seq<T>)
    ensures |r| <= |s|
  {
    var a := if start < 0 then (if |s| + start < 0 then 0 else |s| + start)
             else (if start < |s| then start else |s|);
    var d := if deleteCount < 0 then 0
             else if deleteCount < |s| - a then deleteCount else |s| - a;
    s[a .. a + d]
  }
}
